=== FILE: README.md ===
# fateweaver, modelled in Dafny

fateweaver generates NFT attribute sets and then composites their image layers.

- **Trait pool.** The pool is built from the asset files. Each file name becomes a canonical
  `Attribute/Trait` name, and optional attributes get a synthesised `Attribute/None` entry.
- **Generation.** The generator walks a fixed attribute order. For each attribute it takes the
  attribute's slice of the pool, narrows it with the must-pair and must-not-pair rule groups,
  then draws one trait by a cumulative weighted walk. When the rules remove probability mass,
  that mass is redirected to the `None` trait. If nothing is picked, an optional attribute falls
  back to `None`; a required one fails.
- **Command line.** The `generate-attributes` command shuffles the pool in place, fast-forwards
  the random generator when resuming, and can regenerate only the tokens selected through the
  token index.
- **Outputs.** The results become `{trait_type, value}` metadata and three summaries: attribute
  counts with variant roll-ups, a token index, and trait-count buckets.
- **Image layers.** A `LayerSet` object holds the image layers in drawing order. Layer rules
  (first matching rule only) insert, move and remove layers on a clone while iterating over a
  snapshot of the visible layers.

The model is split into one module per concern:

| file | module | models |
|---|---|---|
| `wrappers.dfy`, `seqs.dfy` | `Wrappers`, `Seqs` | `Option`/`Result`; filtering, counting and subsequences (helpers) |
| `jsstrings.dfy` | `JsStrings` | the JavaScript string built-ins the code relies on: `indexOf`, first-occurrence `replace`, `split`, `trim` |
| `glob.dfy` | `Glob` | `src/glob.ts`, plus the regex subset that its patterns use |
| `canonical.dfy` | `Canonical` | `src/attributes/canonical.ts` |
| `attribute_set.dfy` | `AttributeSets` | a JS record of attribute to trait, as its entries in insertion order (see "## Left out" for array-index keys) |
| `transform.dfy` | `Transform` | `config/attributes/transform.ts` |
| `attribute_rules.dfy` | `AttributeRules` | `src/attributes/rules.ts` |
| `rule_filter.dfy` | `RuleFilter` | `filterByRuleSet` in `src/attributes/generate.ts` |
| `random.dfy` | `Random` | the seeded generator, as a stream of draws |
| `weights.dfy` | `Weights` | the first-match weight lookup and `calculateTotalWeightForTraits` |
| `pick.dfy` | `Pick` | `pickTraitWithProbability` |
| `generate.dfy` | `Generate` | `filterTraitsByRules` and `generateAttributeSet` |
| `pool.dfy` | `TraitPool` | the `loadAttributes` loop |
| `metadata.dfy` | `Metadata` | `convertToNftMetadata` and `convertFromNftMetadata` |
| `variant.dfy` | `Variants` | `traitWithoutVariant` |
| `counts.dfy` | `AttributeCounts` | the counting in `writeAttributeCountsToDisk` |
| `token_index.dfy` | `TokenIndex` | the indexing in `writeAttributeTokenIndexToDisk` |
| `trait_counts.dfy` | `TraitCounts` | the bucketing in `writeTraitCountsToDisk` |
| `generate_command.dfy` | `GenerateCommand` | `shuffleArray` and the draw schedule of `main` in `bin/generate-attributes.ts` |
| `layers.dfy` | `Layers` | `src/images/layers.ts`: the `LayerSet` class, its iterator and `resolveFilename` |
| `layer_rules.dfy` | `LayerRules` | `src/images/rules.ts` and `src/images/util.ts` |

How the model represents the source:

- **Imperative parts stay imperative.**
  - The loops (pool building, the weight map, the walk, the rule-group pushes, the per-attribute
    generation, the summaries, the shuffle, the draw schedule, rule formatting) are Dafny
    methods with loops (`for` or `while`).
  - Each method is proved equal to a specification function, and the properties are lemmas
    about those functions.
  - The random generator is the class `Random.Rng`: a fixed stream of draws and a position that
    `Next` advances.
  - `LayerSet` is a class whose `layers` field the methods reassign.
  - The shuffle permutes an `array` in place.
- **Configuration is a parameter.** The module-level tables (`attributeOrder`,
  `optionalAttributes`, `traitProbabilities`, `mustPair`, `mustNotPair`, `LAYER_ORDER`,
  `LAYER_RULES`, `optionalAttributesForSummary`) are passed in. `Generate.Config` bundles the
  attribute tables.
- **Patterns are regex sources.** A compiled pattern is its source text. `Glob.Test` interprets
  the subset that globs of ordinary characters produce: anchors, `.`, escaped characters and a
  starred atom. Other regex operators are read literally (see "## Left out").
  `Glob.CompiledGlobMatches` connects it to a plain glob matcher.
- **Weights are exact reals.** A draw is a real in [0, 1).

## Model

| member | source | states |
|---|---|---|
| Glob.GlobToRegexStr | src/glob.ts:8-10 | The body is the character-by-character rewrite: `*` becomes `.*`, `(` and `)` get a backslash, everything else is copied in order. Its length is the input length plus the number of stars and parentheses. |
| Glob.GlobToRegex | src/glob.ts:4-6 | The compiled source is `^` + body + `$`. |
| Glob.CompiledIsWholeMatch | src/glob.ts:4-6 | Testing a compiled glob matches the body against the whole string, never a substring. |
| Glob.StarlessGlobMatchesItself | src/glob.ts:4-10 | A glob with no `*` matches exactly the string equal to it. |
| Glob.StarAbsorbs | src/glob.ts:8-10 | A leading `*` absorbs any prefix text in front of a match of the rest. |
| Glob.GlobMatchConcat | src/glob.ts:8-10 | Matches of two globs concatenate to a match of the concatenated glob. |
| Glob.StarMatchesAnyText | src/glob.ts:8-10 | `*` matches any text, including the empty one, between matches of what surrounds it. |
| Glob.CompiledGlobMatches | src/glob.ts:4-10 | For a glob with no regex metacharacter other than `*`, and a string without line terminators, the compiled regex accepts exactly the strings the glob matches. |
| Glob.FirstMatchIndex | src/images/rules.ts:22-28 | Index of the first table entry whose pattern accepts the string, or -1 when none does; no earlier entry accepts. |
| Glob.FirstMatch | src/images/rules.ts:22-28 | The value of the first accepting entry; `None` exactly when no entry accepts. |
| JsStrings.IndexOf | src/attributes/canonical.ts:5-7 | `indexOf`: the first position where the pattern occurs, or -1 exactly when it occurs nowhere. |
| JsStrings.ReplaceFirst | src/attributes/canonical.ts:5-7 | String `replace`: only the first occurrence is replaced; no occurrence leaves the string as it is. |
| JsStrings.Split | src/attributes/canonical.ts:9-15 | `split`: at least one part, and no part contains the separator. |
| JsStrings.JoinSplit | src/attributes/canonical.ts:9-15 | Joining the parts with the separator gives back the string. |
| JsStrings.SplitHead | src/attributes/canonical.ts:9-11 | The first part is the prefix up to the first separator; there is one part exactly when the separator is absent. |
| JsStrings.Trim | src/attributes/io.ts:96 | `trim`: the longest slice starting after the leading white space whose ends are not white space, with only white space after it. |
| Canonical.CanonicalFromAssetPath | src/attributes/canonical.ts:5-7 | `assets/<name>.png` maps back to `<name>` when `<name>` contains no `.png`; only the first `assets/` and the first `.png` are removed. |
| Canonical.CanonicalAttributeNameFromFile | src/attributes/canonical.ts:5-7 | A path holding neither `assets/` nor `.png` is its own canonical name; otherwise at most the 7 characters of one `assets/` and the 4 of one `.png` are removed. |
| Canonical.ExtractAttributeName | src/attributes/canonical.ts:9-11 | The text before the first `/`, or the whole string when there is no `/`. |
| Canonical.ExtractTraitName | src/attributes/canonical.ts:13-15 | Undefined exactly when there is no `/`; otherwise the text between the first and the second `/`. |
| Canonical.CanonicalRoundTrip | src/attributes/canonical.ts:9-19 | For an attribute free of `/`, the attribute comes back out of `attribute/trait` whatever the trait name holds; when the trait name is free of `/` too, so does the trait name. |
| Canonical.CreateCanonicalName | src/attributes/canonical.ts:17-19 | The name is one character longer than the attribute and the trait name together, with the `/` right after the attribute; `CanonicalRoundTrip` states what comes back out of it. |
| Canonical.CanonicalSplitJoin | src/attributes/canonical.ts:13-15 | The trait name is the whole rest after the first `/` exactly when that rest holds no further `/`. |
| AttributeSets.Keys | src/types.ts:1 | Keys in insertion order, one per entry. This is JavaScript's listing order when no key is an array index. |
| AttributeSets.Get | src/types.ts:1 | Record lookup: `None` exactly when the key is absent, otherwise a value stored under the key. |
| AttributeSets.GetWellFormed | src/types.ts:1 | In a record with distinct keys, each entry is what a lookup of its key returns. |
| AttributeSets.Assign | src/attributes/generate.ts:41 | Record assignment: an existing key keeps its place, a new key is appended (JavaScript's listing order for a key that is not an array index). |
| AttributeSets.AssignGet | src/attributes/generate.ts:41 | After the assignment the key reads the new value and every other key reads as before. |
| AttributeSets.AssignWellFormed | src/attributes/generate.ts:41 | Assignment keeps the keys distinct. |
| AttributeSets.AssignEntries | src/attributes/generate.ts:41 | Assignment adds only the new entry; every other entry is an old one. |
| AttributeSets.AssignNew | src/attributes/generate.ts:41 | Assigning an absent key appends one entry (JavaScript's listing order for a key that is not an array index). |
| Transform.TransformInternalAttributes | config/attributes/transform.ts:9-13 | Returns its input unchanged. |
| Transform.RemoveNoneTraits | config/attributes/transform.ts:28-32 | Keeps, in order, exactly the entries whose value is not `None`. |
| Transform.ProcessFinalAttributeSet | config/attributes/transform.ts:19-26 | No output value is `None`; every non-`None` entry of the input is kept; the output is an ordered subsequence of the input. |
| Transform.ProcessFinalIdempotent | config/attributes/transform.ts:19-32 | Applying it twice is the same as applying it once. |
| Transform.ProcessFinalConcat | config/attributes/transform.ts:28-32 | It distributes over concatenation, so each entry is judged on its own. |
| Transform.ProcessFinalGet | config/attributes/transform.ts:19-32 | A key whose value was `None` disappears; every other key keeps its value. |
| AttributeRules.CompileRule | src/attributes/rules.ts:9-10 | A regex rule is returned unchanged; a string rule becomes `globToRegex` of it. |
| AttributeRules.FormatRuleSet | src/attributes/rules.ts:5-12 | Same number of groups, each group the same length, and every entry compiled in place. |
| AttributeRules.FormatFormatted | src/attributes/rules.ts:5-12 | Formatting an already formatted rule set changes nothing. |
| AttributeRules.GlobRuleMatches | src/attributes/rules.ts:10 | A formatted string rule accepts exactly the strings its glob matches. |
| RuleFilter.MatchingRules | src/attributes/generate.ts:100-106 | The number of rules of a group that match some candidate is positive exactly when one exists. |
| RuleFilter.GroupPushesMembers | src/attributes/generate.ts:95-107 | The pushes for one group are copies of that group, and happen exactly when some rule matches an already-picked trait and some rule matches a candidate. |
| RuleFilter.PushesMembers | src/attributes/generate.ts:93-109 | The matched rule set holds exactly the groups that are active for the pass's input, whatever the number of copies. |
| RuleFilter.ApplyGroupsIsFilter | src/attributes/generate.ts:115-117 | The chain of filters is one filter that keeps the traits every pushed group accepts. |
| RuleFilter.RuleSetFilterMeaning | src/attributes/generate.ts:85-122 | The pass keeps, in order, the candidates the matcher accepts for every active group. Duplicate pushes and the absence of active groups change nothing. |
| RuleFilter.FilterByRuleSet | src/attributes/generate.ts:85-122 | The loops compute that filter. |
| RuleFilter.PushGroup | src/attributes/generate.ts:95-107 | One group's inner loops append that group's pushes. |
| RuleFilter.PushMatching | src/attributes/generate.ts:100-106 | The innermost loop pushes the group once per rule that matches a candidate. |
| Random.Rng.constructor | bin/generate-attributes.ts:77-78 | A generator is a fixed stream of draws and a position in it. |
| Random.Rng.Next | src/attributes/generate.ts:209 | A call to `rng()` returns the draw at the position and advances it by one. |
| Weights.ProbabilityKeys | src/attributes/generate.ts:18-20 | One compiled pattern per probability key, in declaration order, each with its weight. |
| Weights.WeightOf | src/attributes/generate.ts:159-170 | The weight of a trait is never negative when the table's weights are not. |
| Weights.WeightOfFirstMatch | src/attributes/generate.ts:55-60 | The weight is that of the first pattern in declaration order that matches the trait, and 0 when none does. |
| Weights.ListedTraitWeight | src/attributes/generate.ts:55-60 | A trait listed literally gets its listed weight when no earlier pattern matches it. |
| Weights.TotalWeight | src/attributes/generate.ts:53-62 | The summed weight of a trait list is non-negative for non-negative weights. |
| Weights.TotalWeightAppend | src/attributes/generate.ts:53-62 | The sum over a concatenation is the sum of the sums. |
| Weights.TotalWeightPartition | src/attributes/generate.ts:53-62 | The weights of the traits kept by a filter and of those it drops add up to the total. |
| Weights.FilteredWeightAtMost | src/attributes/generate.ts:37-38 | Filtering never increases the total weight, so `originalWeight` is at least the filtered sum. |
| Pick.NoneTraitPrefix | src/attributes/generate.ts:186 | The None trait of an attribute starts with `attribute/`. |
| Pick.EffectiveWeights | src/attributes/generate.ts:159-198 | One weight per candidate: its table weight, or the raised weight for `Attr/None` when renormalisation applies. |
| Pick.WalkFrom | src/attributes/generate.ts:213-222 | The walk stops, if it stops, at a candidate index within range. |
| Pick.Walk | src/attributes/generate.ts:213-222 | The picked index is in range. |
| Pick.WalkFromReach | src/attributes/generate.ts:213-222 | Continuing from a prefix whose sums stay below the threshold picks the first index whose cumulative sum reaches the threshold, or none when no sum reaches it. |
| Pick.WalkFirstReach | src/attributes/generate.ts:213-222 | The walk picks the first candidate whose cumulative sum is at least the threshold, and picks nothing exactly when every cumulative sum is below it. |
| Pick.WalkSkipsWeightless | src/attributes/generate.ts:213-222 | With a positive threshold, the picked candidate has positive weight. |
| Pick.PickSpec | src/attributes/generate.ts:146-245 | The result is one of the candidates, or `Attr/None` for an optional attribute. It fails only for a required attribute, with "Unable to pick trait for attribute". |
| Pick.ThresholdBounds | src/attributes/generate.ts:209 | The threshold lies in [0, total], and is positive for a positive draw and a positive total. |
| Pick.PrefixSumEffective | src/attributes/generate.ts:185-222 | The cumulative effective weight is the cumulative table weight plus the mass already redirected to `None`. |
| Pick.RenormalisedTotal | src/attributes/generate.ts:185-199 | When `Attr/None` is a candidate with positive weight, the last cumulative sum equals `originalWeight`, the total used for the threshold. |
| Pick.PlainTotal | src/attributes/generate.ts:200-202 | Without renormalisation, the last cumulative sum equals the sum of the candidates' weights, the total used for the threshold. |
| Pick.PickSucceedsIffCandidates | src/attributes/generate.ts:185-241 | With exact arithmetic, a non-empty candidate list always yields one of its members. An empty list yields `Attr/None` for an optional attribute and the error for a required one. |
| Pick.ZeroDrawPicksFirst | src/attributes/generate.ts:209-222 | A draw of 0 picks the first candidate, even one of weight 0. |
| Pick.PositiveDrawSkipsWeightless | src/attributes/generate.ts:209-222 | A positive draw against a positive total never walks onto a weightless candidate. |
| Pick.WeighCandidates | src/attributes/generate.ts:159-171 | The weight map has exactly the candidates as keys, each with its first-match weight. |
| Pick.SumWeights | src/attributes/generate.ts:176-179 | The reduce gives the total weight of the candidates. |
| Pick.WalkCandidates | src/attributes/generate.ts:213-222 | The loop with a running sum returns the candidate `Walk` picks, or `""`. |
| Pick.RenormaliseNone | src/attributes/generate.ts:185-202 | After the adjustment every candidate maps to its effective weight, and the total is the one the walk uses. |
| Pick.PickTraitWithProbability | src/attributes/generate.ts:146-245 | Consumes exactly one draw and returns what `PickSpec` says for that draw. |
| Generate.Candidates | src/attributes/generate.ts:33-35 | Exactly the pool traits that start with `attribute/`, in pool order. |
| Generate.PickedTraits | src/attributes/generate.ts:77-79 | One canonical name `attribute/trait` per picked entry, in insertion order. |
| Generate.TraitFilter | src/attributes/generate.ts:72-139 | The result is no longer than the input and holds only input traits. |
| Generate.TraitFilterMeaning | src/attributes/generate.ts:124-138 | The must-pair pass runs on the candidates and the must-not-pair pass on its output, each as its rule-set filter. The result is an ordered subsequence of the input. |
| Generate.TraitFilterEmpty | src/attributes/generate.ts:72-139 | An empty candidate list stays empty. |
| Generate.TraitFilterWeight | src/attributes/generate.ts:37-38 | The filtered candidates never weigh more than `originalWeight`. |
| Generate.FilterTraitsByRules | src/attributes/generate.ts:72-139 | The two passes compute `TraitFilter`. |
| Generate.PickHasTraitName | src/attributes/generate.ts:41-43 | Every successful pick is named `attribute/...`, so extracting its trait name is defined. |
| Generate.DrawsFrom | src/attributes/generate.ts:209 | The draws taken are as many as asked for. |
| Generate.DrawsPrefix | src/attributes/generate.ts:31-48 | Fewer draws from the same position are a prefix of more. |
| Generate.RunStepsNext | src/attributes/generate.ts:31-48 | One more attribute applies the step to the map built so far. |
| Generate.ErrorIsFinal | src/attributes/generate.ts:44-47 | Once a step fails, later draws do not change the outcome. |
| Generate.GenStepOutcome | src/attributes/generate.ts:33-47 | One attribute fails exactly when its filtered candidates are empty and it is required. Otherwise it records a value obtainable for that attribute. |
| Generate.RunOutcome | src/attributes/generate.ts:29-48 | After any number of attributes the map is well formed, holds only attributes from the order with obtainable values, and with distinct attributes has exactly the processed ones as keys, in order. |
| Generate.StuckPrefix | src/attributes/generate.ts:31-48 | Whether generation is stuck at an earlier attribute does not depend on later draws. |
| Generate.StuckLast | src/attributes/generate.ts:33-47 | After a successful prefix, the next attribute fails exactly when it is stuck. |
| Generate.RunFailsIffStuck | src/attributes/generate.ts:29-48 | Generation fails exactly when some attribute is reached with no candidate left and is required. |
| Generate.GenerateOutcome | src/attributes/generate.ts:25-51 | The whole set either fails with "Unable to pick trait for attribute", exactly when some attribute is stuck, or has one key per attribute of the order, in insertion order, with obtainable values. |
| Generate.RequiredWithoutTraitsFails | src/attributes/generate.ts:224-241 | A required attribute with no pool traits at all makes generation fail. |
| Generate.PickAttribute | src/attributes/generate.ts:33-47 | One iteration consumes one draw and performs one step. |
| Generate.GenerateAttributeSet | src/attributes/generate.ts:25-51 | The result is `GenerateSpec` over the next `|attributeOrder|` draws; on success exactly that many draws are consumed. |
| TraitPool.TraitPatterns | src/attributes/io.ts:20 | One compiled pattern per probability key. |
| TraitPool.CanonicalNames | src/attributes/io.ts:22-23 | One canonical name per file, in file order. |
| TraitPool.AcceptedIsFilter | src/attributes/io.ts:22-27 | The accepted names are, in file order, the canonical names some probability pattern matches. |
| TraitPool.AttributesOf | src/attributes/io.ts:29-37 | The set of attributes seen is the attribute part of each accepted name. |
| TraitPool.BuildPoolNext | src/attributes/io.ts:29-38 | Each accepted name is pushed, preceded by `Attr/None` when its attribute is optional and seen for the first time. |
| TraitPool.PoolKeepsNames | src/attributes/io.ts:22-39 | The accepted names appear in the pool in order. |
| TraitPool.PoolEntries | src/attributes/io.ts:22-39 | The pool holds exactly the accepted names and one `Attr/None` for each optional attribute that has an accepted name. |
| TraitPool.PoolNoneCount | src/attributes/io.ts:33-35 | The loop adds exactly one `Attr/None` for an optional attribute with accepted names, and none for any other attribute. |
| TraitPool.NoneTraitInjective | src/attributes/io.ts:34 | Different attributes have different None traits. |
| TraitPool.FirstOf | src/attributes/io.ts:33 | The first pool position holding an attribute, with no earlier one. |
| TraitPool.PoolNoneFirst | src/attributes/io.ts:33-38 | For an optional attribute, its first pool entry is `Attr/None`, immediately followed by its first accepted trait. |
| TraitPool.LoadAttributes | src/attributes/io.ts:15-42 | The loop over the file list builds `LoadSpec`. |
| TraitPool.LoadSpecShape | src/attributes/io.ts:15-42 | The pool keeps the accepted names in order and adds only the None traits of optional attributes present. |
| Metadata.ConvertToNftMetadata | src/attributes/io.ts:49-58 | One `{trait_type, value}` record per key, in insertion order, which is the order of `Object.entries` when no attribute name is an array index. |
| Metadata.FoldRecords | src/attributes/io.ts:61-64 | The fold yields a record with distinct keys. |
| Metadata.ConvertFromNftMetadata | src/attributes/io.ts:60-65 | The result has distinct keys. |
| Metadata.LastValueMeaning | src/attributes/io.ts:61-64 | The last value given for a key is the value of its last record, and is absent exactly when no record names the key. |
| Metadata.LaterRecordsWin | src/attributes/io.ts:60-65 | Each key reads the value of its last record: later duplicates overwrite earlier ones. |
| Metadata.MetadataRoundTrip | src/attributes/io.ts:49-65 | Converting to metadata and back gives the same attribute set. |
| Variants.LastOpen | src/attributes/io.ts:95 | The position of the last `(` before a bound, never at position 0 (the greedy group needs one character). |
| Variants.TraitWithoutVariant | src/attributes/io.ts:94-97 | Defined exactly when the value has no line terminator, ends in `)` and has a `(` after its first character with at least one character before the `)`. It is then the trimmed text before the last such `(`. |
| Variants.VariantOfSuffixed | src/attributes/io.ts:94-97 | `X (V)` with a non-empty variant free of `(` maps to `X` trimmed. |
| AttributeCounts.BumpAllCounts | src/attributes/io.ts:104-126 | After the increments, each cell counts its old value plus the occurrences of that pair. |
| AttributeCounts.BumpAllCells | src/attributes/io.ts:106-112 | The rows and cells that exist are the old ones plus those some increment named. |
| AttributeCounts.SummaryContribution | src/attributes/io.ts:105-114 | Every entry counts once under its attribute and value. |
| AttributeCounts.RollupContribution | src/attributes/io.ts:116-122 | An entry counts in the roll-ups under its base trait, and only when that base trait exists and is non-empty. |
| AttributeCounts.EntryPairsCount | src/attributes/io.ts:105-123 | In one result each attribute is counted at most once, under its value's key. |
| AttributeCounts.ResultsPairsCount | src/attributes/io.ts:104-126 | Over all results, a pair is counted once per result that holds it. |
| AttributeCounts.SummaryRowKeys | src/attributes/io.ts:104-126 | The summary has a row exactly for the attributes that occur in the results. |
| AttributeCounts.TallyMeaning | src/attributes/io.ts:104-126 | A count is the number of results holding the pair, and a cell exists exactly when that number is positive. |
| AttributeCounts.FillZeroMeaning | src/attributes/io.ts:137-139 | Filling a pool trait adds a zero cell to its row and changes no count. |
| AttributeCounts.FillZerosMeaning | src/attributes/io.ts:135-140 | After the fill, the counts are unchanged. A row's cells are the counted ones plus the pool traits of that attribute. |
| AttributeCounts.PoolRowsFromResults | src/attributes/io.ts:135-140 | When every pool attribute occurs in the results, every row the fill touches exists. |
| AttributeCounts.SummaryMeaning | src/attributes/io.ts:99-140 | The summary has a row per attribute in the results. `summary[a][v]` is the number of results with value `v`, and a cell exists for each value picked or in the pool (0 when never picked). |
| AttributeCounts.RollupMeaning | src/attributes/io.ts:116-122 | The roll-up for a base trait counts the results whose value reduces to it. |
| AttributeCounts.Increment | src/attributes/io.ts:106-114 | Creating the row and cell when missing and adding one raises that count by exactly one. |
| AttributeCounts.CountEntries | src/attributes/io.ts:105-123 | The loop over one result performs its summary and roll-up increments. |
| AttributeCounts.CountAttributes | src/attributes/io.ts:99-140 | The reduce and the fill produce `SummarySpec`, and the roll-ups are the tally of base traits. |
| AttributeCounts.FillPool | src/attributes/io.ts:135-140 | The fill loop produces `FillZeros`. |
| TokenIndex.PushMeaning | src/attributes/io.ts:161-169 | A push appends the id to that one list and creates its row and cell when missing. |
| TokenIndex.PushAllLists | src/attributes/io.ts:159-173 | After the pushes, each list is the old list followed by the ids pushed for it. |
| TokenIndex.EntryPushes | src/attributes/io.ts:160-170 | One push per entry of the result, with the token's id. |
| TokenIndex.TokensWith | src/attributes/io.ts:159-173 | Exactly the ids of the results whose attribute holds the value, in ascending order. |
| TokenIndex.EntryPushesIds | src/attributes/io.ts:160-170 | A result pushes its id under a cell exactly when it holds that value. |
| TokenIndex.IndexPushesIds | src/attributes/io.ts:159-173 | The ids pushed under a cell are the ascending ids of the tokens holding that value. |
| TokenIndex.IndexRowKeys | src/attributes/io.ts:159-173 | The index has a row exactly for the attributes in the results. |
| TokenIndex.FillEmptyListsMeaning | src/attributes/io.ts:175-180 | The fill adds an empty list for pool traits and changes no list. |
| TokenIndex.IndexMeaning | src/attributes/io.ts:155-180 | Token `i` is listed under `[a][v]` exactly when result `i` has value `v` for `a`; lists are ascending; every pool trait has a (possibly empty) entry. |
| TokenIndex.PushId | src/attributes/io.ts:165-169 | Appends the id to the one list. |
| TokenIndex.IndexEntries | src/attributes/io.ts:160-170 | The loop over one result performs its pushes. |
| TokenIndex.IndexTokens | src/attributes/io.ts:155-180 | The reduce and the fill produce `IndexSpec`. |
| TokenIndex.FillIndexPool | src/attributes/io.ts:175-180 | The fill loop produces `FillEmptyLists`. |
| TraitCounts.TraitCount | src/attributes/io.ts:210-215 | At most the number of summary attributes. |
| TraitCounts.TraitCountFull | src/attributes/io.ts:212-215 | The count is full exactly when no summary attribute holds `None` (a missing one counts as held). |
| TraitCounts.TraitCountZero | src/attributes/io.ts:212-215 | The count is 0 exactly when every summary attribute holds `None`. |
| TraitCounts.SummaryBounds | src/attributes/io.ts:217-218 | Every bucket key is at most the number of summary attributes and has a positive count. |
| TraitCounts.TokensBounds | src/attributes/io.ts:220-221 | Every token bucket key is at most the number of summary attributes. |
| TraitCounts.Bucket | src/attributes/io.ts:208-222 | The ids whose trait count is `c`, in ascending order. |
| TraitCounts.TokensMeaning | src/attributes/io.ts:208-222 | Each token bucket is exactly the ascending list of ids with that count, and exists exactly when non-empty. |
| TraitCounts.OneBucket | src/attributes/io.ts:208-222 | Each token id lands in exactly one bucket: the one of its own count. |
| TraitCounts.BucketsAscending | src/attributes/io.ts:220-221 | Ids within a bucket are ascending. |
| TraitCounts.SummaryCountsTokens | src/attributes/io.ts:217-221 | The summary and the token buckets have the same keys, and each count is the length of its bucket. |
| TraitCounts.BucketsSum | src/attributes/io.ts:208-222 | The bucket counts add up to the number of results. |
| TraitCounts.CountOne | src/attributes/io.ts:210-215 | The inner loop computes the token's trait count. |
| TraitCounts.CountTraits | src/attributes/io.ts:202-222 | The loop produces `SummaryOf` and `TokensOf`. |
| TraitCounts.CountToken | src/attributes/io.ts:209-221 | One iteration extends both maps by the next token. |
| GenerateCommand.SwapPartner | bin/generate-attributes.ts:167 | The partner index lies in [0, i] for a draw in [0, 1). |
| GenerateCommand.SwapPermutes | bin/generate-attributes.ts:168 | A swap permutes the elements. |
| GenerateCommand.ShuffledPermutes | bin/generate-attributes.ts:165-170 | The shuffle is a permutation of the original contents. |
| GenerateCommand.ShuffleArray | bin/generate-attributes.ts:165-170 | The in-place shuffle consumes exactly max(n-1, 0) draws, leaves the array as `Shuffled` of its old contents for those draws, and permutes it. |
| GenerateCommand.SwapDown | bin/generate-attributes.ts:166-169 | One iteration consumes one draw and performs the next swap. |
| GenerateCommand.TokenSetsApply | bin/generate-attributes.ts:99-130 | For per-token sets that generate each token from its own draws, token `i`'s set is generated from the `|attributeOrder|` draws starting `i * |attributeOrder|` past the base position. |
| GenerateCommand.TokenSetsGenerate | bin/generate-attributes.ts:99-130 | Such per-token sets exist for every pool, stream and base: `TokenSets` is one. |
| GenerateCommand.RunErrorIsFinal | bin/generate-attributes.ts:104-148 | A failing token stops the run; later tokens do not change the outcome. |
| GenerateCommand.RunNext | bin/generate-attributes.ts:104-148 | One more token appends its set when selected, skips it otherwise, or fails. |
| GenerateCommand.SkipDraws | bin/generate-attributes.ts:99 | Fast-forwarding consumes exactly `n` draws. |
| GenerateCommand.GenerateTokens | bin/generate-attributes.ts:90-148 | The pool is shuffled in place. The results are the `Run`, over the requested ids, of per-token sets in which token `i` is generated from the draws starting at the shuffle's draws + `i * |attributeOrder|`, whether earlier tokens were skipped or generated: the selected tokens' sets, in order. |
| GenerateCommand.GenerateFrom | bin/generate-attributes.ts:99-148 | From the resumed position, the loop produces `Run` and consumes `|attributeOrder|` draws per token. |
| GenerateCommand.NextToken | bin/generate-attributes.ts:105-133 | A skipped token consumes `|attributeOrder|` draws, the same as a generated one. |
| GenerateCommand.SelectedIds | bin/generate-attributes.ts:104-128 | The ids in range that the filter selects, ascending. |
| GenerateCommand.ParseTraitOption | bin/generate-attributes.ts:105-107 | The attribute is the text before the first `/` of the option; the compiled glob (the text after it, up to any second `/`) matches a trait exactly when its body matches the whole trait name, which for a glob free of other metacharacters is exactly when the glob matches the trait name. |
| GenerateCommand.RunIsPerToken | bin/generate-attributes.ts:104-148 | The k-th result is the set generated for the k-th selected id. |
| GenerateCommand.AllIds | bin/generate-attributes.ts:104 | Without a filter every id in range is selected, in order. |
| GenerateCommand.ResumeAgrees | bin/generate-attributes.ts:97-148 | A resumed or filtered run regenerates each selected token exactly as a full run from 0 would. |
| GenerateCommand.FilterSelectsMatching | bin/generate-attributes.ts:105-118 | Under `--trait`, token `i` is regenerated exactly when the earlier result `i` holds, for that attribute, a value the glob matches. |
| Layers.ResolvedIsAssetFile | src/images/layers.ts:160-162 | The file of a trait is `./assets/attribute/trait.png`. |
| Layers.IndexOfAttribute | src/images/layers.ts:52-54 | `findIndex` by attribute: the first such layer, or -1 when there is none. |
| Layers.IndexOfName | src/images/layers.ts:92-94 | `findIndex` by canonical name: the first such layer, or -1. |
| Layers.SpliceStart | src/images/layers.ts:96-102 | `splice` clamps its start into the array, a negative start counting from the end. |
| Layers.SpliceAt | src/images/layers.ts:64 | `splice` replaces the clamped range by the items. |
| Layers.PlaceBeforeAt | src/images/layers.ts:49-67 | Insert-before puts the layer immediately before the first layer of the attribute. With no such layer it goes before the last element, or at 0 when empty. |
| Layers.PlaceAfterAt | src/images/layers.ts:69-87 | Insert-after puts the layer immediately after the first layer of the attribute; with no such layer it goes to the front. |
| Layers.TakeOutAt | src/images/layers.ts:92-96 | A move takes out the first layer with that name. When there is none it takes out the last layer. |
| Layers.PlaceKeepsFiles | src/images/layers.ts:56-66 | Inserted layers have a file, so every layer keeps one. |
| Layers.TakeOutKeepsFiles | src/images/layers.ts:92-96 | Taking a layer out keeps every remaining file. |
| Layers.RemoveKeepsFiles | src/images/layers.ts:44-47 | Removing layers keeps every remaining file. |
| Layers.PlacedMultiset | src/images/layers.ts:49-87 | An insert adds exactly one layer. |
| Layers.TakeOutMultiset | src/images/layers.ts:92-96 | Taking out removes exactly the named layer, or the last one when the name is absent. |
| Layers.MovePermutes | src/images/layers.ts:89-119 | Moving a layer that is in the set permutes the layers. |
| Layers.MoveAbsentDropsLast | src/images/layers.ts:89-119 | Moving a layer that is not in the set replaces the last layer by it. |
| Layers.FirstMatching | src/images/layers.ts:125-128 | The first layer whose canonical name matches; `None` exactly when no layer does. |
| Layers.LayerSet.constructor | src/images/layers.ts:29-38 | One layer per layer-order entry, in order, named `attribute/trait` with file `./assets/attribute/trait.png`. |
| Layers.LayerSet.Clone | src/images/layers.ts:23-27 | A fresh set holding a copy of the layer sequence. |
| Layers.LayerSet.Remove | src/images/layers.ts:44-47 | Deletes every layer of the attribute and keeps the rest in order. |
| Layers.LayerSet.InsertBefore | src/images/layers.ts:49-67 | Adds one new layer, attribute taken from the name and file `./assets/name.png`, at the insert-before place. |
| Layers.LayerSet.InsertAfter | src/images/layers.ts:69-87 | Adds one new layer at the insert-after place. |
| Layers.LayerSet.MoveBefore | src/images/layers.ts:89-103 | Takes the layer out, then inserts it before the attribute as found after the removal. |
| Layers.LayerSet.MoveAfter | src/images/layers.ts:105-119 | Takes the layer out, then inserts it after the attribute as found after the removal. |
| Layers.LayerSet.Find | src/images/layers.ts:125-128 | A layer, including a None one, whose canonical name matches, and the first such; `None` exactly when there is none. |
| Layers.LayerSet.Has | src/images/layers.ts:121-123 | True exactly when some layer's canonical name matches. |
| Layers.LayerSet.Get | src/images/layers.ts:130-135 | Exactly the layers whose name does not end in `/None` and that have a file. |
| Layers.GetMeaning | src/images/layers.ts:130-135 | `get()` is an ordered subsequence; when every layer has a file it keeps exactly the non-None layers. |
| Layers.LayerSet.Iterator | src/images/layers.ts:137-152 | The iterator walks a snapshot of `get()` taken at its creation, from the start. |
| Layers.LayerIterator.constructor | src/images/layers.ts:138-139 | The iterator starts at the first layer of its snapshot. |
| Layers.LayerIterator.Next | src/images/layers.ts:142-150 | Yields the next snapshot layer, or reports done after the last one. |
| LayerRules.ActionsNext | src/images/rules.ts:30 | A rule's actions apply one after another. |
| LayerRules.ApplySpecNext | src/images/rules.ts:17-31 | Visiting one more layer applies its rule to the result so far. |
| LayerRules.RunAction | src/images/rules.ts:30 | One rule action performs the corresponding `LayerSet` method on the clone. |
| LayerRules.RunRule | src/images/rules.ts:30 | A rule performs its actions in order on the clone. |
| LayerRules.FirstRule | src/images/rules.ts:22-28 | The rule of the first pattern, in map order, that matches the name. |
| LayerRules.Visit | src/images/rules.ts:17-31 | A visited layer fires at most one rule: the first that matches its canonical name. |
| LayerRules.ApplyLayerRules | src/images/rules.ts:15-34 | The result is a fresh clone. The visited layers are the input's `get()` at the start, in order, whatever the rules do. The input's layers are unchanged. |
| LayerRules.Constructed | src/images/layers.ts:155-158 | One layer per layer-order entry. |
| LayerRules.ProcessAttributesToLayers | src/images/layers.ts:155-158 | Builds the set and applies the rules to its visible layers. |
| LayerRules.NoRuleNoChange | src/images/rules.ts:15-34 | When no rule matches any visited layer, the layers stay as they were. |
| LayerRules.ActionLength | src/images/layers.ts:44-119 | A removal never adds layers; an insert adds exactly one; a move keeps the length, and on an empty set leaves one layer. |
| LayerRules.MoveActionPermutes | src/images/layers.ts:89-119 | A move of a layer in the set permutes the layers. |
| LayerRules.ApplyKeepsFiles | src/images/rules.ts:15-34 | No rule ever leaves a layer without a file. |
| LayerRules.AppliedKeepsFiles | src/images/rules.ts:15-34 | Applying the rules to a set whose layers all have files keeps every file. |
| LayerRules.FormatRules | src/images/rules.ts:36-60 | `formatImageRules` and `formatBlendRules`, and their identical copies at src/images/util.ts:14-38: one entry per input key, in key order, with the key compiled by `globToRegex` and the value unchanged. |
| LayerRules.FormattedLookup | src/images/util.ts:14-38 | Looking up a name in the formatted rules gives the value of the first key whose glob matches it. |
| LayerRules.SetEntryKeys | src/images/util.ts:11 | `fromEntries` keeps each key once, at its first position, with the last value given. |
| LayerRules.Dedup | src/images/util.ts:11 | The distinct matchers, each once. |
| LayerRules.RepeatImageRuleMeaning | src/images/util.ts:7-12 | Every matcher maps to the same rule; duplicate matchers collapse to one key, in first-occurrence order. The copy at src/images/rules.ts:8-13 is identical. |

## Left out

- The random generator's algorithm (`seedrandom` xorwow) is not modelled. A generator is the fixed stream of draws in [0, 1) that its seed determines. The seed and its history file are not modelled.
- Floating point is not modelled. Weights, sums and thresholds are exact reals, and `Math.floor(rng() * (i + 1))` is computed exactly. The fallback at src/attributes/generate.ts:224 that only float rounding can reach (a non-empty list with nothing picked) is therefore unreachable here.
- The JavaScript regex engine is not modelled. `Glob.Test` interprets a leading `^`, a trailing `$`, `.`, a backslash escape and a starred atom. It reads every other character literally, including `+ ? [ ] { } |` and a `^` or `$` elsewhere, and it reads `\d`, `\w` and the like as the escaped letter. JavaScript treats those as operators or character classes. `globToRegex` escapes only `(` and `)` (src/glob.ts:8-10), so a glob that holds any of these characters keeps them live in the source and the model gives it a different meaning: `Test(GlobToRegex("a+"), "a+")` holds while `/^a+$/` rejects "a+" and accepts "aa". For such globs the following results can differ from the source: the first-match weight (`Weights.WeightOf`), pool acceptance (`TraitPool`), the must-pair and must-not-pair filters (`RuleFilter`, `Generate.TraitFilter`), the layer search (`Layers.LayerSet.Find`, `Has`), the layer-rule and blend-rule lookups (`LayerRules.FirstRule`, `LayerRules.FormattedLookup`) and the `--trait` selection (`GenerateCommand.ParseTraitOption`, `FilterSelectsMatching`). A raw `RegExp` rule is read with the same subset, so `/Hat|Cap/` means the literal text "Hat|Cap" here.
- Strings are sequences of Unicode code points, while JavaScript strings are sequences of UTF-16 code units. The two agree below U+10000. A character above U+FFFF (an emoji in an asset file name, say) is two code units in JavaScript, so a `.` in a compiled glob matches only half of it: the glob `Hat/a.b`, compiled to `^Hat/a.b$`, rejects `Hat/a` + U+1F600 + `b` in JavaScript, where the model's `.` accepts it. String lengths and `indexOf` positions also count such a character once here and twice in JavaScript.
- Glob.CompiledGlobMatches: stated only for globs free of the regex metacharacters `globToRegex` leaves live (`.`, `+`, `?`, `[` and the like), and for strings without line terminators.
- File and process I/O is not modelled: globbing the asset directory, JSON reading and writing, the output directories, logging, the progress bar and command-line parsing. The file list of `loadAttributes` and the earlier token index are inputs.
- The sorts applied before the summaries are written (count-descending, and `localeCompare` for the index) are not modelled. The model states the contents of each row, not its key order.
- Records with integer-like keys (the trait-count maps) are Dafny maps, which have no order; JavaScript lists those keys in ascending numeric order, and the model does not state that order.
- AttributeCounts.CountAttributes: requires every pool attribute to occur in the results. The source crashes otherwise (src/attributes/io.ts:137 reads a missing row), and the same holds for TokenIndex.IndexTokens at src/attributes/io.ts:177.
- GenerateCommand.GenerateTokens: requires the `--trait` attribute to be a row of the token index. The source crashes on a missing row at bin/generate-attributes.ts:110.
- GenerateCommand.ParseTraitOption: requires the option to hold a `/`. Without one the glob is `undefined` and the source's `globToRegex` throws at bin/generate-attributes.ts:107.
- Generate.GenerateAttributeSet: states the generator's position only on success. On failure the source throws, and the position is not observed.
- GenerateCommand.GenerateFrom: states the generator's position only when every token succeeds, for the same reason.
- AttributeSets.Keys, AttributeSets.Assign, AttributeSets.AssignNew, Metadata.ConvertToNftMetadata: keep every record in insertion order. `Object.keys` and `Object.entries` list array-index keys ("0", "1", "42", ..., canonical decimal numbers below 2^32 - 1) first, in ascending numeric order, and only then the other keys in insertion order. The model does not reorder them, so where an attribute name is an array index it states a different order: the order of the metadata records written by `convertToNftMetadata` (src/attributes/io.ts:50), and the key order of the set built by `generateAttributeSet` (`Generate.GenerateOutcome`'s keys in attribute order). With attributeOrder ["Background", "1"], JavaScript writes the "1" record first and the model writes Background first. Lookups, the key sets and every value are unaffected.
- Metadata.ConvertToNftMetadata: values are strings. The `string | number` value type of `NftMetadata` is not modelled.
- The summaries are computed over the shuffled pool, because `main` shuffles the pool before writing it; the model takes that pool as input.
- Layer-rule callbacks are arbitrary functions in the source. They are modelled as a small command datatype (`LayerRules.Action`) whose actions call the `LayerSet` methods on the clone. A callback that mutates a layer object, keeps references or reads other state is not modelled, and layers are values, so aliasing of layer objects is not modelled.
- config/attributes/definitions.ts, config/attributes/rules.ts, config/images/layers and config/images/rules.ts are not part of this model. Their tables are parameters.
- The blend-mode lookup in src/images/generate.ts is not modelled. It is the same first-match lookup that `Glob.FirstMatch` and `LayerRules.FormattedLookup` state. The image compositing itself is also not modelled.
- The probability table is the list of the object's entries in declaration order; a key written twice in the object literal is already a single entry there. JavaScript would list an array-index key (such as `"7"`) first; this changes no weight, because such a glob matches only a `/`-free name and every candidate holds a `/`.
- The remaining scripts under bin/ (compositing, packaging, search, summary recalculation, duplicate regeneration) and the tests are not part of this model.

=== FILE: attribute_rules.dfy ===
/**
 * Pairing rules as written by the author (src/attributes/rules.ts): each
 * rule is a glob string or a ready regular expression; `formatRuleSet`
 * compiles the strings once.
 */
module AttributeRules {
  import opened Glob

  datatype TraitRule = GlobRule(glob: string) | RegexRule(re: Regex)

  /** Groups of compiled patterns; groups are independent of each other. */
  type RuleSet = seq<seq<Regex>>

  /** One rule in compiled form: a regular expression is taken as it is. */
  function CompileRule(rule: TraitRule): (re: Regex)
    ensures rule.RegexRule? ==> re == rule.re
    ensures rule.GlobRule? ==> Anchors(re.source) == (true, true, GlobToRegexStr(rule.glob))
  {
    match rule
    case RegexRule(re) => re
    case GlobRule(g) => GlobToRegex(g)
  }

  /** `formatRuleSet`: the same groups of the same lengths, every rule compiled in place. */
  function FormatRuleSet(ruleSet: seq<seq<TraitRule>>): (r: RuleSet)
    ensures |r| == |ruleSet|
    ensures forall i :: 0 <= i < |r| ==> |r[i]| == |ruleSet[i]|
    ensures forall i, j :: 0 <= i < |r| && 0 <= j < |r[i]| ==> r[i][j] == CompileRule(ruleSet[i][j])
  {
    seq(|ruleSet|, i requires 0 <= i < |ruleSet| =>
      seq(|ruleSet[i]|, j requires 0 <= j < |ruleSet[i]| => CompileRule(ruleSet[i][j])))
  }

  /** Every compiled rule set written back as regular-expression rules. */
  function AsRegexRules(ruleSet: RuleSet): seq<seq<TraitRule>>
  {
    seq(|ruleSet|, i requires 0 <= i < |ruleSet| =>
      seq(|ruleSet[i]|, j requires 0 <= j < |ruleSet[i]| => RegexRule(ruleSet[i][j])))
  }

  /** Formatting is idempotent: a formatted rule set formats to itself. */
  lemma FormatFormatted(ruleSet: seq<seq<TraitRule>>)
    ensures FormatRuleSet(AsRegexRules(FormatRuleSet(ruleSet))) == FormatRuleSet(ruleSet)
  {
    var f := FormatRuleSet(ruleSet);
    var g := FormatRuleSet(AsRegexRules(f));
    assert forall i :: 0 <= i < |g| ==> g[i] == f[i];
  }

  /** A glob rule free of other metacharacters matches as the glob does. */
  lemma GlobRuleMatches(ruleSet: seq<seq<TraitRule>>, i: nat, j: nat, s: string)
    requires i < |ruleSet| && j < |ruleSet[i]| && ruleSet[i][j].GlobRule?
    requires MetaFree(ruleSet[i][j].glob) && NoLineTerminators(s)
    ensures Test(FormatRuleSet(ruleSet)[i][j], s) == GlobMatch(ruleSet[i][j].glob, s)
  {
    CompiledGlobMatches(ruleSet[i][j].glob, s);
  }
}

=== FILE: attribute_set.dfy ===
/**
 * The `AttributeSet` record of src/types.ts: a plain JavaScript object
 * from attribute name to trait name. It is kept as its entries in
 * insertion order. That is the order `Object.keys` and `Object.entries`
 * report as long as no key is an array index ("0", "1", "42", ...);
 * JavaScript lists such keys first, in ascending numeric order, and the
 * model does not reorder them.
 */
module AttributeSets {
  import opened Wrappers

  datatype Entry = Entry(attribute: string, value: string)

  type AttributeSet = seq<Entry>

  /** `Object.keys`. */
  function Keys(s: AttributeSet): (ks: seq<string>)
    ensures |ks| == |s|
    ensures forall i :: 0 <= i < |s| ==> ks[i] == s[i].attribute
  {
    if s == [] then [] else [s[0].attribute] + Keys(s[1..])
  }

  /** What every JavaScript object satisfies: no key occurs twice. */
  predicate WellFormed(s: AttributeSet)
  {
    forall i, j :: 0 <= i < j < |s| ==> s[i].attribute != s[j].attribute
  }

  /** Dropping the first entry keeps the keys distinct, and the first key does not recur. */
  lemma WellFormedTail(s: AttributeSet)
    requires WellFormed(s) && s != []
    ensures WellFormed(s[1..])
    ensures s[0].attribute !in Keys(s[1..])
  {
    var rest := s[1..];
    forall i, j | 0 <= i < j < |rest|
      ensures rest[i].attribute != rest[j].attribute
    {
      assert rest[i] == s[i + 1] && rest[j] == s[j + 1];
    }
    forall k | 0 <= k < |rest|
      ensures Keys(rest)[k] != s[0].attribute
    {
      assert rest[k] == s[k + 1];
    }
  }

  /** Dropping the last entry keeps the keys distinct, and the last key does not occur before it. */
  lemma WellFormedInit(s: AttributeSet)
    requires WellFormed(s) && s != []
    ensures WellFormed(s[..|s| - 1])
    ensures s[|s| - 1].attribute !in Keys(s[..|s| - 1])
  {
    var front := s[..|s| - 1];
    forall k | 0 <= k < |front|
      ensures Keys(front)[k] != s[|s| - 1].attribute
    {
      assert front[k] == s[k];
    }
  }

  /** `s[key]`, `None` standing for `undefined`. */
  function Get(s: AttributeSet, key: string): (v: Option<string>)
    ensures v.None? <==> key !in Keys(s)
    ensures v.Some? ==> Entry(key, v.value) in s
  {
    if s == [] then None
    else if s[0].attribute == key then Some(s[0].value)
    else Get(s[1..], key)
  }

  lemma GetWellFormed(s: AttributeSet, i: nat)
    requires WellFormed(s) && i < |s|
    ensures Get(s, s[i].attribute) == Some(s[i].value)
  {
    if i > 0 {
      GetWellFormed(s[1..], i - 1);
    }
  }

  /**
   * `s[key] = value`: an existing key keeps its place and takes the new
   * value; a new key is appended.
   */
  function Assign(s: AttributeSet, key: string, value: string): (r: AttributeSet)
    ensures Keys(r) == if key in Keys(s) then Keys(s) else Keys(s) + [key]
  {
    if s == [] then [Entry(key, value)]
    else if s[0].attribute == key then
      var r := [Entry(key, value)] + s[1..];
      assert Keys(r) == [key] + Keys(s[1..]);
      r
    else
      var tail := Assign(s[1..], key, value);
      var r := [s[0]] + tail;
      assert r[1..] == tail;
      assert Keys(r) == [s[0].attribute] + Keys(tail);
      assert Keys(s) == [s[0].attribute] + Keys(s[1..]);
      r
  }

  /** After `s[key] = value`, reading `key` gives `value` and every other key reads as before. */
  lemma {:induction false} AssignGet(s: AttributeSet, key: string, value: string, k: string)
    ensures Get(Assign(s, key, value), k) == if k == key then Some(value) else Get(s, k)
  {
    if s != [] && s[0].attribute != key {
      AssignGet(s[1..], key, value, k);
      assert Assign(s, key, value)[1..] == Assign(s[1..], key, value);
    }
  }

  /** Assignment keeps the keys distinct. */
  lemma AssignWellFormed(s: AttributeSet, key: string, value: string)
    requires WellFormed(s)
    ensures WellFormed(Assign(s, key, value))
  {
    var r := Assign(s, key, value);
    var ks := Keys(r);
    assert forall i :: 0 <= i < |r| ==> r[i].attribute == ks[i];
    assert forall i, j :: 0 <= i < j < |s| ==> Keys(s)[i] != Keys(s)[j];
  }

  /** Assignment adds no entry other than the assigned one. */
  lemma {:induction false} AssignEntries(s: AttributeSet, key: string, value: string)
    ensures forall e :: e in Assign(s, key, value) ==> e in s || e == Entry(key, value)
    ensures Entry(key, value) in Assign(s, key, value)
  {
    if s != [] && s[0].attribute != key {
      AssignEntries(s[1..], key, value);
      assert Assign(s, key, value) == [s[0]] + Assign(s[1..], key, value);
    }
  }

  /** Assigning a key not yet present appends its entry. */
  lemma {:induction false} AssignNew(s: AttributeSet, key: string, value: string)
    requires key !in Keys(s)
    ensures Assign(s, key, value) == s + [Entry(key, value)]
  {
    if s != [] {
      var ks := Keys(s[1..]);
      assert Keys(s) == [s[0].attribute] + ks;
      assert s[0].attribute != key && key !in ks;
      AssignNew(s[1..], key, value);
      assert Assign(s, key, value) == [s[0]] + Assign(s[1..], key, value);
      assert s + [Entry(key, value)] == [s[0]] + (s[1..] + [Entry(key, value)]);
    }
  }
}

=== FILE: canonical.dfy ===
/**
 * Canonical trait names (src/attributes/canonical.ts): a trait is named
 * `Attribute/Trait`, and asset files live at `assets/Attribute/Trait.png`.
 */
module Canonical {
  import opened Wrappers
  import opened JsStrings

  /** `canonicalAttributeNameFromFile`: drops the first `assets/`, then the first `.png`. */
  function CanonicalAttributeNameFromFile(file: string): (name: string)
    ensures IndexOf(file, "assets/") == -1 && IndexOf(file, ".png") == -1 ==> name == file
    ensures |file| - 11 <= |name| <= |file|
  {
    ReplaceFirst(ReplaceFirst(file, "assets/", ""), ".png", "")
  }

  /** An asset path `assets/<name>.png` yields `<name>`, provided `<name>` holds no `.png`. */
  lemma CanonicalFromAssetPath(name: string)
    requires IndexOf(name, ".png") == -1
    ensures CanonicalAttributeNameFromFile("assets/" + name + ".png") == name
  {
    StripAssets(name + ".png");
    assert "assets/" + name + ".png" == "assets/" + (name + ".png");
    StripPng(name);
  }

  /** The leading `assets/` is the first occurrence, and it is dropped. */
  lemma StripAssets(rest: string)
    ensures ReplaceFirst("assets/" + rest, "assets/", "") == rest
  {
    var file := "assets/" + rest;
    assert file[0..7] == "assets/";
    IndexOfIs(file, "assets/", 0);
    assert file[7..] == rest;
  }

  /** With no `.png` inside the name, the appended `.png` is the first occurrence, and it is dropped. */
  lemma StripPng(name: string)
    requires IndexOf(name, ".png") == -1
    ensures ReplaceFirst(name + ".png", ".png", "") == name
  {
    var t := name + ".png";
    assert t[|name|..|name| + 4] == ".png";
    forall k | 0 <= k < |name|
      ensures !OccursAt(t, ".png", k)
    {
      if k + 4 <= |name| {
        assert !OccursAt(name, ".png", k);
        assert t[k..k + 4] == name[k..k + 4];
      } else {
        var d := |name| - k;
        assert t[k..k + 4][d] == '.' != ".png"[d];
      }
    }
    IndexOfIs(t, ".png", |name|);
    assert t[..|name|] == name;
    assert t[|name| + 4..] == [];
  }

  /** `extractAttributeName`: the text before the first `/`, or all of it. */
  function ExtractAttributeName(s: string): (a: string)
    ensures a <= s && '/' !in a
    ensures |a| < |s| ==> s[|a|] == '/'
    ensures a == s <==> '/' !in s
  {
    SplitHead(s, '/');
    Split(s, '/')[0]
  }

  /** `extractTraitName`: the text between the first and second `/`; undefined without a `/`. */
  function ExtractTraitName(s: string): (t: Option<string>)
    ensures t.None? <==> '/' !in s
    ensures t.Some? ==>
      var k := |ExtractAttributeName(s)| + 1;
      k <= |s| && t.value <= s[k..] && '/' !in t.value
      && (k + |t.value| < |s| ==> s[k + |t.value|] == '/')
  {
    SplitHead(s, '/');
    var parts := Split(s, '/');
    if |parts| > 1 then
      var k := |parts[0]| + 1;
      SplitHead(s[k..], '/');
      Some(parts[1])
    else None
  }

  /** `createCanonicalName`: the attribute, a `/`, then the trait name. */
  function CreateCanonicalName(attribute: string, traitName: string): (name: string)
    ensures |name| == |attribute| + 1 + |traitName| && name[|attribute|] == '/'
  {
    attribute + "/" + traitName
  }

  /**
   * Names free of `/` survive a trip through the canonical form; the
   * attribute does whatever the trait name holds.
   */
  lemma CanonicalRoundTrip(attribute: string, traitName: string)
    requires '/' !in attribute
    ensures ExtractAttributeName(CreateCanonicalName(attribute, traitName)) == attribute
    ensures '/' !in traitName ==> ExtractTraitName(CreateCanonicalName(attribute, traitName)) == Some(traitName)
  {
    SplitAfterHead(attribute, traitName, '/');
    if '/' !in traitName {
      SplitNoSep(traitName, '/');
    }
  }

  /** Splitting the canonical name and joining it back gives the name. */
  lemma CanonicalSplitJoin(s: string)
    requires '/' in s
    ensures var t := ExtractTraitName(s).value;
      t == s[|ExtractAttributeName(s)| + 1..] <==> '/' !in s[|ExtractAttributeName(s)| + 1..]
  {
    var a := ExtractAttributeName(s);
    var rest := s[|a| + 1..];
    SplitHead(rest, '/');
    SplitHead(s, '/');
  }
}

=== FILE: counts.dfy ===
/**
 * The aggregation in `writeAttributeCountsToDisk` (src/attributes/io.ts):
 * for every attribute, how many tokens carry each trait value; the same
 * tally with values rolled up under their base name (`Base (Variant)`
 * counts for `Base`); and a zero for every pool trait no token carries.
 * The sorting by count and the file write are not modelled.
 */
module AttributeCounts {
  import opened Wrappers
  import opened Seqs
  import opened Canonical
  import opened AttributeSets
  import opened Variants

  /** `Record<string, Record<string, number>>`. */
  type Counts = map<string, map<string, nat>>

  /** `m[a][v]`, a missing cell reading as 0. */
  function CountIn(m: Counts, a: string, v: string): nat
  {
    if a in m && v in m[a] then m[a][v] else 0
  }

  /** `m[a] ||= {}; m[a][v] ||= 0; m[a][v]++`. */
  function Bump(m: Counts, a: string, v: string): Counts
  {
    var inner := if a in m then m[a] else map[];
    m[a := inner[v := (if v in inner then inner[v] else 0) + 1]]
  }

  /** Bumping the cell of every pair in turn. */
  function BumpAll(m: Counts, pairs: seq<(string, string)>): Counts
  {
    if pairs == [] then m
    else
      var last := pairs[|pairs| - 1];
      Bump(BumpAll(m, pairs[..|pairs| - 1]), last.0, last.1)
  }

  lemma BumpAllNext(m: Counts, pairs: seq<(string, string)>, a: string, v: string)
    ensures BumpAll(m, pairs + [(a, v)]) == Bump(BumpAll(m, pairs), a, v)
  {
    assert (pairs + [(a, v)])[..|pairs|] == pairs;
  }

  /** A cell ends up holding its start value plus the number of pairs that name it. */
  lemma {:induction false} BumpAllCounts(m: Counts, pairs: seq<(string, string)>, a: string, v: string)
    ensures CountIn(BumpAll(m, pairs), a, v) == CountIn(m, a, v) + Count(pairs, (a, v))
    decreases |pairs|
  {
    if pairs != [] {
      var front := pairs[..|pairs| - 1];
      var last := pairs[|pairs| - 1];
      BumpAllCounts(m, front, a, v);
      assert pairs == front + [last];
      CountAppend(front, [last], (a, v));
      assert [last][1..] == [];
    }
  }

  /** The rows present are the start rows and those some pair names; likewise the cells. */
  lemma {:induction false} BumpAllCells(m: Counts, pairs: seq<(string, string)>, a: string, v: string)
    ensures a in BumpAll(m, pairs) <==> a in m || a in PairKeys(pairs)
    ensures (a in BumpAll(m, pairs) && v in BumpAll(m, pairs)[a]) <==> (a in m && v in m[a]) || (a, v) in pairs
    decreases |pairs|
  {
    if pairs != [] {
      var front := pairs[..|pairs| - 1];
      var last := pairs[|pairs| - 1];
      BumpAllCells(m, front, a, v);
      assert pairs == front + [last];
      PairKeysAppend(front, [last]);
    }
  }

  /** The attributes a list of pairs names. */
  function PairKeys(pairs: seq<(string, string)>): set<string>
  {
    set p | p in pairs :: p.0
  }

  lemma PairKeysAppend(a: seq<(string, string)>, b: seq<(string, string)>)
    ensures PairKeys(a + b) == PairKeys(a) + PairKeys(b)
  {
    forall k | k in PairKeys(a + b)
      ensures k in PairKeys(a) + PairKeys(b)
    {
      var p :| p in a + b && p.0 == k;
    }
    forall k | k in PairKeys(a) + PairKeys(b)
      ensures k in PairKeys(a + b)
    {
      if k in PairKeys(a) {
        var p :| p in a && p.0 == k;
        assert p in a + b;
      } else {
        var p :| p in b && p.0 == k;
        assert p in a + b;
      }
    }
  }

  /** The summary is keyed by the trait value itself. */
  function SummaryKey(value: string): Option<string>
  {
    Some(value)
  }

  /** The rollup is keyed by the base of the value, when it has a non-empty one (`if (baseTrait)`). */
  function RollupKey(value: string): Option<string>
  {
    match TraitWithoutVariant(value)
    case Some(b) => if b != "" then Some(b) else None
    case None => None
  }

  /** The cell one entry bumps, under `key`. */
  function Contribution(e: Entry, key: string -> Option<string>): seq<(string, string)>
  {
    match key(e.value)
    case Some(w) => [(e.attribute, w)]
    case None => []
  }

  lemma SummaryContribution(e: Entry)
    ensures Contribution(e, SummaryKey) == [(e.attribute, e.value)]
  {
  }

  lemma RollupContribution(e: Entry)
    ensures var b := TraitWithoutVariant(e.value);
      Contribution(e, RollupKey) == if b.Some? && b.value != "" then [(e.attribute, b.value)] else []
  {
  }

  /** The cells the entries of one result bump, in entry order. */
  function EntryPairs(result: AttributeSet, key: string -> Option<string>): (pairs: seq<(string, string)>)
    ensures PairKeys(pairs) <= set e | e in result :: e.attribute
  {
    if result == [] then []
    else
      var rest := EntryPairs(result[1..], key);
      PairKeysAppend(Contribution(result[0], key), rest);
      Contribution(result[0], key) + rest
  }

  lemma {:induction false} EntryPairsAppend(a: AttributeSet, b: AttributeSet, key: string -> Option<string>)
    ensures EntryPairs(a + b, key) == EntryPairs(a, key) + EntryPairs(b, key)
    decreases |a|
  {
    if a == [] {
      assert a + b == b;
    } else {
      assert (a + b)[1..] == a[1..] + b;
      EntryPairsAppend(a[1..], b, key);
    }
  }

  /** Reading one more entry of a result bumps that entry's cell. */
  lemma EntryPairsNext(result: AttributeSet, j: nat, key: string -> Option<string>)
    requires j < |result|
    ensures EntryPairs(result[..j + 1], key) == EntryPairs(result[..j], key) + Contribution(result[j], key)
  {
    TakeNext(result, j);
    EntryPairsAppend(result[..j], [result[j]], key);
    assert [result[j]][1..] == [];
  }

  /** The cells bumped for a list of results, token by token. */
  function ResultsPairs(results: seq<AttributeSet>, key: string -> Option<string>): seq<(string, string)>
  {
    if results == [] then []
    else ResultsPairs(results[..|results| - 1], key) + EntryPairs(results[|results| - 1], key)
  }

  lemma ResultsPairsNext(results: seq<AttributeSet>, i: nat, key: string -> Option<string>)
    requires i < |results|
    ensures ResultsPairs(results[..i + 1], key) == ResultsPairs(results[..i], key) + EntryPairs(results[i], key)
  {
    TakeNext(results, i);
    assert results[..i + 1][..i] == results[..i];
  }

  /** Every result is a JavaScript object: no key twice. */
  predicate AllWellFormed(results: seq<AttributeSet>)
  {
    forall i :: 0 <= i < |results| ==> WellFormed(results[i])
  }

  /** The number of results whose value for `a` is keyed `w`. */
  function Holding(results: seq<AttributeSet>, key: string -> Option<string>, a: string, w: string): nat
  {
    if results == [] then 0
    else
      var last := results[|results| - 1];
      Holding(results[..|results| - 1], key, a, w)
        + (if Get(last, a).Some? && key(Get(last, a).value) == Some(w) then 1 else 0)
  }

  /** A result bumps the cell of attribute `a` once, at the key of its value for `a`. */
  lemma {:induction false} EntryPairsCount(result: AttributeSet, key: string -> Option<string>, a: string, w: string)
    requires WellFormed(result)
    ensures Count(EntryPairs(result, key), (a, w))
      == if Get(result, a).Some? && key(Get(result, a).value) == Some(w) then 1 else 0
    decreases |result|
  {
    if result != [] {
      var rest := result[1..];
      var e := result[0];
      WellFormedTail(result);
      EntryPairsCount(rest, key, a, w);
      CountAppend(Contribution(e, key), EntryPairs(rest, key), (a, w));
      if e.attribute == a {
        assert (a, w) !in EntryPairs(rest, key) by {
          assert a !in (set x | x in rest :: x.attribute);
        }
      }
    }
  }

  /** The tally of a cell is the number of results holding it. */
  lemma {:induction false} ResultsPairsCount(results: seq<AttributeSet>, key: string -> Option<string>, a: string, w: string)
    requires AllWellFormed(results)
    ensures Count(ResultsPairs(results, key), (a, w)) == Holding(results, key, a, w)
    decreases |results|
  {
    if results != [] {
      var front := results[..|results| - 1];
      var last := results[|results| - 1];
      ResultsPairsCount(front, key, a, w);
      CountAppend(ResultsPairs(front, key), EntryPairs(last, key), (a, w));
      EntryPairsCount(last, key, a, w);
    }
  }

  /** The attributes some result has. */
  function AttributesIn(results: seq<AttributeSet>): set<string>
  {
    set i, e | 0 <= i < |results| && e in results[i] :: e.attribute
  }

  /** Under the summary key every entry bumps a cell, so the rows are the attributes present. */
  lemma {:induction false} SummaryRowKeys(results: seq<AttributeSet>)
    ensures PairKeys(ResultsPairs(results, SummaryKey)) == AttributesIn(results)
    decreases |results|
  {
    if results != [] {
      var front := results[..|results| - 1];
      var last := results[|results| - 1];
      SummaryRowKeys(front);
      PairKeysAppend(ResultsPairs(front, SummaryKey), EntryPairs(last, SummaryKey));
      EntryRowKeys(last);
      AttributesInNext(results);
    }
  }

  lemma AttributesInNext(results: seq<AttributeSet>)
    requires results != []
    ensures var last := results[|results| - 1];
      AttributesIn(results) == AttributesIn(results[..|results| - 1]) + (set e | e in last :: e.attribute)
  {
    var front := results[..|results| - 1];
    var last := results[|results| - 1];
    forall a | a in AttributesIn(results)
      ensures a in AttributesIn(front) + (set e | e in last :: e.attribute)
    {
      var i: int, e: Entry :| 0 <= i < |results| && e in results[i] && e.attribute == a;
      if i < |front| {
        assert results[i] == front[i];
      }
    }
    forall a | a in AttributesIn(front)
      ensures a in AttributesIn(results)
    {
      var i: int, e: Entry :| 0 <= i < |front| && e in front[i] && e.attribute == a;
      assert results[i] == front[i];
    }
  }

  lemma {:induction false} EntryRowKeys(result: AttributeSet)
    ensures PairKeys(EntryPairs(result, SummaryKey)) == set e | e in result :: e.attribute
    decreases |result|
  {
    if result != [] {
      EntryRowKeys(result[1..]);
      PairKeysAppend(Contribution(result[0], SummaryKey), EntryPairs(result[1..], SummaryKey));
      assert result == [result[0]] + result[1..];
      assert (set e | e in result :: e.attribute)
        == {result[0].attribute} + (set e | e in result[1..] :: e.attribute);
    }
  }

  /** The tally before the pool is filled in. */
  function Tally(results: seq<AttributeSet>, key: string -> Option<string>): Counts
  {
    BumpAll(map[], ResultsPairs(results, key))
  }

  /** What the tally holds, under either key: a cell per key present, counting the results holding it. */
  lemma TallyMeaning(results: seq<AttributeSet>, key: string -> Option<string>, a: string, w: string)
    requires AllWellFormed(results)
    ensures CountIn(Tally(results, key), a, w) == Holding(results, key, a, w)
    ensures (a in Tally(results, key) && w in Tally(results, key)[a]) <==> Holding(results, key, a, w) > 0
    ensures a in Tally(results, key) <==> a in PairKeys(ResultsPairs(results, key))
  {
    BumpAllCounts(map[], ResultsPairs(results, key), a, w);
    BumpAllCells(map[], ResultsPairs(results, key), a, w);
    ResultsPairsCount(results, key, a, w);
  }

  /** The summary has a row exactly for each attribute some result has. */
  lemma SummaryRows(results: seq<AttributeSet>, a: string)
    ensures a in Tally(results, SummaryKey) <==> a in AttributesIn(results)
  {
    BumpAllCells(map[], ResultsPairs(results, SummaryKey), a, "");
    SummaryRowKeys(results);
  }

  /** The trait a pool name fills in: its second `/` segment, `undefined` as a key when it has none. */
  function PoolTraitKey(name: string): string
  {
    match ExtractTraitName(name)
    case Some(t) => t
    case None => "undefined"
  }

  /** Every pool name's attribute has a row; `unsortedSummary[attrName][traitName]` throws otherwise. */
  predicate PoolRowsPresent<V>(pool: seq<string>, m: map<string, V>)
  {
    forall k :: 0 <= k < |pool| ==> ExtractAttributeName(pool[k]) in m
  }

  /** `if (!m[a][t]) m[a][t] = 0`. */
  function FillZero(m: Counts, a: string, t: string): (r: Counts)
    ensures r.Keys == m.Keys
  {
    if a in m && CountIn(m, a, t) == 0 then m[a := m[a][t := 0]] else m
  }

  /** Filling one zero changes no count and adds at most its own cell. */
  lemma FillZeroMeaning(m: Counts, a0: string, t0: string, a: string, v: string)
    ensures CountIn(FillZero(m, a0, t0), a, v) == CountIn(m, a, v)
    ensures a in m ==> (v in FillZero(m, a0, t0)[a] <==> v in m[a] || (a == a0 && v == t0))
  {
  }

  /** `if (!m[attrName][traitName]) m[attrName][traitName] = 0` for every pool name in turn. */
  function FillZeros(m: Counts, pool: seq<string>): (r: Counts)
    ensures r.Keys == m.Keys
  {
    if pool == [] then m
    else
      var last := pool[|pool| - 1];
      FillZero(FillZeros(m, pool[..|pool| - 1]), ExtractAttributeName(last), PoolTraitKey(last))
  }

  lemma FillZerosNext(m: Counts, pool: seq<string>, k: nat)
    requires k < |pool|
    ensures FillZeros(m, pool[..k + 1]) == FillZero(FillZeros(m, pool[..k]), ExtractAttributeName(pool[k]), PoolTraitKey(pool[k]))
  {
    assert pool[..k + 1][..k] == pool[..k];
  }

  /** The pool names a cell. */
  predicate PoolTrait(pool: seq<string>, a: string, v: string)
  {
    exists k :: 0 <= k < |pool| && ExtractAttributeName(pool[k]) == a && PoolTraitKey(pool[k]) == v
  }

  lemma PoolTraitNext(pool: seq<string>, a: string, v: string)
    requires pool != []
    ensures var last := pool[|pool| - 1];
      PoolTrait(pool, a, v) <==>
        PoolTrait(pool[..|pool| - 1], a, v) || (ExtractAttributeName(last) == a && PoolTraitKey(last) == v)
  {
    var front := pool[..|pool| - 1];
    if PoolTrait(pool, a, v) {
      var k :| 0 <= k < |pool| && ExtractAttributeName(pool[k]) == a && PoolTraitKey(pool[k]) == v;
      if k < |front| {
        assert front[k] == pool[k];
      }
    }
    if PoolTrait(front, a, v) {
      var k :| 0 <= k < |front| && ExtractAttributeName(front[k]) == a && PoolTraitKey(front[k]) == v;
      assert pool[k] == front[k];
    }
  }

  /** Filling in zeros changes no count and adds exactly the cells the pool names. */
  lemma {:induction false} FillZerosMeaning(m: Counts, pool: seq<string>, a: string, v: string)
    ensures CountIn(FillZeros(m, pool), a, v) == CountIn(m, a, v)
    ensures a in m ==> (v in FillZeros(m, pool)[a] <==> v in m[a] || PoolTrait(pool, a, v))
    decreases |pool|
  {
    if pool != [] {
      var front := pool[..|pool| - 1];
      var last := pool[|pool| - 1];
      FillZerosMeaning(m, front, a, v);
      FillZeroMeaning(FillZeros(m, front), ExtractAttributeName(last), PoolTraitKey(last), a, v);
      PoolTraitNext(pool, a, v);
    }
  }

  /** Every pool attribute occurs in some result. */
  predicate PoolAttributesPresent(pool: seq<string>, results: seq<AttributeSet>)
  {
    forall k :: 0 <= k < |pool| ==> ExtractAttributeName(pool[k]) in AttributesIn(results)
  }

  /** `unsortedSummary` once the pool is filled in. */
  function SummarySpec(pool: seq<string>, results: seq<AttributeSet>): Counts
    requires PoolAttributesPresent(pool, results)
  {
    FillZeros(Tally(results, SummaryKey), pool)
  }

  lemma PoolRowsFromResults(pool: seq<string>, results: seq<AttributeSet>)
    requires PoolAttributesPresent(pool, results)
    ensures PoolRowsPresent(pool, Tally(results, SummaryKey))
  {
    forall k | 0 <= k < |pool|
      ensures ExtractAttributeName(pool[k]) in Tally(results, SummaryKey)
    {
      SummaryRows(results, ExtractAttributeName(pool[k]));
    }
  }

  /**
   * The summary has a row per attribute present; a cell per value some
   * token holds or the pool names; and each cell counts the tokens holding
   * that value, so a pool trait nobody holds reads 0.
   */
  lemma SummaryMeaning(pool: seq<string>, results: seq<AttributeSet>, a: string, v: string)
    requires AllWellFormed(results) && PoolAttributesPresent(pool, results)
    ensures var summary := SummarySpec(pool, results);
      (a in summary <==> a in AttributesIn(results))
      && CountIn(summary, a, v) == Holding(results, SummaryKey, a, v)
      && (a in summary ==> (v in summary[a] <==> Holding(results, SummaryKey, a, v) > 0 || PoolTrait(pool, a, v)))
  {
    var tally := Tally(results, SummaryKey);
    PoolRowsFromResults(pool, results);
    SummaryRows(results, a);
    TallyMeaning(results, SummaryKey, a, v);
    FillZerosMeaning(tally, pool, a, v);
  }

  /** The rollups count, per attribute and base name, the tokens whose value has that base. */
  lemma RollupMeaning(results: seq<AttributeSet>, a: string, b: string)
    requires AllWellFormed(results)
    ensures CountIn(Tally(results, RollupKey), a, b) == Holding(results, RollupKey, a, b)
    ensures (a in Tally(results, RollupKey) && b in Tally(results, RollupKey)[a]) <==> Holding(results, RollupKey, a, b) > 0
  {
    TallyMeaning(results, RollupKey, a, b);
  }

  /** One `m[a][v]++` with the source's two guards. */
  method Increment(m: Counts, a: string, v: string) returns (r: Counts)
    ensures r == Bump(m, a, v)
    ensures CountIn(r, a, v) == CountIn(m, a, v) + 1
  {
    ghost var inner := if a in m then m[a] else map[];
    ghost var c := if v in inner then inner[v] else 0;
    r := m;
    if a !in r {
      r := r[a := map[]];
    }
    assert r[a] == inner;
    if v !in r[a] || r[a][v] == 0 {
      r := r[a := r[a][v := 0]];
    }
    assert r[a][v] == c && r[a] == inner[v := c];
    r := r[a := r[a][v := r[a][v] + 1]];
    assert r[a] == inner[v := c + 1];
    assert r == m[a := inner[v := c + 1]];
  }

  /** The `Object.entries(result).forEach` callback, over all entries of one result. */
  method CountEntries(summary0: Counts, rollups0: Counts, result: AttributeSet)
    returns (summary: Counts, rollups: Counts)
    ensures summary == BumpAll(summary0, EntryPairs(result, SummaryKey))
    ensures rollups == BumpAll(rollups0, EntryPairs(result, RollupKey))
  {
    summary := summary0;
    rollups := rollups0;
    assert result[..0] == [];
    for j := 0 to |result|
      invariant summary == BumpAll(summary0, EntryPairs(result[..j], SummaryKey))
      invariant rollups == BumpAll(rollups0, EntryPairs(result[..j], RollupKey))
    {
      var attribute := result[j].attribute;
      var traitValue := result[j].value;
      EntryPairsNext(result, j, SummaryKey);
      EntryPairsNext(result, j, RollupKey);
      BumpAllNext(summary0, EntryPairs(result[..j], SummaryKey), attribute, traitValue);
      SummaryContribution(result[j]);
      summary := Increment(summary, attribute, traitValue);
      var baseTrait := TraitWithoutVariant(traitValue);
      RollupContribution(result[j]);
      if baseTrait.Some? && baseTrait.value != "" {
        BumpAllNext(rollups0, EntryPairs(result[..j], RollupKey), attribute, baseTrait.value);
        rollups := Increment(rollups, attribute, baseTrait.value);
      } else {
        ghost var before := EntryPairs(result[..j], RollupKey);
        assert before + [] == before;
        assert EntryPairs(result[..j + 1], RollupKey) == before;
      }
    }
    assert result[..|result|] == result;
  }

  lemma {:induction false} BumpAllAppend(m: Counts, p: seq<(string, string)>, q: seq<(string, string)>)
    ensures BumpAll(m, p + q) == BumpAll(BumpAll(m, p), q)
    decreases |q|
  {
    if q == [] {
      assert p + q == p;
    } else {
      var front := q[..|q| - 1];
      var last := q[|q| - 1];
      BumpAllAppend(m, p, front);
      assert p + q == (p + front) + [last];
      assert q == front + [last];
      BumpAllNext(m, p + front, last.0, last.1);
      BumpAllNext(BumpAll(m, p), front, last.0, last.1);
    }
  }

  /** The counting part of `writeAttributeCountsToDisk`, before the sorts. */
  method CountAttributes(allAttributes: seq<string>, results: seq<AttributeSet>)
    returns (summary: Counts, rollups: Counts)
    requires PoolAttributesPresent(allAttributes, results)
    ensures summary == SummarySpec(allAttributes, results)
    ensures rollups == Tally(results, RollupKey)
  {
    summary := map[];
    rollups := map[];
    for i := 0 to |results|
      invariant summary == BumpAll(map[], ResultsPairs(results[..i], SummaryKey))
      invariant rollups == BumpAll(map[], ResultsPairs(results[..i], RollupKey))
    {
      ResultsPairsNext(results, i, SummaryKey);
      ResultsPairsNext(results, i, RollupKey);
      BumpAllAppend(map[], ResultsPairs(results[..i], SummaryKey), EntryPairs(results[i], SummaryKey));
      BumpAllAppend(map[], ResultsPairs(results[..i], RollupKey), EntryPairs(results[i], RollupKey));
      summary, rollups := CountEntries(summary, rollups, results[i]);
    }
    assert results[..|results|] == results;
    PoolRowsFromResults(allAttributes, results);
    summary := FillPool(summary, allAttributes);
  }

  /** The `for (const attribute of allAttributes)` loop: a zero for every pool trait not yet counted. */
  method FillPool(counted: Counts, allAttributes: seq<string>) returns (summary: Counts)
    requires PoolRowsPresent(allAttributes, counted)
    ensures summary == FillZeros(counted, allAttributes)
  {
    summary := counted;
    for k := 0 to |allAttributes|
      invariant summary == FillZeros(counted, allAttributes[..k])
    {
      FillZerosNext(counted, allAttributes, k);
      var attrName := ExtractAttributeName(allAttributes[k]);
      var traitName := PoolTraitKey(allAttributes[k]);
      if traitName !in summary[attrName] || summary[attrName][traitName] == 0 {
        summary := summary[attrName := summary[attrName][traitName := 0]];
      }
    }
    assert allAttributes[..|allAttributes|] == allAttributes;
  }
}

=== FILE: generate.dfy ===
/**
 * `generateAttributeSet` (src/attributes/generate.ts): for every attribute
 * in the configured order, take the canonical traits of that attribute,
 * drop those the pairing rules forbid given what was already picked, and
 * pick one by weight with one draw of the generator.
 */
module Generate {
  import opened Wrappers
  import opened Seqs
  import opened Glob
  import opened Canonical
  import opened AttributeSets
  import opened AttributeRules
  import opened RuleFilter
  import opened Weights
  import opened Pick
  import opened Random
  import opened Transform

  /** The attribute definitions and pairing rules the generator reads. */
  datatype Config = Config(
    attributeOrder: seq<string>,
    optionalAttributes: set<string>,
    traitProbabilities: seq<Probability>,
    mustPair: RuleSet,
    mustNotPair: RuleSet)

  function Weight(config: Config): Weighting
  {
    WeightFn(config.traitProbabilities)
  }

  /** The canonical traits of one attribute: `attr.startsWith(`${attribute}/`)`. */
  function Candidates(canonicalTraits: seq<string>, attribute: string): (r: seq<string>)
    ensures forall t :: t in r <==> t in canonicalTraits && attribute + "/" <= t
    ensures IsSubseq(r, canonicalTraits)
  {
    FilterIsSubseq(canonicalTraits, t => attribute + "/" <= t);
    Filter(canonicalTraits, t => attribute + "/" <= t)
  }

  /** `alreadyPickedTraits`: the picks so far as canonical names, in pick order. */
  function PickedTraits(attrMap: AttributeSet): (r: seq<string>)
    ensures |r| == |attrMap|
    ensures forall i :: 0 <= i < |r| ==> r[i] == CreateCanonicalName(attrMap[i].attribute, attrMap[i].value)
  {
    seq(|attrMap|, i requires 0 <= i < |attrMap| => CreateCanonicalName(attrMap[i].attribute, attrMap[i].value))
  }

  /** The must-pair matcher over compiled patterns. */
  predicate PairMatcher(t: string, ruleList: seq<Regex>)
  {
    MustPairMatcher(Test, t, ruleList)
  }

  /** The must-not-pair matcher over compiled patterns. */
  predicate NotPairMatcher(t: string, ruleList: seq<Regex>)
  {
    MustNotPairMatcher(Test, t, ruleList)
  }

  /** `filterTraitsByRules`: the must-pair filter, then the must-not-pair filter on what it kept. */
  function TraitFilter(config: Config, attrMap: AttributeSet, allPossible: seq<string>): (r: seq<string>)
    ensures |r| <= |allPossible|
    ensures forall t :: t in r ==> t in allPossible
  {
    var picked := PickedTraits(attrMap);
    var byPair := RuleSetFilter(Test, config.mustPair, picked, allPossible, PairMatcher);
    RuleSetFilterMeaning(Test, config.mustPair, picked, allPossible, PairMatcher);
    RuleSetFilterMeaning(Test, config.mustNotPair, picked, byPair, NotPairMatcher);
    RuleSetFilter(Test, config.mustNotPair, picked, byPair, NotPairMatcher)
  }

  /**
   * What the rules mean for one candidate: it matches a rule of every
   * applicable must-pair group, and no rule of any must-not-pair group that
   * applies to the must-pair survivors. The order of the candidates is kept.
   */
  lemma TraitFilterMeaning(config: Config, attrMap: AttributeSet, allPossible: seq<string>)
    ensures var picked := PickedTraits(attrMap);
      var byPair := Filter(allPossible, t => Admitted(Test, config.mustPair, picked, allPossible, t, PairMatcher));
      TraitFilter(config, attrMap, allPossible)
        == Filter(byPair, t => Admitted(Test, config.mustNotPair, picked, byPair, t, NotPairMatcher))
    ensures IsSubseq(TraitFilter(config, attrMap, allPossible), allPossible)
  {
    var picked := PickedTraits(attrMap);
    var p := t => Admitted(Test, config.mustPair, picked, allPossible, t, PairMatcher);
    var byPair := RuleSetFilter(Test, config.mustPair, picked, allPossible, PairMatcher);
    RuleSetFilterMeaning(Test, config.mustPair, picked, allPossible, PairMatcher);
    var q := t => Admitted(Test, config.mustNotPair, picked, byPair, t, NotPairMatcher);
    RuleSetFilterMeaning(Test, config.mustNotPair, picked, byPair, NotPairMatcher);
    var both := t => p(t) && q(t);
    FilterFilter(allPossible, p, q, both);
    FilterIsSubseq(allPossible, both);
  }

  /** Filtering no candidates leaves none. */
  lemma TraitFilterEmpty(config: Config, attrMap: AttributeSet)
    ensures TraitFilter(config, attrMap, []) == []
  {
  }

  /** With non-negative weights, the rules never add weight. */
  lemma TraitFilterWeight(config: Config, attrMap: AttributeSet, allPossible: seq<string>)
    requires NonNegative(config.traitProbabilities)
    ensures TotalWeight(Weight(config), TraitFilter(config, attrMap, allPossible)) <= TotalWeight(Weight(config), allPossible)
  {
    var picked := PickedTraits(attrMap);
    var p := t => Admitted(Test, config.mustPair, picked, allPossible, t, PairMatcher);
    var byPair := RuleSetFilter(Test, config.mustPair, picked, allPossible, PairMatcher);
    RuleSetFilterMeaning(Test, config.mustPair, picked, allPossible, PairMatcher);
    var q := t => Admitted(Test, config.mustNotPair, picked, byPair, t, NotPairMatcher);
    RuleSetFilterMeaning(Test, config.mustNotPair, picked, byPair, NotPairMatcher);
    NonNegativeTable(config.traitProbabilities);
    FilteredWeightAtMost(Weight(config), allPossible, p);
    FilteredWeightAtMost(Weight(config), byPair, q);
  }

  /** `filterTraitsByRules`, running both passes of the loops. */
  method FilterTraitsByRules(config: Config, attrMap: AttributeSet, allPossibleTraits: seq<string>)
    returns (r: seq<string>)
    ensures r == TraitFilter(config, attrMap, allPossibleTraits)
  {
    var alreadyPickedTraits := PickedTraits(attrMap);
    var filteredByMustPair := FilterByRuleSet(Test, allPossibleTraits, config.mustPair, PairMatcher, alreadyPickedTraits);
    r := FilterByRuleSet(Test, filteredByMustPair, config.mustNotPair, NotPairMatcher, alreadyPickedTraits);
  }

  /** A picked trait or the `None` fallback carries a `/`: it has a trait name. */
  lemma PickHasTraitName(config: Config, canonicalTraits: seq<string>, attrMap: AttributeSet,
                         attribute: string, u: Draw)
    ensures var all := Candidates(canonicalTraits, attribute);
      var r := PickSpec(Weight(config), config.optionalAttributes, attribute, TraitFilter(config, attrMap, all),
                        TotalWeight(Weight(config), all), u);
      r.Ok? ==> attribute + "/" <= r.value && ExtractTraitName(r.value).Some?
  {
    var all := Candidates(canonicalTraits, attribute);
    var possible := TraitFilter(config, attrMap, all);
    var r := PickSpec(Weight(config), config.optionalAttributes, attribute, possible,
                      TotalWeight(Weight(config), all), u);
    if r.Ok? {
      var v := r.value;
      if v in possible {
        assert v in all;
      } else {
        NoneTraitPrefix(attribute);
      }
      assert v[|attribute|] == '/';
    }
  }

  /** One iteration of the loop: pick the attribute's trait with the draw `u` and record its name. */
  function GenStep(config: Config, canonicalTraits: seq<string>, attrMap: AttributeSet, attribute: string,
                   u: Draw): Result<AttributeSet, string>
  {
    var all := Candidates(canonicalTraits, attribute);
    var originalWeight := TotalWeight(Weight(config), all);
    var possible := TraitFilter(config, attrMap, all);
    PickHasTraitName(config, canonicalTraits, attrMap, attribute, u);
    match PickSpec(Weight(config), config.optionalAttributes, attribute, possible, originalWeight, u)
    case Err(e) => Err(e)
    case Ok(picked) => Ok(Assign(attrMap, attribute, ExtractTraitName(picked).value))
  }

  /** The `n` draws from position `pos` of `stream` on. */
  function DrawsFrom(stream: nat -> Draw, pos: nat, n: nat): (draws: seq<Draw>)
    ensures |draws| == n
  {
    if n == 0 then [] else DrawsFrom(stream, pos, n - 1) + [stream(pos + n - 1)]
  }

  /** Taking one more draw, the one at position `j == pos + i`. */
  lemma DrawsNext(stream: nat -> Draw, pos: nat, i: nat, j: nat)
    requires j == pos + i
    ensures DrawsFrom(stream, pos, i + 1) == DrawsFrom(stream, pos, i) + [stream(j)]
  {
  }

  /** Fewer draws are a prefix of more. */
  lemma {:induction false} DrawsPrefix(stream: nat -> Draw, pos: nat, i: nat, n: nat)
    requires i <= n
    ensures DrawsFrom(stream, pos, i) <= DrawsFrom(stream, pos, n)
    decreases n
  {
    if i < n {
      DrawsPrefix(stream, pos, i, n - 1);
    }
  }

  /** One iteration of the loop as a function of the picks so far, the attribute and the draw. */
  type Step = (AttributeSet, string, Draw) -> Result<AttributeSet, string>

  function StepOf(config: Config, canonicalTraits: seq<string>): Step
  {
    (attrMap: AttributeSet, attribute: string, u: Draw) => GenStep(config, canonicalTraits, attrMap, attribute, u)
  }

  /** The first `|draws|` iterations over `order`, the `k`-th using `draws[k]`. */
  function RunSteps(step: Step, order: seq<string>, draws: seq<Draw>): Result<AttributeSet, string>
    requires |draws| <= |order|
    decreases |draws|
  {
    if draws == [] then Ok([])
    else
      var n := |draws| - 1;
      match RunSteps(step, order, draws[..n])
      case Err(e) => Err(e)
      case Ok(attrMap) => step(attrMap, order[n], draws[n])
  }

  /** The iteration after the successful ones applies `step` to their result. */
  lemma RunStepsNext(step: Step, order: seq<string>, draws: seq<Draw>, attrMap: AttributeSet, u: Draw)
    requires |draws| < |order|
    requires RunSteps(step, order, draws) == Ok(attrMap)
    ensures RunSteps(step, order, draws + [u]) == step(attrMap, order[|draws|], u)
  {
    assert (draws + [u])[..|draws|] == draws;
  }

  /** An error, once thrown, is the outcome whatever the later draws. */
  lemma {:induction false} ErrorIsFinal(step: Step, order: seq<string>, draws: seq<Draw>, more: seq<Draw>)
    requires draws <= more && |more| <= |order|
    requires RunSteps(step, order, draws).Err?
    ensures RunSteps(step, order, more) == RunSteps(step, order, draws)
    decreases |more|
  {
    if |draws| < |more| {
      var n := |more| - 1;
      assert draws <= more[..n];
      ErrorIsFinal(step, order, draws, more[..n]);
    } else {
      assert draws == more;
    }
  }

  /** What `generateAttributeSet` returns given the draws it consumes, one per attribute. */
  function GenerateSpec(config: Config, canonicalTraits: seq<string>, draws: seq<Draw>)
    : Result<AttributeSet, string>
    requires |draws| == |config.attributeOrder|
  {
    match RunSteps(StepOf(config, canonicalTraits), config.attributeOrder, draws)
    case Err(e) => Err(e)
    case Ok(attrMap) => Ok(TransformInternalAttributes(attrMap))
  }

  /**
   * A value the generator may record for `attribute`: the trait name of one
   * of the attribute's canonical traits, or of its `None` trait when the
   * attribute is optional.
   */
  ghost predicate Recordable(config: Config, canonicalTraits: seq<string>, attribute: string, value: string)
  {
    (exists t :: t in Candidates(canonicalTraits, attribute) && ExtractTraitName(t) == Some(value))
    || (attribute in config.optionalAttributes && ExtractTraitName(NoneTrait(attribute)) == Some(value))
  }

  /**
   * One iteration fails exactly when the rules leave none of the
   * attribute's traits and the attribute is not optional; otherwise it
   * assigns the attribute a recordable value and touches nothing else.
   */
  lemma GenStepOutcome(config: Config, canonicalTraits: seq<string>, attrMap: AttributeSet, attribute: string,
                       u: Draw)
    requires NonNegative(config.traitProbabilities)
    ensures var possible := TraitFilter(config, attrMap, Candidates(canonicalTraits, attribute));
      var r := GenStep(config, canonicalTraits, attrMap, attribute, u);
      && (r.Err? <==> possible == [] && attribute !in config.optionalAttributes)
      && (r.Err? ==> r.error == "Unable to pick trait for attribute")
      && (r.Ok? ==> exists v :: Recordable(config, canonicalTraits, attribute, v) && r.value == Assign(attrMap, attribute, v))
  {
    var all := Candidates(canonicalTraits, attribute);
    var originalWeight := TotalWeight(Weight(config), all);
    var possible := TraitFilter(config, attrMap, all);
    NonNegativeTable(config.traitProbabilities);
    TraitFilterWeight(config, attrMap, all);
    assert "" !in possible;
    PickSucceedsIffCandidates(Weight(config), config.optionalAttributes, attribute, possible, originalWeight, u);
    PickHasTraitName(config, canonicalTraits, attrMap, attribute, u);
    var picked := PickSpec(Weight(config), config.optionalAttributes, attribute, possible, originalWeight, u);
    if picked.Ok? {
      var v := ExtractTraitName(picked.value).value;
      assert Recordable(config, canonicalTraits, attribute, v) by {
        if picked.value in possible {
          assert picked.value in all;
        }
      }
    }
  }

  /**
   * Whatever the draws, a failed run fails with the picker's error, and a
   * run in progress holds a well-formed set whose every entry is an
   * attribute of the order with a recordable value; with distinct
   * attributes the keys are the attributes handled so far, in order.
   */
  lemma {:induction false} RunOutcome(config: Config, canonicalTraits: seq<string>, draws: seq<Draw>)
    requires NonNegative(config.traitProbabilities)
    requires |draws| <= |config.attributeOrder|
    ensures var order := config.attributeOrder;
      var r := RunSteps(StepOf(config, canonicalTraits), order, draws);
      && (r.Err? ==> r.error == "Unable to pick trait for attribute")
      && (r.Ok? ==>
            && WellFormed(r.value)
            && (forall e :: e in r.value ==>
                  e.attribute in order[..|draws|] && Recordable(config, canonicalTraits, e.attribute, e.value))
            && (Distinct(order) ==> Keys(r.value) == order[..|draws|]))
    decreases |draws|
  {
    var order := config.attributeOrder;
    var step := StepOf(config, canonicalTraits);
    if draws != [] {
      var n := |draws| - 1;
      var front := draws[..n];
      assert draws == front + [draws[n]];
      RunOutcome(config, canonicalTraits, front);
      var prev := RunSteps(step, order, front);
      if prev.Ok? {
        var m := prev.value;
        RunStepsNext(step, order, front, m, draws[n]);
        GenStepOutcome(config, canonicalTraits, m, order[n], draws[n]);
        var r := GenStep(config, canonicalTraits, m, order[n], draws[n]);
        assert RunSteps(step, order, draws) == r;
        if r.Ok? {
          var v :| Recordable(config, canonicalTraits, order[n], v) && r.value == Assign(m, order[n], v);
          AssignWellFormed(m, order[n], v);
          AssignEntries(m, order[n], v);
          TakeNext(order, n);
          forall e | e in r.value
            ensures e.attribute in order[..n + 1] && Recordable(config, canonicalTraits, e.attribute, e.value)
          {
            if e in m {
              assert e.attribute in order[..n];
            }
          }
          if Distinct(order) {
            assert order[n] !in order[..n];
          }
        }
      }
    }
  }

  /**
   * The run is stuck at attribute `k`: the first `k` picks succeeded, the
   * attribute is required and the rules leave none of its traits.
   */
  ghost predicate StuckAt(config: Config, canonicalTraits: seq<string>, draws: seq<Draw>, k: nat)
    requires k < |draws| <= |config.attributeOrder|
  {
    var attribute := config.attributeOrder[k];
    var prev := RunSteps(StepOf(config, canonicalTraits), config.attributeOrder, draws[..k]);
    && prev.Ok?
    && attribute !in config.optionalAttributes
    && TraitFilter(config, prev.value, Candidates(canonicalTraits, attribute)) == []
  }

  /** Being stuck at an earlier attribute does not depend on the later draws. */
  lemma StuckPrefix(config: Config, canonicalTraits: seq<string>, draws: seq<Draw>, k: nat)
    requires k + 1 < |draws| <= |config.attributeOrder|
    ensures StuckAt(config, canonicalTraits, draws[..|draws| - 1], k) == StuckAt(config, canonicalTraits, draws, k)
  {
    assert draws[..|draws| - 1][..k] == draws[..k];
  }

  /** After successful picks, the next one fails exactly when the run is stuck there. */
  lemma StuckLast(config: Config, canonicalTraits: seq<string>, draws: seq<Draw>)
    requires NonNegative(config.traitProbabilities)
    requires 0 < |draws| <= |config.attributeOrder|
    requires RunSteps(StepOf(config, canonicalTraits), config.attributeOrder, draws[..|draws| - 1]).Ok?
    ensures RunSteps(StepOf(config, canonicalTraits), config.attributeOrder, draws).Err?
      <==> StuckAt(config, canonicalTraits, draws, |draws| - 1)
  {
    var order := config.attributeOrder;
    var step := StepOf(config, canonicalTraits);
    var n := |draws| - 1;
    var m := RunSteps(step, order, draws[..n]).value;
    assert RunSteps(step, order, draws) == GenStep(config, canonicalTraits, m, order[n], draws[n]);
    GenStepOutcome(config, canonicalTraits, m, order[n], draws[n]);
  }

  /** A run fails exactly when it gets stuck at some attribute. */
  lemma {:induction false} RunFailsIffStuck(config: Config, canonicalTraits: seq<string>, draws: seq<Draw>)
    requires NonNegative(config.traitProbabilities)
    requires |draws| <= |config.attributeOrder|
    ensures RunSteps(StepOf(config, canonicalTraits), config.attributeOrder, draws).Err?
      <==> exists k :: 0 <= k < |draws| && StuckAt(config, canonicalTraits, draws, k)
    decreases |draws|
  {
    if draws != [] {
      var n := |draws| - 1;
      var front := draws[..n];
      RunFailsIffStuck(config, canonicalTraits, front);
      if RunSteps(StepOf(config, canonicalTraits), config.attributeOrder, front).Ok? {
        StuckLast(config, canonicalTraits, draws);
        if RunSteps(StepOf(config, canonicalTraits), config.attributeOrder, draws).Err? {
          assert StuckAt(config, canonicalTraits, draws, n);
        } else {
          forall k | 0 <= k < |draws|
            ensures !StuckAt(config, canonicalTraits, draws, k)
          {
            if k < n {
              assert !StuckAt(config, canonicalTraits, front, k);
              StuckPrefix(config, canonicalTraits, draws, k);
            } else {
              assert k == n;
            }
          }
        }
      } else {
        var k :| 0 <= k < n && StuckAt(config, canonicalTraits, front, k);
        StuckPrefix(config, canonicalTraits, draws, k);
      }
    }
  }

  /**
   * A generated set: it fails, with the picker's error, exactly when the
   * run gets stuck at some attribute; otherwise it is a well-formed set
   * giving attributes of the order recordable values, and with distinct
   * attributes its keys are the attribute order itself.
   */
  lemma GenerateOutcome(config: Config, canonicalTraits: seq<string>, draws: seq<Draw>)
    requires NonNegative(config.traitProbabilities)
    requires |draws| == |config.attributeOrder|
    ensures var order := config.attributeOrder;
      var r := GenerateSpec(config, canonicalTraits, draws);
      && (r.Err? <==> exists k :: 0 <= k < |draws| && StuckAt(config, canonicalTraits, draws, k))
      && (r.Err? ==> r.error == "Unable to pick trait for attribute")
      && (r.Ok? ==>
            && WellFormed(r.value)
            && (forall e :: e in r.value ==>
                  e.attribute in order && Recordable(config, canonicalTraits, e.attribute, e.value))
            && (Distinct(order) ==> Keys(r.value) == order))
  {
    RunOutcome(config, canonicalTraits, draws);
    RunFailsIffStuck(config, canonicalTraits, draws);
    assert config.attributeOrder[..|draws|] == config.attributeOrder;
  }

  /** A required attribute without a single canonical trait makes generation fail, whatever the draws. */
  lemma RequiredWithoutTraitsFails(config: Config, canonicalTraits: seq<string>, draws: seq<Draw>, k: nat)
    requires NonNegative(config.traitProbabilities)
    requires |draws| == |config.attributeOrder| && k < |draws|
    requires config.attributeOrder[k] !in config.optionalAttributes
    requires Candidates(canonicalTraits, config.attributeOrder[k]) == []
    ensures GenerateSpec(config, canonicalTraits, draws) == Err("Unable to pick trait for attribute")
  {
    var step := StepOf(config, canonicalTraits);
    var prefix := draws[..k];
    GenerateOutcome(config, canonicalTraits, draws);
    var prev := RunSteps(step, config.attributeOrder, prefix);
    if prev.Err? {
      ErrorIsFinal(step, config.attributeOrder, prefix, draws);
    } else {
      TraitFilterEmpty(config, prev.value);
      assert StuckAt(config, canonicalTraits, draws, k);
    }
  }

  /** One pass of the loop body: filter, pick with the next draw `u`, record the trait name. */
  method PickAttribute(config: Config, canonicalTraits: seq<string>, attrMap: AttributeSet, attribute: string,
                       rng: Rng, ghost u: Draw)
    returns (r: Result<AttributeSet, string>)
    requires u == rng.stream(rng.pos)
    modifies rng
    ensures rng.pos == old(rng.pos) + 1
    ensures r == StepOf(config, canonicalTraits)(attrMap, attribute, u)
  {
    var allPossibleTraits := Candidates(canonicalTraits, attribute);
    var originalWeight := TotalWeight(Weight(config), allPossibleTraits);
    var possibleTraits := FilterTraitsByRules(config, attrMap, allPossibleTraits);
    var picked := PickTraitWithProbability(Weight(config), config.optionalAttributes, attribute,
                                           possibleTraits, originalWeight, rng);
    PickHasTraitName(config, canonicalTraits, attrMap, attribute, u);
    if picked.Err? {
      return Err(picked.error);
    }
    r := Ok(Assign(attrMap, attribute, ExtractTraitName(picked.value).value));
  }

  /** `generateAttributeSet`: one pick per attribute, in order, one draw each. */
  method GenerateAttributeSet(config: Config, canonicalTraits: seq<string>, rng: Rng)
    returns (r: Result<AttributeSet, string>)
    modifies rng
    ensures r == GenerateSpec(config, canonicalTraits, DrawsFrom(rng.stream, old(rng.pos), |config.attributeOrder|))
    ensures r.Ok? ==> rng.pos == old(rng.pos) + |config.attributeOrder|
  {
    ghost var pos := rng.pos;
    ghost var step := StepOf(config, canonicalTraits);
    ghost var used: seq<Draw> := [];
    var order := config.attributeOrder;
    var attrMap: AttributeSet := [];
    for i := 0 to |order|
      invariant rng.pos == pos + i
      invariant used == DrawsFrom(rng.stream, pos, i)
      invariant RunSteps(step, order, used) == Ok(attrMap)
    {
      ghost var u := rng.stream(rng.pos);
      DrawsNext(rng.stream, pos, i, rng.pos);
      RunStepsNext(step, order, used, attrMap, u);
      var next := PickAttribute(config, canonicalTraits, attrMap, order[i], rng, u);
      used := used + [u];
      if next.Err? {
        DrawsPrefix(rng.stream, pos, i + 1, |order|);
        ErrorIsFinal(step, order, used, DrawsFrom(rng.stream, pos, |order|));
        return Err(next.error);
      }
      attrMap := next.value;
    }
    r := Ok(TransformInternalAttributes(attrMap));
  }
}

=== FILE: generate_command.dfy ===
/**
 * The `generate-attributes` command (bin/generate-attributes.ts) as far as
 * its draws go: the canonical traits are shuffled in place with one draw per
 * swap, a resumed run skips `startFrom` tokens' worth of draws, and a token
 * the `--trait` filter passes over still consumes one draw per attribute.
 * So every token's attributes come from the same stretch of the stream
 * however the run was started or filtered.
 */
module GenerateCommand {
  import opened Wrappers
  import opened Random
  import opened Glob
  import opened Canonical
  import opened AttributeSets
  import opened Generate
  import AttributeCounts
  import TokenIndex

  /** `Math.floor(draw * (i + 1))`: the slot that slot `i` swaps with. */
  function SwapPartner(d: Draw, i: nat): (j: nat)
    ensures j <= i
  {
    ScaledDraw(d, i);
    (d * (i + 1) as real).Floor
  }

  lemma ScaledDraw(d: Draw, i: nat)
    ensures 0.0 <= d * (i + 1) as real < (i + 1) as real
  {
    var n := (i + 1) as real;
    assert d * n < 1.0 * n;
  }

  /** `[array[i], array[j]] = [array[j], array[i]]`. */
  function Swap<T>(s: seq<T>, i: nat, j: nat): (r: seq<T>)
    requires i < |s| && j < |s|
    ensures |r| == |s|
  {
    s[i := s[j]][j := s[i]]
  }

  lemma SwapPermutes<T>(s: seq<T>, i: nat, j: nat)
    requires i < |s| && j < |s|
    ensures multiset(Swap(s, i, j)) == multiset(s)
  {
    if i != j {
      var t := s[i := s[j]];
      assert multiset(t) == multiset(s) - multiset{s[i]} + multiset{s[j]};
      assert multiset(t[j := s[i]]) == multiset(t) - multiset{t[j]} + multiset{s[i]};
    }
  }

  /** How many draws `shuffleArray` takes for `n` elements: one per slot from `n - 1` down to 1. */
  function ShuffleDraws(n: nat): nat
  {
    if n == 0 then 0 else n - 1
  }

  /**
   * The array after the swaps the given draws make: the `k`-th draw (from 1)
   * swaps slot `|s| - k` with its partner.
   */
  function Shuffled<T>(s: seq<T>, draws: seq<Draw>): (r: seq<T>)
    requires |draws| <= ShuffleDraws(|s|)
    ensures |r| == |s|
  {
    if draws == [] then s
    else
      var i := |s| - |draws|;
      Swap(Shuffled(s, draws[..|draws| - 1]), i, SwapPartner(draws[|draws| - 1], i))
  }

  lemma ShuffledNext<T>(s: seq<T>, draws: seq<Draw>, d: Draw)
    requires |draws| < ShuffleDraws(|s|)
    ensures var i := |s| - 1 - |draws|;
      Shuffled(s, draws + [d]) == Swap(Shuffled(s, draws), i, SwapPartner(d, i))
  {
    var ds := draws + [d];
    var i := |s| - |ds|;
    assert ds[..|ds| - 1] == draws;
    assert ds[|ds| - 1] == d;
    assert Shuffled(s, ds) == Swap(Shuffled(s, ds[..|ds| - 1]), i, SwapPartner(ds[|ds| - 1], i));
  }

  /** Whatever the draws, the shuffle only reorders. */
  lemma {:induction false} ShuffledPermutes<T>(s: seq<T>, draws: seq<Draw>)
    requires |draws| <= ShuffleDraws(|s|)
    ensures multiset(Shuffled(s, draws)) == multiset(s)
    decreases |draws|
  {
    if draws != [] {
      var i := |s| - |draws|;
      ShuffledPermutes(s, draws[..|draws| - 1]);
      SwapPermutes(Shuffled(s, draws[..|draws| - 1]), i, SwapPartner(draws[|draws| - 1], i));
    }
  }

  /** `shuffleArray`: a Fisher-Yates shuffle from the last slot down, one draw per swap. */
  method ShuffleArray<T>(a: array<T>, rng: Rng)
    modifies a, rng
    ensures rng.pos == old(rng.pos) + ShuffleDraws(a.Length)
    ensures a[..] == Shuffled(old(a[..]), DrawsFrom(rng.stream, old(rng.pos), ShuffleDraws(a.Length)))
    ensures multiset(a[..]) == multiset(old(a[..]))
  {
    ghost var s0 := a[..];
    ghost var pos0 := rng.pos;
    ghost var n := ShuffleDraws(a.Length);
    ghost var k: nat := 0;
    var i := a.Length - 1;
    while i > 0
      invariant |s0| == a.Length
      invariant i == a.Length - 1 - k && k <= n
      invariant rng.pos == pos0 + k
      invariant a[..] == Shuffled(s0, DrawsFrom(rng.stream, pos0, k))
      decreases i
    {
      SwapDown(a, rng, i, s0, pos0);
      i := i - 1;
      k := k + 1;
    }
    assert k == n;
    ShuffledPermutes(s0, DrawsFrom(rng.stream, pos0, n));
  }

  /** One pass of the shuffle loop: slot `i` swaps with the partner the next draw picks. */
  method SwapDown<T>(a: array<T>, rng: Rng, i: nat, ghost s0: seq<T>, ghost pos0: nat)
    requires 0 < i < a.Length == |s0|
    requires rng.pos == pos0 + (a.Length - 1 - i)
    requires a[..] == Shuffled(s0, DrawsFrom(rng.stream, pos0, a.Length - 1 - i))
    modifies a, rng
    ensures rng.pos == pos0 + (a.Length - i)
    ensures a[..] == Shuffled(s0, DrawsFrom(rng.stream, pos0, a.Length - i))
  {
    ghost var u := rng.stream(rng.pos);
    ghost var prev := DrawsFrom(rng.stream, pos0, a.Length - 1 - i);
    DrawsNext(rng.stream, pos0, a.Length - 1 - i, rng.pos);
    var d := rng.Next();
    ShuffledNext(s0, prev, d);
    var j := SwapPartner(d, i);
    ghost var before := a[..];
    a[i], a[j] := a[j], a[i];
    assert a[..] == Swap(before, i, j);
  }

  /** `--trait Attr/Glob`, split at its first `/`, the glob compiled. */
  datatype TraitQuery = TraitQuery(attribute: string, pattern: Regex)

  /**
   * The destructuring of `options.trait.split("/")`; an option without a
   * `/` leaves the glob `undefined`, which `globToRegex` cannot take.
   */
  function ParseTraitOption(option: string): (q: TraitQuery)
    requires ExtractTraitName(option).Some?
    ensures q.attribute <= option && '/' !in q.attribute
    ensures |q.attribute| < |option| && option[|q.attribute|] == '/'
    ensures forall s :: Test(q.pattern, s) <==> MatchBody(GlobToRegexStr(ExtractTraitName(option).value), s)
    ensures MetaFree(ExtractTraitName(option).value) ==>
      forall s :: NoLineTerminators(s) ==> (Test(q.pattern, s) <==> GlobMatch(ExtractTraitName(option).value, s))
  {
    var glob := ExtractTraitName(option).value;
    assert forall s :: Test(GlobToRegex(glob), s) <==> MatchBody(GlobToRegexStr(glob), s) by {
      forall s ensures Test(GlobToRegex(glob), s) <==> MatchBody(GlobToRegexStr(glob), s) {
        CompiledIsWholeMatch(glob, s);
      }
    }
    assert MetaFree(glob) ==> forall s :: NoLineTerminators(s) ==> (Test(GlobToRegex(glob), s) <==> GlobMatch(glob, s)) by {
      if MetaFree(glob) {
        forall s | NoLineTerminators(s) ensures Test(GlobToRegex(glob), s) <==> GlobMatch(glob, s) {
          CompiledGlobMatches(glob, s);
        }
      }
    }
    TraitQuery(ExtractAttributeName(option), GlobToRegex(glob))
  }

  /** `attributeTokenIndex[attribute]` must exist: `Object.keys(undefined)` throws. */
  predicate QueryValid(query: Option<TraitQuery>, index: TokenIndex.Index)
  {
    query.Some? ==> query.value.attribute in index
  }

  /** `hasTrait`: some key of the attribute's row that the glob matches lists the token. */
  predicate Selected(query: Option<TraitQuery>, index: TokenIndex.Index, i: nat)
  {
    query.None?
    || (query.value.attribute in index
        && exists key :: key in index[query.value.attribute] && Test(query.value.pattern, key)
                         && i in index[query.value.attribute][key])
  }

  /** The filter as a function of the token id. */
  function Filter(query: Option<TraitQuery>, index: TokenIndex.Index): nat -> bool
  {
    (i: nat) => Selected(query, index, i)
  }

  /** The `m` draws of token `i`, which starts `i` tokens of `m` draws each past `base`. */
  function TokenDraws(stream: nat -> Draw, base: nat, m: nat, i: nat): seq<Draw>
  {
    DrawsFrom(stream, base + i * m, m)
  }

  /** Token `i`'s draws, named by the stream position they start at. */
  lemma TokenDrawsAt(stream: nat -> Draw, base: nat, m: nat, i: nat, p: nat)
    requires p == base + i * m
    ensures TokenDraws(stream, base, m, i) == DrawsFrom(stream, p, m)
  {
  }

  /** What token `i` gets: a generation from the `|attributeOrder|` draws starting `i` tokens past `base`. */
  function TokenSets(config: Config, pool: seq<string>, stream: nat -> Draw, base: nat)
    : nat -> Result<AttributeSet, string>
  {
    (i: nat) => GenerateSpec(config, pool, TokenDraws(stream, base, |config.attributeOrder|, i))
  }

  /**
   * `tokenSet` gives every token the generation from its own draws, as
   * `TokenSets` does; each fact comes into play only where that token's
   * draws are named.
   */
  ghost predicate GeneratesTokens(tokenSet: nat -> Result<AttributeSet, string>, config: Config, pool: seq<string>,
                                  stream: nat -> Draw, base: nat)
  {
    forall i: nat {:trigger TokenDraws(stream, base, |config.attributeOrder|, i)} ::
      tokenSet(i) == GenerateSpec(config, pool, TokenDraws(stream, base, |config.attributeOrder|, i))
  }

  /** `TokenSets` is such a `tokenSet`; callers get it without its definition. */
  lemma TokenSetsGenerate(config: Config, pool: seq<string>, stream: nat -> Draw, base: nat)
    returns (tokenSet: nat -> Result<AttributeSet, string>)
    ensures GeneratesTokens(tokenSet, config, pool, stream, base)
  {
    tokenSet := TokenSets(config, pool, stream, base);
  }

  /** Token `i`'s set is generated from the `|attributeOrder|` draws at position `p`. */
  lemma TokenSetsApply(tokenSet: nat -> Result<AttributeSet, string>, config: Config, pool: seq<string>,
                       stream: nat -> Draw, base: nat, i: nat, p: nat)
    requires GeneratesTokens(tokenSet, config, pool, stream, base)
    requires p == base + i * |config.attributeOrder|
    ensures tokenSet(i) == GenerateSpec(config, pool, DrawsFrom(stream, p, |config.attributeOrder|))
  {
    TokenDrawsAt(stream, base, |config.attributeOrder|, i, p);
  }

  /**
   * The results of tokens `from .. until - 1` given each token's own outcome:
   * the selected ones in order, stopping at the first error.
   */
  function Run(tokenSet: nat -> Result<AttributeSet, string>, selected: nat -> bool, from: nat, until: nat)
    : Result<seq<AttributeSet>, string>
    requires from <= until
    decreases until - from
  {
    if until == from then Ok([])
    else
      var prev := Run(tokenSet, selected, from, until - 1);
      if prev.Err? || !selected(until - 1) then prev
      else
        match tokenSet(until - 1)
        case Err(e) => Err(e)
        case Ok(result) => Ok(prev.value + [result])
  }

  lemma {:induction false} RunErrorIsFinal(tokenSet: nat -> Result<AttributeSet, string>, selected: nat -> bool,
                                           from: nat, i: nat, until: nat)
    requires from <= i <= until
    requires Run(tokenSet, selected, from, i).Err?
    ensures Run(tokenSet, selected, from, until) == Run(tokenSet, selected, from, i)
    decreases until
  {
    if i < until {
      RunErrorIsFinal(tokenSet, selected, from, i, until - 1);
    }
  }

  /** One more token extends a run that has not failed by that token's step. */
  lemma RunNext(tokenSet: nat -> Result<AttributeSet, string>, selected: nat -> bool, from: nat, i: nat,
                out: seq<AttributeSet>, step: Result<Option<AttributeSet>, string>)
    requires from <= i && Run(tokenSet, selected, from, i) == Ok(out)
    requires step == TokenStep(tokenSet, selected, i)
    ensures Run(tokenSet, selected, from, i + 1)
         == match step
            case Err(e) => Err(e)
            case Ok(None) => Ok(out)
            case Ok(Some(result)) => Ok(out + [result])
  {
  }

  lemma MulNext(i: nat, m: nat)
    ensures (i + 1) * m == i * m + m
  {
  }

  /** Skipping draws: `for (...) rng();`. */
  method SkipDraws(rng: Rng, n: nat)
    modifies rng
    ensures rng.pos == old(rng.pos) + n
  {
    for j := 0 to n
      invariant rng.pos == old(rng.pos) + j
    {
      var skipped := rng.Next();
    }
  }

  /**
   * `main` without its file output: shuffle the pool, fast-forward to
   * `startFrom`, then generate tokens `startFrom .. startFrom + count - 1`.
   */
  method GenerateTokens(config: Config, attributes: array<string>, rng: Rng, count: nat, startFrom: nat,
                        query: Option<TraitQuery>, index: TokenIndex.Index)
    returns (results: Result<seq<AttributeSet>, string>, ghost tokenSet: nat -> Result<AttributeSet, string>)
    requires QueryValid(query, index)
    modifies attributes, rng
    ensures attributes[..] == Shuffled(old(attributes[..]), DrawsFrom(rng.stream, old(rng.pos), ShuffleDraws(attributes.Length)))
    ensures GeneratesTokens(tokenSet, config, attributes[..], rng.stream, old(rng.pos) + ShuffleDraws(attributes.Length))
    ensures results == Run(tokenSet, Filter(query, index), startFrom, startFrom + count)
    ensures results.Ok? ==>
      rng.pos == old(rng.pos) + ShuffleDraws(attributes.Length) + (startFrom + count) * |config.attributeOrder|
  {
    ShuffleArray(attributes, rng);
    ghost var base := rng.pos;
    var pool := attributes[..];
    SkipDraws(rng, startFrom * |config.attributeOrder|);
    tokenSet := TokenSetsGenerate(config, pool, rng.stream, base);
    results := GenerateFrom(config, pool, rng, count, startFrom, query, index, base, tokenSet);
  }

  /**
   * The token loop of `main`: tokens the trait filter does not select are
   * skipped but still drawn for; a generation error ends the run, as the
   * uncaught exception does.
   */
  method GenerateFrom(config: Config, pool: seq<string>, rng: Rng, count: nat, startFrom: nat,
                      query: Option<TraitQuery>, index: TokenIndex.Index, ghost base: nat,
                      ghost tokenSet: nat -> Result<AttributeSet, string>)
    returns (results: Result<seq<AttributeSet>, string>)
    requires QueryValid(query, index)
    requires rng.pos == base + startFrom * |config.attributeOrder|
    requires GeneratesTokens(tokenSet, config, pool, rng.stream, base)
    modifies rng
    ensures results == Run(tokenSet, Filter(query, index), startFrom, startFrom + count)
    ensures results.Ok? ==> rng.pos == base + (startFrom + count) * |config.attributeOrder|
  {
    var m := |config.attributeOrder|;
    ghost var selected := Filter(query, index);
    var out: seq<AttributeSet> := [];
    for i := startFrom to startFrom + count
      invariant rng.pos == base + i * m
      invariant Run(tokenSet, selected, startFrom, i) == Ok(out)
    {
      var step := NextToken(config, pool, rng, query, index, i, base, tokenSet);
      RunNext(tokenSet, selected, startFrom, i, out, step);
      match step
      case Err(e) =>
        RunErrorIsFinal(tokenSet, selected, startFrom, i + 1, startFrom + count);
        return Err(e);
      case Ok(None) =>
      case Ok(Some(result)) =>
        out := out + [result];
    }
    return Ok(out);
  }

  /** What the loop does for token `i`: nothing when unselected, else its generation. */
  function TokenStep(tokenSet: nat -> Result<AttributeSet, string>, selected: nat -> bool, i: nat)
    : Result<Option<AttributeSet>, string>
  {
    if !selected(i) then Ok(None)
    else
      match tokenSet(i)
      case Err(e) => Err(e)
      case Ok(result) => Ok(Some(result))
  }

  /** One pass of the token loop: a skipped token still uses up its draws. */
  method NextToken(config: Config, pool: seq<string>, rng: Rng, query: Option<TraitQuery>,
                   index: TokenIndex.Index, i: nat, ghost base: nat,
                   ghost tokenSet: nat -> Result<AttributeSet, string>)
    returns (step: Result<Option<AttributeSet>, string>)
    requires rng.pos == base + i * |config.attributeOrder|
    requires GeneratesTokens(tokenSet, config, pool, rng.stream, base)
    modifies rng
    ensures step == TokenStep(tokenSet, Filter(query, index), i)
    ensures step.Ok? ==> rng.pos == base + (i + 1) * |config.attributeOrder|
  {
    var m := |config.attributeOrder|;
    MulNext(i, m);
    var hasTrait := Selected(query, index, i);
    assert Filter(query, index)(i) == hasTrait;
    if !hasTrait {
      SkipDraws(rng, m);
      return Ok(None);
    }
    TokenSetsApply(tokenSet, config, pool, rng.stream, base, i, rng.pos);
    var result := GenerateAttributeSet(config, pool, rng);
    if result.Err? {
      return Err(result.error);
    }
    return Ok(Some(result.value));
  }

  /** The ids `from .. until - 1` the filter selects, ascending. */
  function SelectedIds(selected: nat -> bool, from: nat, until: nat): (ids: seq<nat>)
    requires from <= until
    ensures forall i: nat :: i in ids <==> from <= i < until && selected(i)
    ensures forall k, l :: 0 <= k < l < |ids| ==> (ids[k] < ids[l])
    decreases until - from
  {
    if until == from then []
    else
      var front := SelectedIds(selected, from, until - 1);
      assert forall k :: 0 <= k < |front| ==> front[k] < until - 1 by {
        forall k | 0 <= k < |front|
          ensures front[k] < until - 1
        {
          assert front[k] in front;
        }
      }
      front + (if selected(until - 1) then [until - 1] else [])
  }

  /**
   * A successful run holds, in id order, one result per selected token, and
   * each is that token's own outcome: it depends on the token's id only, not
   * on where the run started or which other tokens were selected.
   */
  lemma {:induction false} RunIsPerToken(tokenSet: nat -> Result<AttributeSet, string>, selected: nat -> bool,
                                         from: nat, until: nat)
    requires from <= until
    requires Run(tokenSet, selected, from, until).Ok?
    ensures var out := Run(tokenSet, selected, from, until).value;
      var ids := SelectedIds(selected, from, until);
      |out| == |ids| && (forall k :: 0 <= k < |ids| ==> (tokenSet(ids[k]) == Ok(out[k])))
    decreases until - from
  {
    if until > from {
      RunIsPerToken(tokenSet, selected, from, until - 1);
    }
  }

  /** When every id is selected, the ids are `from .. until - 1` themselves. */
  lemma {:induction false} AllIds(selected: nat -> bool, from: nat, until: nat)
    requires from <= until
    requires forall i: nat :: from <= i < until ==> selected(i)
    ensures var ids := SelectedIds(selected, from, until);
      |ids| == until - from && (forall k :: 0 <= k < |ids| ==> (ids[k] == from + k))
    decreases until - from
  {
    if until > from {
      AllIds(selected, from, until - 1);
    }
  }

  /**
   * Resuming stays in step: the `k`-th set a run started at `from` and
   * filtered by `selected` produces is the one an unfiltered run from token
   * 0 produces for the same token id, when both draw each token's set from
   * the same outcomes (the same stream, see `TokenSets`).
   */
  lemma ResumeAgrees(tokenSet: nat -> Result<AttributeSet, string>, selected: nat -> bool,
                     from: nat, until: nat, k: nat)
    requires from <= until
    requires Run(tokenSet, selected, from, until).Ok?
    requires Run(tokenSet, _ => true, 0, until).Ok?
    requires k < |Run(tokenSet, selected, from, until).value|
    ensures var ids := SelectedIds(selected, from, until);
      var full := Run(tokenSet, _ => true, 0, until).value;
      k < |ids| && ids[k] < |full| && Run(tokenSet, selected, from, until).value[k] == full[ids[k]]
  {
    var ids := SelectedIds(selected, from, until);
    RunIsPerToken(tokenSet, selected, from, until);
    RunIsPerToken(tokenSet, _ => true, 0, until);
    AllIds(_ => true, 0, until);
    assert ids[k] in ids;
  }

  /**
   * Against the index a previous run wrote, the filter selects exactly the
   * tokens of that run whose value for the attribute matches the glob.
   */
  lemma FilterSelectsMatching(pool: seq<string>, previous: seq<AttributeSet>, query: TraitQuery, i: nat)
    requires AttributeCounts.AllWellFormed(previous) && AttributeCounts.PoolAttributesPresent(pool, previous)
    requires QueryValid(Some(query), TokenIndex.IndexSpec(pool, previous))
    ensures Selected(Some(query), TokenIndex.IndexSpec(pool, previous), i)
        <==> (i < |previous| && Get(previous[i], query.attribute).Some?
              && Test(query.pattern, Get(previous[i], query.attribute).value))
  {
    var index := TokenIndex.IndexSpec(pool, previous);
    var a := query.attribute;
    if i < |previous| && Get(previous[i], a).Some? && Test(query.pattern, Get(previous[i], a).value) {
      var v := Get(previous[i], a).value;
      TokenIndex.IndexMeaning(pool, previous, a, v);
      assert i in TokenIndex.TokensWith(previous, a, v);
      assert v in index[a];
    }
    if Selected(Some(query), index, i) {
      var key :| key in index[a] && Test(query.pattern, key) && i in index[a][key];
      TokenIndex.IndexMeaning(pool, previous, a, key);
      assert i in TokenIndex.TokensWith(previous, a, key);
    }
  }
}

=== FILE: glob.dfy ===
/**
 * The pattern matcher of src/glob.ts: a glob is compiled to a regular
 * expression by turning every `*` into `.*`, escaping parentheses and
 * anchoring the result with `^` and `$`.
 *
 * A compiled pattern is kept as its source text. `Test` gives the source a
 * meaning for the part of the regular-expression language that globs made
 * of ordinary characters, `*` and parentheses compile to: the anchors `^` and `$`, `.` (any character but a line
 * terminator), identity escapes `\c`, literal characters, and `*` after
 * any of these. Every other character is read literally, including
 * `+ ? [ ] { } |` and a `^` or `$` inside the body, and `\d`, `\w` and the
 * like are read as the escaped letter. JavaScript gives all of those their
 * operator meaning, and `globToRegex` leaves them unescaped, so for a glob
 * that holds one of them `Test` and JavaScript can disagree.
 */
module Glob {
  import opened Wrappers
  import opened Seqs
  import opened JsStrings

  /** A compiled regular expression, given by its source (`new RegExp(source)`). */
  datatype Regex = Regex(source: string)

  /** First pass of `globToRegexStr`: every `*` becomes `.*`. */
  function ReplaceStars(s: string): string
  {
    if s == [] then [] else (if s[0] == '*' then ".*" else [s[0]]) + ReplaceStars(s[1..])
  }

  /** Second pass of `globToRegexStr`: every `(` and `)` gets a backslash in front. */
  function EscapeParens(s: string): string
  {
    if s == [] then []
    else (if s[0] == '(' || s[0] == ')' then ['\\', s[0]] else [s[0]]) + EscapeParens(s[1..])
  }

  /** What one glob character stands for in the regular-expression body. */
  function Piece(c: char): string
  {
    if c == '*' then ".*" else if c == '(' || c == ')' then ['\\', c] else [c]
  }

  /** The body read character by character: each glob character becomes its piece. */
  function Pieces(g: string): string
  {
    if g == [] then [] else Piece(g[0]) + Pieces(g[1..])
  }

  lemma {:induction false} EscapeParensAppend(a: string, b: string)
    ensures EscapeParens(a + b) == EscapeParens(a) + EscapeParens(b)
  {
    if a == [] {
      assert a + b == b;
    } else {
      assert (a + b)[1..] == a[1..] + b;
      EscapeParensAppend(a[1..], b);
    }
  }

  /**
   * Running the two passes one after the other is the same as rewriting
   * each character on its own: the `.*` that the first pass inserts holds
   * no parenthesis, so the second pass leaves it alone.
   */
  lemma {:induction false} PassesAreCharwise(g: string)
    ensures EscapeParens(ReplaceStars(g)) == Pieces(g)
  {
    if g != [] {
      var head := if g[0] == '*' then ".*" else [g[0]];
      EscapeParensAppend(head, ReplaceStars(g[1..]));
      PassesAreCharwise(g[1..]);
      if g[0] == '*' {
        assert EscapeParens(".*") == ".*" by {
          assert ".*"[1..] == "*";
          assert "*"[1..] == [];
        }
      } else {
        assert [g[0]][1..] == [];
      }
    }
  }

  lemma {:induction false} PiecesLength(g: string)
    ensures |Pieces(g)| == |g| + Count(g, '*') + Count(g, '(') + Count(g, ')')
  {
    if g != [] {
      PiecesLength(g[1..]);
    }
  }

  /** `globToRegexStr`: the regular-expression body of a glob. */
  function GlobToRegexStr(input: string): (body: string)
    ensures body == Pieces(input)
    ensures |body| == |input| + Count(input, '*') + Count(input, '(') + Count(input, ')')
  {
    PassesAreCharwise(input);
    PiecesLength(input);
    EscapeParens(ReplaceStars(input))
  }

  /** Splits a source into its leading `^`, its trailing `$`, and the body between them. */
  function Anchors(src: string): (bool, bool, string)
  {
    var atStart := src != [] && src[0] == '^';
    var s1 := if atStart then src[1..] else src;
    var atEnd := s1 != [] && s1[|s1| - 1] == '$';
    (atStart, atEnd, if atEnd then s1[..|s1| - 1] else s1)
  }

  /** `globToRegex`: the compiled pattern is anchored at both ends around the body. */
  function GlobToRegex(input: string): (re: Regex)
    ensures Anchors(re.source) == (true, true, GlobToRegexStr(input))
  {
    var body := GlobToRegexStr(input);
    var src := "^" + body + "$";
    assert src[1..] == body + "$";
    assert (body + "$")[..|body|] == body;
    Regex(src)
  }

  datatype Atom = AnyChar | Literal(c: char)

  predicate AtomMatches(a: Atom, c: char)
  {
    match a
    case AnyChar => !IsLineTerminator(c)
    case Literal(x) => x == c
  }

  /** The first atom of a body, and how many characters of the body it takes. */
  function FirstAtom(body: string): (r: (Atom, nat))
    requires body != []
    ensures 1 <= r.1 <= |body|
  {
    if body[0] == '.' then (AnyChar, 1)
    else if body[0] == '\\' && |body| >= 2 then (Literal(body[1]), 2)
    else (Literal(body[0]), 1)
  }

  /** Does the whole of `s` match `body`, a sequence of atoms each optionally starred? */
  predicate MatchBody(body: string, s: string)
    decreases |body|, |s|
  {
    if body == [] then s == []
    else
      var (atom, n) := FirstAtom(body);
      var rest := body[n..];
      if rest != [] && rest[0] == '*' then
        MatchBody(rest[1..], s) || (s != [] && AtomMatches(atom, s[0]) && MatchBody(body, s[1..]))
      else
        s != [] && AtomMatches(atom, s[0]) && MatchBody(rest, s[1..])
  }

  /**
   * `re.test(s)`: some stretch of `s` matches the body; a `^` pins the
   * stretch to the start of `s`, a `$` to its end.
   */
  predicate Test(re: Regex, s: string)
  {
    var (atStart, atEnd, body) := Anchors(re.source);
    exists i, j | 0 <= i <= j <= |s| && (atStart ==> i == 0) && (atEnd ==> j == |s|) ::
      MatchBody(body, s[i..j])
  }

  /** A compiled glob only ever matches the whole candidate string. */
  lemma CompiledIsWholeMatch(g: string, s: string)
    ensures Test(GlobToRegex(g), s) == MatchBody(GlobToRegexStr(g), s)
  {
    assert s[0..|s|] == s;
  }

  /** The glob dialect on its own terms: `*` matches any run of characters, anything else itself. */
  predicate GlobMatch(g: string, s: string)
    decreases |g|, |s|
  {
    if g == [] then s == []
    else if g[0] == '*' then GlobMatch(g[1..], s) || (s != [] && GlobMatch(g, s[1..]))
    else s != [] && s[0] == g[0] && GlobMatch(g[1..], s[1..])
  }

  /** A glob without `*` matches exactly itself. */
  lemma {:induction false} StarlessGlobMatchesItself(g: string, s: string)
    requires '*' !in g
    ensures GlobMatch(g, s) <==> s == g
    decreases |g|
  {
    if g != [] && s != [] {
      StarlessGlobMatchesItself(g[1..], s[1..]);
      assert s == [s[0]] + s[1..] && g == [g[0]] + g[1..];
    }
  }

  /** A `*` followed by `post` matches any text followed by what `post` matches. */
  lemma {:induction false} StarAbsorbs(post: string, m: string, z: string)
    requires GlobMatch(post, z)
    ensures GlobMatch("*" + post, m + z)
    decreases |m|
  {
    var g := "*" + post;
    assert g[1..] == post;
    if m != [] {
      StarAbsorbs(post, m[1..], z);
      assert (m + z)[1..] == m[1..] + z;
    } else {
      assert m + z == z;
    }
  }

  /** Matching is compositional: matches of two globs concatenate. */
  lemma {:induction false} GlobMatchConcat(p1: string, s1: string, p2: string, s2: string)
    requires GlobMatch(p1, s1) && GlobMatch(p2, s2)
    ensures GlobMatch(p1 + p2, s1 + s2)
    decreases |p1|, |s1|
  {
    if p1 == [] {
      assert p1 + p2 == p2 && s1 + s2 == s2;
    } else {
      var g := p1 + p2;
      assert g[1..] == p1[1..] + p2;
      if p1[0] == '*' {
        if GlobMatch(p1[1..], s1) {
          GlobMatchConcat(p1[1..], s1, p2, s2);
        } else {
          GlobMatchConcat(p1, s1[1..], p2, s2);
          assert (s1 + s2)[1..] == s1[1..] + s2;
        }
      } else {
        GlobMatchConcat(p1[1..], s1[1..], p2, s2);
        assert (s1 + s2)[1..] == s1[1..] + s2;
      }
    }
  }

  /** In `pre*post`, the star matches any (possibly empty) text. */
  lemma StarMatchesAnyText(pre: string, post: string, x: string, m: string, z: string)
    requires GlobMatch(pre, x) && GlobMatch(post, z)
    ensures GlobMatch(pre + "*" + post, x + m + z)
  {
    StarAbsorbs(post, m, z);
    GlobMatchConcat(pre, x, "*" + post, m + z);
    assert pre + "*" + post == pre + ("*" + post);
    assert x + m + z == x + (m + z);
  }

  /** Characters that a regular expression does not read literally. */
  predicate IsRegexMeta(c: char)
  {
    c in "^$\\.*+?()[]{}|"
  }

  /** Globs whose only special characters are `*` and parentheses. */
  predicate MetaFree(g: string)
  {
    forall i :: 0 <= i < |g| ==> g[i] == '*' || g[i] == '(' || g[i] == ')' || !IsRegexMeta(g[i])
  }

  predicate NoLineTerminators(s: string)
  {
    forall i :: 0 <= i < |s| ==> !IsLineTerminator(s[i])
  }

  lemma PiecesHead(g: string)
    requires g != []
    ensures Pieces(g) != [] && Pieces(g)[0] != '*'
  {
  }

  lemma {:induction false} BodyMatchesAsGlob(g: string, s: string)
    requires MetaFree(g) && NoLineTerminators(s)
    ensures MatchBody(Pieces(g), s) == GlobMatch(g, s)
    decreases |g|, |s|
  {
    if g != [] {
      var body := Pieces(g);
      var p := Pieces(g[1..]);
      assert body == Piece(g[0]) + p;
      assert MetaFree(g[1..]) by {
        forall i | 0 <= i < |g[1..]| ensures g[1..][i] == g[i + 1] {}
      }
      if s != [] {
        assert NoLineTerminators(s[1..]) by {
          forall i | 0 <= i < |s[1..]| ensures s[1..][i] == s[i + 1] {}
        }
      }
      if g[0] == '*' {
        assert body[1..][1..] == p;
        BodyMatchesAsGlob(g[1..], s);
        if s != [] {
          BodyMatchesAsGlob(g, s[1..]);
        }
      } else {
        if g[0] == '(' || g[0] == ')' {
          assert body[2..] == p;
        } else {
          assert body[1..] == p;
        }
        if p != [] {
          PiecesHead(g[1..]);
        }
        if s != [] {
          BodyMatchesAsGlob(g[1..], s[1..]);
        }
      }
    }
  }

  /**
   * For a glob free of other metacharacters, the compiled pattern accepts
   * exactly the strings the glob matches.
   */
  lemma CompiledGlobMatches(g: string, s: string)
    requires MetaFree(g) && NoLineTerminators(s)
    ensures Test(GlobToRegex(g), s) == GlobMatch(g, s)
  {
    CompiledIsWholeMatch(g, s);
    BodyMatchesAsGlob(g, s);
  }

  /** Index of the first entry, in order, whose pattern matches `s`; -1 if none does. */
  function FirstMatchIndex<V>(table: seq<(Regex, V)>, s: string): (i: int)
    ensures -1 <= i < |table|
    ensures i >= 0 ==> Test(table[i].0, s)
    ensures forall j :: 0 <= j < |table| && (i == -1 || j < i) ==> !Test(table[j].0, s)
  {
    if table == [] then -1
    else if Test(table[0].0, s) then 0
    else
      var k := FirstMatchIndex(table[1..], s);
      if k == -1 then -1 else k + 1
  }

  /** The value of the first entry whose pattern matches `s`, if any. */
  function FirstMatch<V>(table: seq<(Regex, V)>, s: string): (r: Option<V>)
    ensures r.None? <==> forall j :: 0 <= j < |table| ==> !Test(table[j].0, s)
    ensures r.Some? ==>
      exists i :: (0 <= i < |table| && Test(table[i].0, s) && r.value == table[i].1
        && forall j :: 0 <= j < i ==> !Test(table[j].0, s))
  {
    var i := FirstMatchIndex(table, s);
    if i < 0 then None else Some(table[i].1)
  }
}

=== FILE: jsstrings.dfy ===
/**
 * The JavaScript string primitives the generator relies on: `indexOf`,
 * first-occurrence `replace` with a string pattern, `split` on one
 * character, `endsWith` and `trim`. Strings are sequences of Unicode code
 * points. JavaScript counts UTF-16 code units instead; the two agree for
 * characters below U+10000 and differ for a character above U+FFFF, which
 * JavaScript sees as two units.
 */
module JsStrings {

  /** `pat` occurs in `s` starting at index `i`. */
  predicate OccursAt(s: string, pat: string, i: int)
  {
    0 <= i && i + |pat| <= |s| && s[i..i + |pat|] == pat
  }

  function IndexOfFrom(s: string, pat: string, from: nat): (i: int)
    ensures i == -1 || (from <= i && OccursAt(s, pat, i))
    ensures i >= 0 ==> forall k :: from <= k < i ==> !OccursAt(s, pat, k)
    ensures i == -1 ==> forall k :: from <= k ==> !OccursAt(s, pat, k)
    decreases |s| - from
  {
    if from + |pat| > |s| then -1
    else if s[from..from + |pat|] == pat then from
    else IndexOfFrom(s, pat, from + 1)
  }

  /** `s.indexOf(pat)`: the first index where `pat` occurs, or -1. */
  function IndexOf(s: string, pat: string): (i: int)
    ensures i == -1 || OccursAt(s, pat, i)
    ensures i >= 0 ==> forall k :: 0 <= k < i ==> !OccursAt(s, pat, k)
    ensures i == -1 <==> forall k :: 0 <= k ==> !OccursAt(s, pat, k)
  {
    IndexOfFrom(s, pat, 0)
  }

  /** The first occurrence is the one with no occurrence before it. */
  lemma IndexOfIs(s: string, pat: string, i: nat)
    requires OccursAt(s, pat, i)
    requires forall k :: 0 <= k < i ==> !OccursAt(s, pat, k)
    ensures IndexOf(s, pat) == i
  {
  }

  /** `s.replace(pat, rep)` with a string pattern: only the first occurrence is replaced. */
  function ReplaceFirst(s: string, pat: string, rep: string): (r: string)
    ensures IndexOf(s, pat) == -1 ==> r == s
    ensures IndexOf(s, pat) >= 0 ==>
      var i := IndexOf(s, pat);
      r == s[..i] + rep + s[i + |pat|..]
  {
    var i := IndexOf(s, pat);
    if i < 0 then s else s[..i] + rep + s[i + |pat|..]
  }

  /** `s.endsWith(suffix)`. */
  predicate EndsWith(s: string, suffix: string)
  {
    |suffix| <= |s| && s[|s| - |suffix|..] == suffix
  }

  /** `s.split(sep)` for a one-character separator. */
  function Split(s: string, sep: char): (parts: seq<string>)
    ensures |parts| >= 1
    ensures forall i :: 0 <= i < |parts| ==> sep !in parts[i]
    decreases |s|
  {
    if s == [] then [""]
    else if s[0] == sep then [""] + Split(s[1..], sep)
    else
      var rest := Split(s[1..], sep);
      [[s[0]] + rest[0]] + rest[1..]
  }

  /** `parts.join(sep)`. */
  function Join(parts: seq<string>, sep: char): string
    requires |parts| >= 1
  {
    if |parts| == 1 then parts[0] else parts[0] + [sep] + Join(parts[1..], sep)
  }

  /** Splitting loses nothing: joining the parts back gives the string. */
  lemma {:induction false} JoinSplit(s: string, sep: char)
    ensures Join(Split(s, sep), sep) == s
    decreases |s|
  {
    if s != [] {
      JoinSplit(s[1..], sep);
      var rest := Split(s[1..], sep);
      if s[0] == sep {
        assert Split(s, sep)[1..] == rest;
      } else {
        var parts := Split(s, sep);
        if |rest| == 1 {
          assert parts == [[s[0]] + rest[0]];
        } else {
          assert parts[1..] == rest[1..];
          assert Join(rest, sep) == rest[0] + [sep] + Join(rest[1..], sep);
        }
      }
    }
  }

  /** A string without the separator is one part. */
  lemma {:induction false} SplitNoSep(a: string, sep: char)
    requires sep !in a
    ensures Split(a, sep) == [a]
    decreases |a|
  {
    if a != [] {
      SplitNoSep(a[1..], sep);
      assert [a[0]] + a[1..] == a;
    }
  }

  /** The separator ends the first part; the rest is split independently. */
  lemma {:induction false} SplitAfterHead(a: string, rest: string, sep: char)
    requires sep !in a
    ensures Split(a + [sep] + rest, sep) == [a] + Split(rest, sep)
    decreases |a|
  {
    var s := a + [sep] + rest;
    if a == [] {
      assert s[1..] == rest;
    } else {
      assert s[1..] == a[1..] + [sep] + rest;
      SplitAfterHead(a[1..], rest, sep);
      assert [a[0]] + a[1..] == a;
    }
  }

  /** The first part of a split is the text before the first separator. */
  lemma {:induction false} SplitHead(s: string, sep: char)
    ensures var h := Split(s, sep)[0];
      h <= s && sep !in h && (|h| < |s| ==> s[|h|] == sep)
    ensures |Split(s, sep)| == 1 <==> sep !in s
    ensures |Split(s, sep)| > 1 ==>
      var h := Split(s, sep)[0];
      Split(s, sep)[1..] == Split(s[|h| + 1..], sep)
  {
    if sep in s {
      FirstSepExists(s, sep);
      var k :| 0 <= k < |s| && s[k] == sep && forall j :: 0 <= j < k ==> s[j] != sep;
      var a := s[..k];
      assert s == a + [sep] + s[k + 1..];
      SplitAfterHead(a, s[k + 1..], sep);
    } else {
      SplitNoSep(s, sep);
    }
  }

  lemma FirstSepExists(s: string, sep: char)
    requires sep in s
    ensures exists k :: 0 <= k < |s| && s[k] == sep && forall j :: 0 <= j < k ==> s[j] != sep
  {
    var i :| 0 <= i < |s| && s[i] == sep;
    var k := i;
    while k > 0 && sep in s[..k]
      invariant 0 <= k <= i && s[k] == sep
    {
      var j :| 0 <= j < k && s[..k][j] == sep;
      k := j;
    }
    assert forall j :: 0 <= j < k ==> s[..k][j] == s[j];
  }

  /** ECMAScript LineTerminator code points. */
  predicate IsLineTerminator(c: char)
  {
    c == '\n' || c == '\r' || c == '\U{2028}' || c == '\U{2029}'
  }

  /** What `String.prototype.trim` removes: ECMAScript WhiteSpace and LineTerminator. */
  predicate IsTrimmable(c: char)
  {
    IsLineTerminator(c) || c == '\t' || c == '\U{000B}' || c == '\U{000C}' || c == ' '
    || c == '\U{00A0}' || c == '\U{FEFF}' || c == '\U{1680}' || ('\U{2000}' <= c <= '\U{200A}')
    || c == '\U{202F}' || c == '\U{205F}' || c == '\U{3000}'
  }

  /** Length of the run of trimmable characters at the start of `s`. */
  function LeadingTrimmable(s: string): (n: nat)
    ensures n <= |s|
    ensures forall k :: 0 <= k < n ==> IsTrimmable(s[k])
    ensures n < |s| ==> !IsTrimmable(s[n])
  {
    if s == [] || !IsTrimmable(s[0]) then 0 else 1 + LeadingTrimmable(s[1..])
  }

  /** Length of the run of trimmable characters at the end of `s`. */
  function TrailingTrimmable(s: string): (n: nat)
    ensures n <= |s|
    ensures forall k :: |s| - n <= k < |s| ==> IsTrimmable(s[k])
    ensures n < |s| ==> !IsTrimmable(s[|s| - n - 1])
  {
    if s == [] || !IsTrimmable(s[|s| - 1]) then 0 else 1 + TrailingTrimmable(s[..|s| - 1])
  }

  /** `s.trim()`: the slice left after removing white space at both ends. */
  function Trim(s: string): (r: string)
    ensures var i := LeadingTrimmable(s);
      i + |r| <= |s| && r == s[i..i + |r|]
      && (forall k :: i + |r| <= k < |s| ==> IsTrimmable(s[k]))
      && (r == [] || (!IsTrimmable(r[0]) && !IsTrimmable(r[|r| - 1])))
  {
    var i := LeadingTrimmable(s);
    var t := s[i..];
    t[..|t| - TrailingTrimmable(t)]
  }
}

=== FILE: layer_rules.dfy ===
/**
 * The image-rule engine (src/images/rules.ts, src/images/util.ts): rules
 * keyed by compiled glob, looked up by a layer's canonical name, first
 * match only. `applyLayerRules` walks the drawn layers of a set, frozen
 * when the walk starts, and lets each layer's rule edit a clone.
 *
 * A rule callback is a small command list run against the clone: the
 * layer-set operations it may call, optionally guarded by a `has` test.
 */
module LayerRules {
  import opened Wrappers
  import opened Seqs
  import opened Glob
  import opened AttributeSets
  import opened Layers

  /** One call a rule callback makes on the clone; the moves move the visited layer. */
  datatype Action =
    | RemoveAll(attribute: string)
    | AddBefore(attribute: string, name: string)
    | AddAfter(attribute: string, name: string)
    | MoveToBefore(attribute: string)
    | MoveToAfter(attribute: string)

  /** A rule callback: its actions, run only when the guard (if any) finds a layer in the clone. */
  datatype Rule = Rule(guard: Option<Search>, actions: seq<Action>)

  /** The layers one action leaves, for the layer being visited. */
  function ActionEffect(s: seq<EditableLayer>, visited: EditableLayer, a: Action): seq<EditableLayer>
  {
    match a
    case RemoveAll(attribute) => Filter(s, OtherAttribute(attribute))
    case AddBefore(attribute, name) => PlaceBefore(s, attribute, NewLayer(name))
    case AddAfter(attribute, name) => PlaceAfter(s, attribute, NewLayer(name))
    case MoveToBefore(attribute) => PlaceBefore(TakeOut(s, visited.canonicalName), attribute, visited)
    case MoveToAfter(attribute) => PlaceAfter(TakeOut(s, visited.canonicalName), attribute, visited)
  }

  /** The actions run in order. */
  function ActionsEffect(s: seq<EditableLayer>, visited: EditableLayer, actions: seq<Action>): seq<EditableLayer>
  {
    if actions == [] then s
    else ActionEffect(ActionsEffect(s, visited, actions[..|actions| - 1]), visited, actions[|actions| - 1])
  }

  /** A rule called on the clone: nothing when its guard finds no layer. */
  function RuleEffect(s: seq<EditableLayer>, visited: EditableLayer, rule: Rule): seq<EditableLayer>
  {
    if rule.guard.Some? && FirstMatching(s, SearchPattern(rule.guard.value)).None? then s
    else ActionsEffect(s, visited, rule.actions)
  }

  /** One visit: the layer's first matching rule, if any, called on the clone. */
  function VisitEffect(s: seq<EditableLayer>, layer: EditableLayer, rules: seq<(Regex, Rule)>): seq<EditableLayer>
  {
    match FirstMatch(rules, layer.canonicalName)
    case None => s
    case Some(rule) => RuleEffect(s, layer, rule)
  }

  /** The clone's layers after the visits so far, each running its first matching rule. */
  function ApplySpec(visits: seq<EditableLayer>, rules: seq<(Regex, Rule)>, s: seq<EditableLayer>): seq<EditableLayer>
  {
    if visits == [] then s
    else VisitEffect(ApplySpec(visits[..|visits| - 1], rules, s), visits[|visits| - 1], rules)
  }

  lemma ActionsNext(s: seq<EditableLayer>, visited: EditableLayer, actions: seq<Action>, k: nat)
    requires k < |actions|
    ensures ActionsEffect(s, visited, actions[..k + 1]) == ActionEffect(ActionsEffect(s, visited, actions[..k]), visited, actions[k])
  {
    assert actions[..k + 1][..k] == actions[..k];
  }

  lemma ApplySpecNext(visits: seq<EditableLayer>, rules: seq<(Regex, Rule)>, s: seq<EditableLayer>, k: nat)
    requires k < |visits|
    ensures ApplySpec(visits[..k + 1], rules, s) == VisitEffect(ApplySpec(visits[..k], rules, s), visits[k], rules)
  {
    assert visits[..k + 1][..k] == visits[..k];
  }

  /** One action, through the layer-set method it stands for. */
  method RunAction(layerSet: LayerSet, visited: EditableLayer, a: Action)
    modifies layerSet
    ensures layerSet.layers == ActionEffect(old(layerSet.layers), visited, a)
  {
    match a
    case RemoveAll(attribute) =>
      layerSet.Remove(attribute);
    case AddBefore(attribute, name) =>
      var _ := layerSet.InsertBefore(attribute, name);
    case AddAfter(attribute, name) =>
      var _ := layerSet.InsertAfter(attribute, name);
    case MoveToBefore(attribute) =>
      layerSet.MoveBefore(visited, attribute);
    case MoveToAfter(attribute) =>
      layerSet.MoveAfter(visited, attribute);
  }

  /** `rule(newLayerSet, layer)`. */
  method RunRule(layerSet: LayerSet, visited: EditableLayer, rule: Rule)
    modifies layerSet
    ensures layerSet.layers == RuleEffect(old(layerSet.layers), visited, rule)
  {
    if rule.guard.Some? {
      var found := layerSet.Has(rule.guard.value);
      if !found {
        return;
      }
    }
    ghost var start := layerSet.layers;
    for k := 0 to |rule.actions|
      invariant layerSet.layers == ActionsEffect(start, visited, rule.actions[..k])
    {
      ActionsNext(start, visited, rule.actions, k);
      RunAction(layerSet, visited, rule.actions[k]);
    }
    assert rule.actions[..|rule.actions|] == rule.actions;
  }

  /** The rule lookup inside `applyLayerRules`: the first entry, in order, whose pattern matches. */
  method FirstRule<V>(rules: seq<(Regex, V)>, name: string) returns (rule: Option<V>)
    ensures rule == FirstMatch(rules, name)
  {
    for i := 0 to |rules|
      invariant forall j :: 0 <= j < i ==> !Test(rules[j].0, name)
    {
      if Test(rules[i].0, name) {
        assert FirstMatchIndex(rules, name) == i;
        return Some(rules[i].1);
      }
    }
    return None;
  }

  /** The loop body of `applyLayerRules`: look up the layer's rule and call it on the clone. */
  method Visit(clone: LayerSet, layer: EditableLayer, rules: seq<(Regex, Rule)>)
    modifies clone
    ensures clone.layers == VisitEffect(old(clone.layers), layer, rules)
  {
    var rule := FirstRule(rules, layer.canonicalName);
    if rule.Some? {
      RunRule(clone, layer, rule.value);
    }
  }

  /**
   * `applyLayerRules`: a clone is edited while the original's iterator
   * walks the drawn layers of the original, frozen at the start; each
   * visited layer runs only its first matching rule. The original is not
   * touched.
   */
  method ApplyLayerRules(layerSet: LayerSet, rules: seq<(Regex, Rule)>) returns (newLayerSet: LayerSet)
    ensures fresh(newLayerSet)
    ensures newLayerSet.layers == ApplySpec(layerSet.Get(), rules, layerSet.layers)
    ensures layerSet.layers == old(layerSet.layers)
  {
    ghost var start := layerSet.layers;
    ghost var visits := layerSet.Get();
    newLayerSet := LayerSet.Clone(layerSet);
    var it := layerSet.Iterator();
    var value, done := it.Next();
    while !done
      invariant fresh(newLayerSet) && fresh(it)
      invariant it.layers == visits
      invariant 1 <= it.index <= |visits| + 1
      invariant done <==> it.index == |visits| + 1
      invariant !done ==> value == Some(visits[it.index - 1])
      invariant newLayerSet.layers == ApplySpec(visits[..it.index - 1], rules, start)
      decreases |visits| + 1 - it.index
    {
      ghost var k: nat := it.index - 1;
      ApplySpecNext(visits, rules, start, k);
      Visit(newLayerSet, value.value, rules);
      value, done := it.Next();
      assert it.index - 1 == k + 1;
    }
    assert visits[..|visits|] == visits;
  }

  /** The layers the constructor makes for an attribute set. */
  function Constructed(attrSet: AttributeSet, layerOrder: seq<string>): (s: seq<EditableLayer>)
    ensures |s| == |layerOrder|
  {
    seq(|layerOrder|, i requires 0 <= i < |layerOrder| => InitialLayer(attrSet, layerOrder[i]))
  }

  /** `processAttributesToLayers`: the layer order's layers for the set, with the rules applied. */
  method ProcessAttributesToLayers(attrSet: AttributeSet, layerOrder: seq<string>, rules: seq<(Regex, Rule)>)
    returns (layerSet: LayerSet)
    ensures fresh(layerSet)
    ensures var s := Constructed(attrSet, layerOrder);
      layerSet.layers == ApplySpec(Filter(s, Shown()), rules, s)
  {
    var initial := new LayerSet(attrSet, layerOrder);
    assert initial.layers == Constructed(attrSet, layerOrder);
    layerSet := ApplyLayerRules(initial, rules);
  }

  /** With no visited layer matching any rule, the result is the input's layer list. */
  lemma {:induction false} NoRuleNoChange(visits: seq<EditableLayer>, rules: seq<(Regex, Rule)>, s: seq<EditableLayer>)
    requires forall i :: 0 <= i < |visits| ==> FirstMatch(rules, visits[i].canonicalName).None?
    ensures ApplySpec(visits, rules, s) == s
  {
    if visits != [] {
      var front := visits[..|visits| - 1];
      assert forall i :: 0 <= i < |front| ==> front[i] == visits[i];
      NoRuleNoChange(front, rules, s);
    }
  }

  /** How each action changes the number of layers. */
  lemma ActionLength(s: seq<EditableLayer>, visited: EditableLayer, a: Action)
    ensures a.RemoveAll? ==> |ActionEffect(s, visited, a)| <= |s|
    ensures a.AddBefore? || a.AddAfter? ==> |ActionEffect(s, visited, a)| == |s| + 1
    ensures a.MoveToBefore? || a.MoveToAfter? ==> |ActionEffect(s, visited, a)| == if s == [] then 1 else |s|
  {
    match a
    case RemoveAll(_) =>
    case AddBefore(attribute, name) =>
      PlaceBeforeAt(s, attribute, NewLayer(name));
    case AddAfter(attribute, name) =>
      PlaceAfterAt(s, attribute, NewLayer(name));
    case MoveToBefore(attribute) =>
      TakeOutAt(s, visited.canonicalName);
      PlaceBeforeAt(TakeOut(s, visited.canonicalName), attribute, visited);
    case MoveToAfter(attribute) =>
      TakeOutAt(s, visited.canonicalName);
      PlaceAfterAt(TakeOut(s, visited.canonicalName), attribute, visited);
  }

  /** Moving the visited layer, when it is the first layer of its name, only reorders the layers. */
  lemma MoveActionPermutes(s: seq<EditableLayer>, visited: EditableLayer, a: Action)
    requires a.MoveToBefore? || a.MoveToAfter?
    requires IndexOfName(s, visited.canonicalName) >= 0 && s[IndexOfName(s, visited.canonicalName)] == visited
    ensures multiset(ActionEffect(s, visited, a)) == multiset(s)
  {
    MovePermutes(s, visited, a.attribute);
  }

  /** No action leaves a layer without a file, given the visited layer has one. */
  lemma ActionKeepsFiles(s: seq<EditableLayer>, visited: EditableLayer, a: Action)
    requires FilesPresent(s) && visited.file.Some?
    ensures FilesPresent(ActionEffect(s, visited, a))
  {
    match a
    case RemoveAll(attribute) =>
      RemoveKeepsFiles(s, attribute);
    case AddBefore(attribute, name) =>
      PlaceKeepsFiles(s, attribute, NewLayer(name));
    case AddAfter(attribute, name) =>
      PlaceKeepsFiles(s, attribute, NewLayer(name));
    case MoveToBefore(attribute) =>
      TakeOutKeepsFiles(s, visited.canonicalName);
      PlaceKeepsFiles(TakeOut(s, visited.canonicalName), attribute, visited);
    case MoveToAfter(attribute) =>
      TakeOutKeepsFiles(s, visited.canonicalName);
      PlaceKeepsFiles(TakeOut(s, visited.canonicalName), attribute, visited);
  }

  lemma {:induction false} ActionsKeepFiles(s: seq<EditableLayer>, visited: EditableLayer, actions: seq<Action>)
    requires FilesPresent(s) && visited.file.Some?
    ensures FilesPresent(ActionsEffect(s, visited, actions))
  {
    if actions != [] {
      ActionsKeepFiles(s, visited, actions[..|actions| - 1]);
      ActionKeepsFiles(ActionsEffect(s, visited, actions[..|actions| - 1]), visited, actions[|actions| - 1]);
    }
  }

  /** Visiting only layers with files, the rules never leave a layer without a file. */
  lemma {:induction false} ApplyKeepsFiles(visits: seq<EditableLayer>, rules: seq<(Regex, Rule)>, s: seq<EditableLayer>)
    requires FilesPresent(s) && FilesPresent(visits)
    ensures FilesPresent(ApplySpec(visits, rules, s))
  {
    if visits != [] {
      var front := visits[..|visits| - 1];
      var layer := visits[|visits| - 1];
      assert forall i :: 0 <= i < |front| ==> front[i] == visits[i];
      ApplyKeepsFiles(front, rules, s);
      var rule := FirstMatch(rules, layer.canonicalName);
      if rule.Some? {
        ActionsKeepFiles(ApplySpec(front, rules, s), layer, rule.value.actions);
      }
      assert ApplySpec(visits, rules, s) == VisitEffect(ApplySpec(front, rules, s), layer, rules);
    }
  }

  /** `applyLayerRules` on a set whose layers all have files gives a set whose layers all have files. */
  lemma AppliedKeepsFiles(layerSet: LayerSet, rules: seq<(Regex, Rule)>)
    requires FilesPresent(layerSet.layers)
    ensures FilesPresent(ApplySpec(layerSet.Get(), rules, layerSet.layers))
  {
    var visits := layerSet.Get();
    forall i | 0 <= i < |visits|
      ensures visits[i].file.Some?
    {
      assert visits[i] in visits;
    }
    ApplyKeepsFiles(visits, rules, layerSet.layers);
  }

  /** The value of the first entry, in order, whose glob key matches `s`. */
  function FirstGlobMatch<V>(entries: seq<(string, V)>, s: string): Option<V>
  {
    if entries == [] then None
    else if GlobMatch(entries[0].0, s) then Some(entries[0].1)
    else FirstGlobMatch(entries[1..], s)
  }

  /**
   * `formatImageRules` / `formatBlendRules`: a fresh `RegExp` per key, so
   * the map gets one entry per key, in order, with the value unchanged.
   */
  method FormatRules<V>(entries: seq<(string, V)>) returns (rules: seq<(Regex, V)>)
    ensures |rules| == |entries|
    ensures forall i :: 0 <= i < |entries| ==> rules[i] == (GlobToRegex(entries[i].0), entries[i].1)
  {
    rules := [];
    for k := 0 to |entries|
      invariant |rules| == k
      invariant forall i :: 0 <= i < k ==> rules[i] == (GlobToRegex(entries[i].0), entries[i].1)
    {
      var entry := (GlobToRegex(entries[k].0), entries[k].1);
      ghost var prev := rules;
      rules := rules + [entry];
      forall i | 0 <= i < k + 1
        ensures rules[i] == (GlobToRegex(entries[i].0), entries[i].1)
      {
        if i < k {
          assert rules[i] == prev[i];
        }
      }
    }
  }

  /**
   * Looking a name up in formatted rules finds the first entry whose glob
   * matches it, when the keys have no regex metacharacters besides `*`.
   */
  lemma {:induction false} FormattedLookup<V>(entries: seq<(string, V)>, rules: seq<(Regex, V)>, s: string)
    requires |rules| == |entries|
    requires forall i :: 0 <= i < |entries| ==> rules[i] == (GlobToRegex(entries[i].0), entries[i].1)
    requires forall i :: 0 <= i < |entries| ==> MetaFree(entries[i].0)
    requires NoLineTerminators(s)
    ensures FirstMatch(rules, s) == FirstGlobMatch(entries, s)
  {
    if entries != [] {
      CompiledGlobMatches(entries[0].0, s);
      FormattedLookup(entries[1..], rules[1..], s);
      assert FirstMatchIndex(rules, s) == if Test(rules[0].0, s) then 0
        else if FirstMatchIndex(rules[1..], s) == -1 then -1 else FirstMatchIndex(rules[1..], s) + 1;
    }
  }

  /** `Object.fromEntries`' assignment: an existing key keeps its place and takes the new value. */
  function SetEntry<V>(r: seq<(string, V)>, key: string, value: V): seq<(string, V)>
  {
    if r == [] then [(key, value)]
    else if r[0].0 == key then [(key, value)] + r[1..]
    else [r[0]] + SetEntry(r[1..], key, value)
  }

  function Keys<V>(r: seq<(string, V)>): (keys: seq<string>)
    ensures |keys| == |r|
  {
    seq(|r|, i requires 0 <= i < |r| => r[i].0)
  }

  lemma {:induction false} SetEntryKeys<V>(r: seq<(string, V)>, key: string, value: V)
    ensures Keys(SetEntry(r, key, value)) == if key in Keys(r) then Keys(r) else Keys(r) + [key]
    ensures forall i :: 0 <= i < |SetEntry(r, key, value)| ==>
      SetEntry(r, key, value)[i] in r || SetEntry(r, key, value)[i] == (key, value)
  {
    if r != [] {
      SetEntryKeys(r[1..], key, value);
      assert Keys(r) == [r[0].0] + Keys(r[1..]);
      if r[0].0 == key {
        assert Keys(SetEntry(r, key, value)) == [key] + Keys(r[1..]);
      } else {
        assert Keys(SetEntry(r, key, value)) == [r[0].0] + Keys(SetEntry(r[1..], key, value));
        assert key in Keys(r) <==> key in Keys(r[1..]);
      }
    }
  }

  /** `repeatImageRule`: every matcher keyed to the one rule, as `Object.fromEntries` builds it. */
  function RepeatImageRule<V>(matchers: seq<string>, rule: V): (r: seq<(string, V)>)
  {
    if matchers == [] then []
    else SetEntry(RepeatImageRule(matchers[..|matchers| - 1], rule), matchers[|matchers| - 1], rule)
  }

  /** The matchers with later duplicates dropped: first-occurrence order. */
  function Dedup(s: seq<string>): (d: seq<string>)
    ensures forall x :: x in d <==> x in s
    ensures Distinct(d)
  {
    if s == [] then []
    else
      var front := Dedup(s[..|s| - 1]);
      assert forall x :: x in s <==> x in s[..|s| - 1] || x == s[|s| - 1];
      if s[|s| - 1] in s[..|s| - 1] then front else front + [s[|s| - 1]]
  }

  /**
   * The keys of `repeatImageRule`'s record are the matchers, each once, in
   * the order they first appear, and every key maps to the one rule.
   */
  lemma {:induction false} RepeatImageRuleMeaning<V>(matchers: seq<string>, rule: V)
    ensures Keys(RepeatImageRule(matchers, rule)) == Dedup(matchers)
    ensures forall i :: 0 <= i < |RepeatImageRule(matchers, rule)| ==> RepeatImageRule(matchers, rule)[i].1 == rule
  {
    if matchers != [] {
      var front := matchers[..|matchers| - 1];
      var r := RepeatImageRule(front, rule);
      RepeatImageRuleMeaning(front, rule);
      SetEntryKeys(r, matchers[|matchers| - 1], rule);
      var r' := RepeatImageRule(matchers, rule);
      forall i | 0 <= i < |r'|
        ensures r'[i].1 == rule
      {
        if r'[i] in r {
          var j :| 0 <= j < |r| && r[j] == r'[i];
        }
      }
    }
  }
}

=== FILE: layers.dfy ===
/**
 * The layer set of an image (src/images/layers.ts): an ordered list of
 * layers, one per entry of the configured layer order, that image rules
 * edit with `Array.prototype.splice`. A `findIndex` that finds nothing
 * yields -1, and `splice` reads a negative start from the end, so edits
 * aimed at a missing layer land next to the last one.
 */
module Layers {
  import opened Wrappers
  import opened Seqs
  import opened JsStrings
  import opened Glob
  import opened Canonical
  import opened AttributeSets

  /** `EditableLayer`: `file` is `null` when absent. */
  datatype EditableLayer = EditableLayer(attribute: string, canonicalName: string, file: Option<string>)

  /** `resolveFilename`. */
  function ResolveFilename(attribute: string, traitName: string): string
  {
    "./assets/" + attribute + "/" + traitName + ".png"
  }

  /** The file of a layer inserted by canonical name. */
  function AssetFile(canonicalName: string): string
  {
    "./assets/" + canonicalName + ".png"
  }

  /** A constructed layer's file is the one an inserted layer of the same canonical name gets. */
  lemma ResolvedIsAssetFile(attribute: string, traitName: string)
    ensures ResolveFilename(attribute, traitName) == AssetFile(CreateCanonicalName(attribute, traitName))
  {
    assert "./assets/" + attribute + "/" + traitName + ".png"
        == "./assets/" + (attribute + "/" + traitName) + ".png";
  }

  /** `attrSet[attribute]` in a template string: a missing key reads `undefined`. */
  function TraitText(attrSet: AttributeSet, attribute: string): string
  {
    match Get(attrSet, attribute)
    case Some(t) => t
    case None => "undefined"
  }

  /** The layer the constructor makes for one entry of the layer order. */
  function InitialLayer(attrSet: AttributeSet, attribute: string): EditableLayer
  {
    var t := TraitText(attrSet, attribute);
    EditableLayer(attribute, CreateCanonicalName(attribute, t), Some(ResolveFilename(attribute, t)))
  }

  /** The layer `insertBefore` and `insertAfter` make. */
  function NewLayer(canonicalName: string): EditableLayer
  {
    EditableLayer(ExtractAttributeName(canonicalName), canonicalName, Some(AssetFile(canonicalName)))
  }

  /** `findIndex((layer) => layer.attribute === attribute)`. */
  function IndexOfAttribute(layers: seq<EditableLayer>, attribute: string): (i: int)
    ensures -1 <= i < |layers|
    ensures i >= 0 ==> layers[i].attribute == attribute
    ensures forall k :: 0 <= k < |layers| && (i == -1 || k < i) ==> layers[k].attribute != attribute
  {
    if layers == [] then -1
    else if layers[0].attribute == attribute then 0
    else
      var k := IndexOfAttribute(layers[1..], attribute);
      if k == -1 then -1 else k + 1
  }

  /** `findIndex((layer) => layer.canonicalName === name)`. */
  function IndexOfName(layers: seq<EditableLayer>, name: string): (i: int)
    ensures -1 <= i < |layers|
    ensures i >= 0 ==> layers[i].canonicalName == name
    ensures forall k :: 0 <= k < |layers| && (i == -1 || k < i) ==> layers[k].canonicalName != name
  {
    if layers == [] then -1
    else if layers[0].canonicalName == name then 0
    else
      var k := IndexOfName(layers[1..], name);
      if k == -1 then -1 else k + 1
  }

  /** Where `splice(start, ...)` begins: a negative start counts back from the end; both are clamped. */
  function SpliceStart(length: nat, start: int): (k: nat)
    ensures k <= length
  {
    if start < 0 then (if length + start < 0 then 0 else length + start)
    else if start > length then length
    else start
  }

  /** `array.splice(start, deleteCount, ...items)`, as the array it leaves. */
  function Splice<T>(s: seq<T>, start: int, deleteCount: nat, items: seq<T>): seq<T>
  {
    var k := SpliceStart(|s|, start);
    var n := if deleteCount <= |s| - k then deleteCount else |s| - k;
    s[..k] + items + s[k + n..]
  }

  /** The layers without those of `attribute`: what `remove` keeps. */
  function OtherAttribute(attribute: string): EditableLayer -> bool
  {
    (layer: EditableLayer) => layer.attribute != attribute
  }

  /** `splice(index, 0, x)` at the first layer of `attribute`. */
  function PlaceBefore(s: seq<EditableLayer>, attribute: string, x: EditableLayer): seq<EditableLayer>
  {
    Splice(s, IndexOfAttribute(s, attribute), 0, [x])
  }

  /** `splice(index + 1, 0, x)` after the first layer of `attribute`. */
  function PlaceAfter(s: seq<EditableLayer>, attribute: string, x: EditableLayer): seq<EditableLayer>
  {
    Splice(s, IndexOfAttribute(s, attribute) + 1, 0, [x])
  }

  /** `splice(index, 1)` at the first layer named `name`. */
  function TakeOut(s: seq<EditableLayer>, name: string): seq<EditableLayer>
  {
    Splice(s, IndexOfName(s, name), 1, [])
  }

  /** The slot `PlaceBefore` uses: the attribute's first layer, else before the last layer, else 0. */
  function BeforeSlot(s: seq<EditableLayer>, attribute: string): (p: nat)
    ensures p <= |s|
  {
    var i := IndexOfAttribute(s, attribute);
    if i >= 0 then i else if s == [] then 0 else |s| - 1
  }

  /**
   * `PlaceBefore` puts the layer in front of the attribute's first layer;
   * with the attribute absent, in front of the last layer (at 0 when empty).
   */
  lemma PlaceBeforeAt(s: seq<EditableLayer>, attribute: string, x: EditableLayer)
    ensures var p := BeforeSlot(s, attribute);
      PlaceBefore(s, attribute, x) == s[..p] + [x] + s[p..]
    ensures IndexOfAttribute(s, attribute) >= 0 ==>
      PlaceBefore(s, attribute, x)[IndexOfAttribute(s, attribute) + 1] == s[IndexOfAttribute(s, attribute)]
  {
    var p := BeforeSlot(s, attribute);
    assert SpliceStart(|s|, IndexOfAttribute(s, attribute)) == p;
    assert s[p + 0..] == s[p..];
  }

  /** `PlaceAfter` puts the layer right behind the attribute's first layer; with it absent, at the front. */
  lemma PlaceAfterAt(s: seq<EditableLayer>, attribute: string, x: EditableLayer)
    ensures var p := IndexOfAttribute(s, attribute) + 1;
      0 <= p <= |s| && PlaceAfter(s, attribute, x) == s[..p] + [x] + s[p..]
    ensures IndexOfAttribute(s, attribute) == -1 ==> PlaceAfter(s, attribute, x) == [x] + s
  {
    var p := IndexOfAttribute(s, attribute) + 1;
    SpliceInsert(s, p, x);
    if p == 0 {
      assert s[..0] == [] && s[0..] == s;
    }
  }

  /** Splicing one item in at a valid position inserts it there. */
  lemma SpliceInsert<T>(s: seq<T>, p: int, x: T)
    requires 0 <= p <= |s|
    ensures Splice(s, p, 0, [x]) == s[..p] + [x] + s[p..]
  {
    SpliceAt(s, p, 0, [x], p, 0);
    assert s[p + 0..] == s[p..];
  }

  /** `TakeOut` removes the first layer of that name; with none, the last layer (nothing when empty). */
  lemma TakeOutAt(s: seq<EditableLayer>, name: string)
    ensures var i := IndexOfName(s, name);
      TakeOut(s, name) == if i >= 0 then s[..i] + s[i + 1..] else if s == [] then [] else s[..|s| - 1]
  {
    var i := IndexOfName(s, name);
    if i >= 0 {
      SpliceAt(s, i, 1, [], i, 1);
      assert s[..i] + [] == s[..i];
    } else if s != [] {
      SpliceAt(s, i, 1, [], |s| - 1, 1);
      assert s[..|s| - 1] + [] + s[|s|..] == s[..|s| - 1];
    } else {
      SpliceAt(s, i, 1, [], 0, 0);
    }
  }

  /** `Splice` at a start and delete count already worked out. */
  lemma SpliceAt<T>(s: seq<T>, start: int, deleteCount: nat, items: seq<T>, k: nat, n: nat)
    requires k == SpliceStart(|s|, start)
    requires n == if deleteCount <= |s| - k then deleteCount else |s| - k
    ensures k + n <= |s|
    ensures Splice(s, start, deleteCount, items) == s[..k] + items + s[k + n..]
  {
  }

  /** No layer has a `null` file. */
  predicate FilesPresent(s: seq<EditableLayer>)
  {
    forall i :: 0 <= i < |s| ==> s[i].file.Some?
  }

  lemma PlaceKeepsFiles(s: seq<EditableLayer>, attribute: string, x: EditableLayer)
    requires FilesPresent(s) && x.file.Some?
    ensures FilesPresent(PlaceBefore(s, attribute, x)) && FilesPresent(PlaceAfter(s, attribute, x))
  {
    PlaceBeforeAt(s, attribute, x);
    PlaceAfterAt(s, attribute, x);
    InsertKeepsFiles(s, BeforeSlot(s, attribute), x);
    InsertKeepsFiles(s, IndexOfAttribute(s, attribute) + 1, x);
  }

  lemma InsertKeepsFiles(s: seq<EditableLayer>, p: nat, x: EditableLayer)
    requires FilesPresent(s) && x.file.Some? && p <= |s|
    ensures FilesPresent(s[..p] + [x] + s[p..])
  {
    var t := s[..p] + [x] + s[p..];
    forall k | 0 <= k < |t|
      ensures t[k].file.Some?
    {
      if k < p {
        assert t[k] == s[k];
      } else if k > p {
        assert t[k] == s[k - 1];
      }
    }
  }

  lemma TakeOutKeepsFiles(s: seq<EditableLayer>, name: string)
    requires FilesPresent(s)
    ensures FilesPresent(TakeOut(s, name))
  {
    TakeOutAt(s, name);
    var i := IndexOfName(s, name);
    if i >= 0 {
      var rest := s[i + 1..];
      forall k | 0 <= k < |rest|
        ensures rest[k].file.Some?
      {
        assert rest[k] == s[i + 1 + k];
      }
    }
  }

  lemma RemoveKeepsFiles(s: seq<EditableLayer>, attribute: string)
    requires FilesPresent(s)
    ensures FilesPresent(Filter(s, OtherAttribute(attribute)))
  {
    var r := Filter(s, OtherAttribute(attribute));
    forall i | 0 <= i < |r|
      ensures r[i].file.Some?
    {
      assert r[i] in r;
    }
  }

  lemma InsertMultiset<T>(t: seq<T>, p: nat, x: T)
    requires p <= |t|
    ensures multiset(t[..p] + [x] + t[p..]) == multiset(t) + multiset{x}
  {
    assert t == t[..p] + t[p..];
  }

  /** Placing a layer adds exactly that layer. */
  lemma PlacedMultiset(t: seq<EditableLayer>, attribute: string, x: EditableLayer)
    ensures multiset(PlaceBefore(t, attribute, x)) == multiset(t) + multiset{x}
    ensures multiset(PlaceAfter(t, attribute, x)) == multiset(t) + multiset{x}
  {
    PlaceBeforeAt(t, attribute, x);
    InsertMultiset(t, BeforeSlot(t, attribute), x);
    PlaceAfterAt(t, attribute, x);
    InsertMultiset(t, IndexOfAttribute(t, attribute) + 1, x);
  }

  lemma RemoveAtMultiset<T>(s: seq<T>, i: nat)
    requires i < |s|
    ensures multiset(s[..i] + s[i + 1..]) == multiset(s) - multiset{s[i]}
  {
    assert s == s[..i] + [s[i]] + s[i + 1..];
  }

  /** Taking out a layer found by name removes exactly that layer; with none found, the last one. */
  lemma TakeOutMultiset(s: seq<EditableLayer>, name: string)
    ensures IndexOfName(s, name) >= 0 ==>
      multiset(TakeOut(s, name)) == multiset(s) - multiset{s[IndexOfName(s, name)]}
    ensures IndexOfName(s, name) < 0 && s != [] ==>
      multiset(TakeOut(s, name)) == multiset(s[..|s| - 1])
  {
    TakeOutAt(s, name);
    var i := IndexOfName(s, name);
    if i >= 0 {
      RemoveAtMultiset(s, i);
    }
  }

  /**
   * Moving a layer that is in the set, found at its first name match, only
   * reorders the layers.
   */
  lemma MovePermutes(s: seq<EditableLayer>, layer: EditableLayer, attribute: string)
    requires IndexOfName(s, layer.canonicalName) >= 0 && s[IndexOfName(s, layer.canonicalName)] == layer
    ensures multiset(PlaceBefore(TakeOut(s, layer.canonicalName), attribute, layer)) == multiset(s)
    ensures multiset(PlaceAfter(TakeOut(s, layer.canonicalName), attribute, layer)) == multiset(s)
  {
    TakeOutMultiset(s, layer.canonicalName);
    PlacedMultiset(TakeOut(s, layer.canonicalName), attribute, layer);
  }

  /**
   * Moving a layer that is not in a non-empty set deletes the set's last
   * layer, since `splice(-1, 1)` removes from the end: the moved layer
   * takes its place in the count.
   */
  lemma MoveAbsentDropsLast(s: seq<EditableLayer>, layer: EditableLayer, attribute: string)
    requires IndexOfName(s, layer.canonicalName) == -1 && s != []
    ensures multiset(PlaceBefore(TakeOut(s, layer.canonicalName), attribute, layer))
         == multiset(s[..|s| - 1]) + multiset{layer}
    ensures multiset(PlaceAfter(TakeOut(s, layer.canonicalName), attribute, layer))
         == multiset(s[..|s| - 1]) + multiset{layer}
  {
    TakeOutMultiset(s, layer.canonicalName);
    PlacedMultiset(TakeOut(s, layer.canonicalName), attribute, layer);
  }

  /** A search: a glob string, compiled on use, or a pattern already compiled. */
  datatype Search = ByGlob(glob: string) | ByPattern(pattern: Regex)

  function SearchPattern(search: Search): Regex
  {
    match search
    case ByGlob(g) => GlobToRegex(g)
    case ByPattern(re) => re
  }

  /** `layers.find((layer) => re.test(layer.canonicalName))`. */
  function FirstMatching(layers: seq<EditableLayer>, re: Regex): (r: Option<EditableLayer>)
    ensures r.None? <==> forall i :: 0 <= i < |layers| ==> !Test(re, layers[i].canonicalName)
    ensures r.Some? ==> exists i :: (0 <= i < |layers| && layers[i] == r.value && Test(re, layers[i].canonicalName)
                                     && forall k :: 0 <= k < i ==> !Test(re, layers[k].canonicalName))
  {
    if layers == [] then None
    else if Test(re, layers[0].canonicalName) then Some(layers[0])
    else
      var r := FirstMatching(layers[1..], re);
      assert forall i :: 1 <= i < |layers| ==> layers[1..][i - 1] == layers[i];
      if r.Some? then
        assert exists i :: (1 <= i < |layers| && layers[i] == r.value && Test(re, layers[i].canonicalName)
                            && forall k :: 0 <= k < i ==> !Test(re, layers[k].canonicalName));
        r
      else r
  }

  /** What `get()` keeps: not a `None` trait, and a file. */
  function Shown(): EditableLayer -> bool
  {
    (layer: EditableLayer) => !EndsWith(layer.canonicalName, "/None") && layer.file.Some?
  }

  class LayerSet {
    var layers: seq<EditableLayer>

    /** One layer per entry of the layer order, named and filed after the set's trait for it. */
    constructor (attrSet: AttributeSet, layerOrder: seq<string>)
      ensures |layers| == |layerOrder|
      ensures forall i :: 0 <= i < |layerOrder| ==>
        layers[i].attribute == layerOrder[i]
        && layers[i].canonicalName == CreateCanonicalName(layerOrder[i], TraitText(attrSet, layerOrder[i]))
        && layers[i].file == Some(ResolveFilename(layerOrder[i], TraitText(attrSet, layerOrder[i])))
      ensures FilesPresent(layers)
    {
      layers := seq(|layerOrder|, i requires 0 <= i < |layerOrder| => InitialLayer(attrSet, layerOrder[i]));
    }

    /**
     * `LayerSet.clone`: a fresh set over a copy of the layer list. The set
     * it starts from, built for an empty attribute set, is overwritten at once.
     */
    static method Clone(layerSet: LayerSet) returns (clone: LayerSet)
      ensures fresh(clone)
      ensures clone.layers == layerSet.layers
    {
      clone := new LayerSet([], []);
      clone.layers := layerSet.layers;
    }

    /** `remove`: drop every layer of the attribute. */
    method Remove(attribute: string)
      modifies this
      ensures layers == Filter(old(layers), OtherAttribute(attribute))
      ensures forall layer :: layer in layers <==> layer in old(layers) && layer.attribute != attribute
    {
      layers := Filter(layers, OtherAttribute(attribute));
    }

    /** `insertBefore`. */
    method InsertBefore(attribute: string, newCanonicalAttr: string) returns (newLayer: EditableLayer)
      modifies this
      ensures newLayer == NewLayer(newCanonicalAttr)
      ensures layers == PlaceBefore(old(layers), attribute, newLayer)
    {
      var index := IndexOfAttribute(layers, attribute);
      var file := AssetFile(newCanonicalAttr);
      newLayer := EditableLayer(ExtractAttributeName(newCanonicalAttr), newCanonicalAttr, Some(file));
      layers := Splice(layers, index, 0, [newLayer]);
    }

    /** `insertAfter`. */
    method InsertAfter(attribute: string, newCanonicalAttr: string) returns (newLayer: EditableLayer)
      modifies this
      ensures newLayer == NewLayer(newCanonicalAttr)
      ensures layers == PlaceAfter(old(layers), attribute, newLayer)
    {
      var index := IndexOfAttribute(layers, attribute);
      var file := AssetFile(newCanonicalAttr);
      newLayer := EditableLayer(ExtractAttributeName(newCanonicalAttr), newCanonicalAttr, Some(file));
      layers := Splice(layers, index + 1, 0, [newLayer]);
    }

    /** `moveBefore`: take out the first layer of that name, then place before the attribute. */
    method MoveBefore(layerToMove: EditableLayer, attribute: string)
      modifies this
      ensures layers == PlaceBefore(TakeOut(old(layers), layerToMove.canonicalName), attribute, layerToMove)
    {
      var index := IndexOfName(layers, layerToMove.canonicalName);
      layers := Splice(layers, index, 1, []);
      var targetIndex := IndexOfAttribute(layers, attribute);
      layers := Splice(layers, targetIndex, 0, [layerToMove]);
    }

    /** `moveAfter`: take out the first layer of that name, then place after the attribute. */
    method MoveAfter(layerToMove: EditableLayer, attribute: string)
      modifies this
      ensures layers == PlaceAfter(TakeOut(old(layers), layerToMove.canonicalName), attribute, layerToMove)
    {
      var index := IndexOfName(layers, layerToMove.canonicalName);
      layers := Splice(layers, index, 1, []);
      var targetIndex := IndexOfAttribute(layers, attribute);
      layers := Splice(layers, targetIndex + 1, 0, [layerToMove]);
    }

    /** `find`: the first layer, hidden ones included, whose canonical name the search matches. */
    function Find(search: Search): (r: Option<EditableLayer>)
      reads this
      ensures r.None? <==> forall i :: 0 <= i < |layers| ==> !Test(SearchPattern(search), layers[i].canonicalName)
      ensures r.Some? ==> r.value in layers && Test(SearchPattern(search), r.value.canonicalName)
      ensures r.Some? ==>
        exists i :: (0 <= i < |layers| && layers[i] == r.value
          && forall k :: 0 <= k < i ==> !Test(SearchPattern(search), layers[k].canonicalName))
    {
      FirstMatching(layers, SearchPattern(search))
    }

    /** `has`: some layer's canonical name matches. */
    function Has(search: Search): (b: bool)
      reads this
      ensures b <==> exists i :: 0 <= i < |layers| && Test(SearchPattern(search), layers[i].canonicalName)
    {
      Find(search).Some?
    }

    /** `get`: the layers that are drawn, in order. */
    function Get(): (r: seq<EditableLayer>)
      reads this
      ensures forall layer :: layer in r <==> layer in layers && !EndsWith(layer.canonicalName, "/None") && layer.file.Some?
    {
      Filter(layers, Shown())
    }

    /** `[Symbol.iterator]`: walks the drawn layers as they are when it is made. */
    method Iterator() returns (it: LayerIterator)
      ensures fresh(it)
      ensures it.layers == Get() && it.index == 0
    {
      it := new LayerIterator(Get());
    }
  }

  /** The iterator `[Symbol.iterator]` returns, over a snapshot of `get()`. */
  class LayerIterator {
    const layers: seq<EditableLayer>
    var index: nat

    constructor (layers: seq<EditableLayer>)
      ensures this.layers == layers && index == 0
    {
      this.layers := layers;
      index := 0;
    }

    /** `next`: `done` once every layer was handed out; the index moves on regardless. */
    method Next() returns (value: Option<EditableLayer>, done: bool)
      modifies this
      ensures done <==> old(index) == |layers|
      ensures value == if old(index) < |layers| then Some(layers[old(index)]) else None
      ensures index == old(index) + 1
    {
      done := index == |layers|;
      value := if index < |layers| then Some(layers[index]) else None;
      index := index + 1;
    }
  }

  /** `get()` keeps its layers in order and, when every file is present, hides exactly the `None` traits. */
  lemma GetMeaning(layerSet: LayerSet)
    ensures IsSubseq(layerSet.Get(), layerSet.layers)
    ensures FilesPresent(layerSet.layers) ==>
      forall layer :: layer in layerSet.Get() <==> layer in layerSet.layers && !EndsWith(layer.canonicalName, "/None")
  {
    FilterIsSubseq(layerSet.layers, Shown());
  }
}

=== FILE: metadata.dfy ===
/**
 * The published form of an attribute set (src/attributes/io.ts,
 * src/types.ts): a list of `{trait_type, value}` records.
 */
module Metadata {
  import opened Wrappers
  import opened Seqs
  import opened AttributeSets

  datatype NftAttribute = NftAttribute(traitType: string, value: string)

  datatype NftMetadata = NftMetadata(attributes: seq<NftAttribute>)

  /** `convertToNftMetadata`: one record per key, in key insertion order (the `Object.entries` order when no key is an array index). */
  function ConvertToNftMetadata(result: AttributeSet): (m: NftMetadata)
    ensures |m.attributes| == |result|
    ensures forall i :: 0 <= i < |result| ==>
      m.attributes[i].traitType == Keys(result)[i] && m.attributes[i].value == result[i].value
  {
    NftMetadata(seq(|result|, i requires 0 <= i < |result| => NftAttribute(result[i].attribute, result[i].value)))
  }

  /** The records folded in so far: `{ ...acc, [trait_type]: value }` for each in turn. */
  function FoldRecords(records: seq<NftAttribute>): (r: AttributeSet)
    ensures WellFormed(r)
  {
    if records == [] then []
    else
      var front := records[..|records| - 1];
      var last := records[|records| - 1];
      var acc := FoldRecords(front);
      AssignWellFormed(acc, last.traitType, last.value);
      Assign(acc, last.traitType, last.value)
  }

  /** `convertFromNftMetadata`. */
  function ConvertFromNftMetadata(metadata: NftMetadata): (r: AttributeSet)
    ensures WellFormed(r)
  {
    FoldRecords(metadata.attributes)
  }

  /** The value of the last record with trait type `k`, if any. */
  function LastValue(records: seq<NftAttribute>, k: string): Option<string>
  {
    if records == [] then None
    else if records[|records| - 1].traitType == k then Some(records[|records| - 1].value)
    else LastValue(records[..|records| - 1], k)
  }

  /** `LastValue` is absent exactly when no record has the trait type, else it is the last such record's. */
  lemma {:induction false} LastValueMeaning(records: seq<NftAttribute>, k: string)
    ensures LastValue(records, k).None? <==> forall i :: 0 <= i < |records| ==> records[i].traitType != k
    ensures LastValue(records, k).Some? ==>
      exists i :: (0 <= i < |records| && records[i] == NftAttribute(k, LastValue(records, k).value)
                   && forall j :: i < j < |records| ==> records[j].traitType != k)
    decreases |records|
  {
    if records != [] && records[|records| - 1].traitType != k {
      var front := records[..|records| - 1];
      LastValueMeaning(front, k);
      assert forall i :: 0 <= i < |front| ==> front[i] == records[i];
      if LastValue(front, k).Some? {
        var i :| 0 <= i < |front| && front[i] == NftAttribute(k, LastValue(front, k).value)
                 && forall j :: i < j < |front| ==> front[j].traitType != k;
        assert records[i] == NftAttribute(k, LastValue(records, k).value);
      }
    }
  }

  /** A key reads as the value of its last record: later records overwrite earlier ones. */
  lemma {:induction false} LaterRecordsWin(metadata: NftMetadata, k: string)
    ensures Get(ConvertFromNftMetadata(metadata), k) == LastValue(metadata.attributes, k)
  {
    FoldRecordsGet(metadata.attributes, k);
  }

  lemma {:induction false} FoldRecordsGet(records: seq<NftAttribute>, k: string)
    ensures Get(FoldRecords(records), k) == LastValue(records, k)
    decreases |records|
  {
    if records != [] {
      var front := records[..|records| - 1];
      var last := records[|records| - 1];
      FoldRecordsGet(front, k);
      AssignGet(FoldRecords(front), last.traitType, last.value, k);
    }
  }

  lemma ToMetadataNext(result: AttributeSet)
    requires result != []
    ensures var records := ConvertToNftMetadata(result).attributes;
      records[..|records| - 1] == ConvertToNftMetadata(result[..|result| - 1]).attributes
      && records[|records| - 1] == NftAttribute(result[|result| - 1].attribute, result[|result| - 1].value)
  {
  }

  /** Converting an attribute set to metadata and back gives the same set, entries in the same order. */
  lemma {:induction false} MetadataRoundTrip(result: AttributeSet)
    requires WellFormed(result)
    ensures ConvertFromNftMetadata(ConvertToNftMetadata(result)) == result
    decreases |result|
  {
    if result != [] {
      var front := result[..|result| - 1];
      var last := result[|result| - 1];
      var records := ConvertToNftMetadata(result).attributes;
      ToMetadataNext(result);
      WellFormedInit(result);
      MetadataRoundTrip(front);
      assert FoldRecords(records) == Assign(FoldRecords(records[..|records| - 1]), last.attribute, last.value);
      AssignNew(front, last.attribute, last.value);
      assert Entry(last.attribute, last.value) == last;
      InitLast(result);
    }
  }
}

=== FILE: pick.dfy ===
/**
 * `pickTraitWithProbability` (src/attributes/generate.ts): weigh every
 * candidate, renormalise the attribute's `None` weight, draw a threshold and
 * walk the running sum until it reaches the threshold.
 */
module Pick {
  import opened Wrappers
  import opened Seqs
  import opened Glob
  import opened Weights
  import opened Random

  /** The attribute's `None` trait, `${attribute}/None`. */
  function NoneTrait(attribute: string): string
  {
    attribute + "/None"
  }

  /** The `None` trait belongs to its attribute. */
  lemma NoneTraitPrefix(attribute: string)
    ensures attribute + "/" <= NoneTrait(attribute)
  {
    assert NoneTrait(attribute) == (attribute + "/") + "None";
  }

  /** The `None` weight is renormalised when the `None` trait is a candidate of positive weight. */
  predicate Renormalises(weight: Weighting, attribute: string, possible: seq<string>)
  {
    NoneTrait(attribute) in possible && weight(NoneTrait(attribute)) > 0.0
  }

  /**
   * The weight the walk gives a candidate: its own weight, except that a
   * renormalised `None` also takes the weight the rules filtered away.
   */
  function EffectiveWeight(weight: Weighting, attribute: string, possible: seq<string>,
                           originalWeight: real, t: string): real
  {
    if Renormalises(weight, attribute, possible) && t == NoneTrait(attribute) then
      weight(t) + (originalWeight - TotalWeight(weight, possible))
    else weight(t)
  }

  function EffectiveWeights(weight: Weighting, attribute: string, possible: seq<string>,
                            originalWeight: real): (ws: seq<real>)
    ensures |ws| == |possible|
    ensures forall i :: 0 <= i < |ws| ==> ws[i] == EffectiveWeight(weight, attribute, possible, originalWeight, possible[i])
  {
    seq(|possible|, i requires 0 <= i < |possible| => EffectiveWeight(weight, attribute, possible, originalWeight, possible[i]))
  }

  /** `totalWeight`: the original weight when `None` is renormalised, else the candidates' weight. */
  function WalkTotal(weight: Weighting, attribute: string, possible: seq<string>, originalWeight: real): real
  {
    if Renormalises(weight, attribute, possible) then originalWeight else TotalWeight(weight, possible)
  }

  /** The sum of the first `n` weights. */
  function PrefixSum(ws: seq<real>, n: nat): real
    requires n <= |ws|
  {
    if n == 0 then 0.0 else PrefixSum(ws, n - 1) + ws[n - 1]
  }

  /** The walk from index `i` with running sum `sum`: the first index where the sum reaches the threshold. */
  function WalkFrom(ws: seq<real>, threshold: real, i: nat, sum: real): (r: Option<nat>)
    requires i <= |ws|
    ensures r.Some? ==> i <= r.value < |ws|
    decreases |ws| - i
  {
    if i == |ws| then None
    else if threshold <= sum + ws[i] then Some(i)
    else WalkFrom(ws, threshold, i + 1, sum + ws[i])
  }

  function Walk(ws: seq<real>, threshold: real): (r: Option<nat>)
    ensures r.Some? ==> r.value < |ws|
  {
    WalkFrom(ws, threshold, 0, 0.0)
  }

  lemma {:induction false} WalkFromReach(ws: seq<real>, threshold: real, i: nat)
    requires i <= |ws|
    requires forall j :: 1 <= j <= i ==> threshold > PrefixSum(ws, j)
    ensures match WalkFrom(ws, threshold, i, PrefixSum(ws, i))
      case None => forall j :: 1 <= j <= |ws| ==> threshold > PrefixSum(ws, j)
      case Some(k) => threshold <= PrefixSum(ws, k + 1) && forall j :: 1 <= j <= k ==> threshold > PrefixSum(ws, j)
    decreases |ws| - i
  {
    if i < |ws| && threshold > PrefixSum(ws, i) + ws[i] {
      WalkFromReach(ws, threshold, i + 1);
    }
  }

  /** The walk picks the first index whose running sum reaches the threshold, and nothing if none does. */
  lemma WalkFirstReach(ws: seq<real>, threshold: real)
    ensures match Walk(ws, threshold)
      case None => forall j :: 1 <= j <= |ws| ==> threshold > PrefixSum(ws, j)
      case Some(k) => threshold <= PrefixSum(ws, k + 1) && forall j :: 1 <= j <= k ==> threshold > PrefixSum(ws, j)
  {
    WalkFromReach(ws, threshold, 0);
  }

  /** A positive threshold is never reached on a candidate of weight zero or less. */
  lemma WalkSkipsWeightless(ws: seq<real>, threshold: real)
    requires threshold > 0.0 && Walk(ws, threshold).Some?
    ensures ws[Walk(ws, threshold).value] > 0.0
  {
    WalkFirstReach(ws, threshold);
    var k := Walk(ws, threshold).value;
    if k > 0 {
      assert threshold > PrefixSum(ws, k);
    }
  }

  /** `rng() * totalWeight`: the threshold the running sum must reach. */
  function Threshold(draw: Draw, totalWeight: real): real
  {
    draw * totalWeight
  }

  /** The candidate the walk stops at for the draw `u`, or `""` when the running sum never reaches the threshold. */
  function Walked(weight: Weighting, attribute: string, possible: seq<string>,
                  originalWeight: real, u: Draw): string
  {
    var ws := EffectiveWeights(weight, attribute, possible, originalWeight);
    match Walk(ws, Threshold(u, WalkTotal(weight, attribute, possible, originalWeight)))
    case Some(i) => possible[i]
    case None => ""
  }

  /** What `pickTraitWithProbability` returns for the draw `u`. */
  function PickSpec(weight: Weighting, optional: set<string>, attribute: string, possible: seq<string>,
                    originalWeight: real, u: Draw): (r: Result<string, string>)
    ensures r.Ok? ==> r.value in possible || (r.value == NoneTrait(attribute) && attribute in optional)
    ensures r.Err? ==> attribute !in optional && r.error == "Unable to pick trait for attribute"
  {
    var picked := Walked(weight, attribute, possible, originalWeight, u);
    if picked != "" then Ok(picked)
    else if attribute in optional then Ok(NoneTrait(attribute))
    else Err("Unable to pick trait for attribute")
  }

  /** A threshold `u * total` with `u` in [0, 1) lies in [0, total] when the total is non-negative. */
  lemma ThresholdBounds(u: Draw, total: real)
    requires total >= 0.0
    ensures 0.0 <= Threshold(u, total) <= total
    ensures u > 0.0 && total > 0.0 ==> Threshold(u, total) > 0.0
  {
    assert 0.0 <= u * total by { MulNonNeg(u, total); }
    assert 0.0 <= (1.0 - u) * total by { MulNonNeg(1.0 - u, total); }
    assert total - u * total == (1.0 - u) * total;
    if u > 0.0 && total > 0.0 {
      MulPos(u, total);
    }
  }

  /** A product of non-negative reals is non-negative. */
  lemma MulNonNeg(a: real, b: real)
    requires 0.0 <= a && 0.0 <= b
    ensures 0.0 <= a * b
  {
  }

  /** A product of positive reals is positive. */
  lemma MulPos(a: real, b: real)
    requires 0.0 < a && 0.0 < b
    ensures 0.0 < a * b
  {
  }

  /** `k` shares of `d`, added one at a time. */
  function Shares(k: nat, d: real): real
  {
    if k == 0 then 0.0 else Shares(k - 1, d) + d
  }

  lemma {:induction false} SharesAtLeastOne(k: nat, d: real)
    requires k >= 1 && d >= 0.0
    ensures Shares(k, d) >= d
  {
    if k > 1 {
      SharesAtLeastOne(k - 1, d);
    }
  }

  /** What the renormalised `None` has absorbed among the first `n` candidates. */
  function Absorbed(weight: Weighting, attribute: string, possible: seq<string>, originalWeight: real, n: nat): real
    requires n <= |possible|
  {
    if Renormalises(weight, attribute, possible)
    then Shares(Count(possible[..n], NoneTrait(attribute)), originalWeight - TotalWeight(weight, possible))
    else 0.0
  }

  lemma AbsorbedNext(weight: Weighting, attribute: string, possible: seq<string>, originalWeight: real, n: nat)
    requires 0 < n <= |possible|
    ensures Absorbed(weight, attribute, possible, originalWeight, n)
      == Absorbed(weight, attribute, possible, originalWeight, n - 1)
         + (EffectiveWeight(weight, attribute, possible, originalWeight, possible[n - 1]) - weight(possible[n - 1]))
  {
    var pre, t := possible[..n - 1], possible[n - 1];
    var none := NoneTrait(attribute);
    assert possible[..n] == pre + [t];
    CountSnoc(pre, t, none);
    if Renormalises(weight, attribute, possible) {
      var d := originalWeight - TotalWeight(weight, possible);
      var c := Count(pre, none);
      if t == none {
        SharesNext(c, d);
        assert Count(possible[..n], none) == c + 1;
      } else {
        assert Count(possible[..n], none) == c;
      }
    }
  }

  /**
   * The walk's running sums: the candidates' own weights, plus what the
   * renormalised `None` absorbs once for every time it occurs.
   */
  lemma {:induction false} PrefixSumEffective(weight: Weighting, attribute: string, possible: seq<string>,
                                              originalWeight: real, n: nat)
    requires n <= |possible|
    ensures PrefixSum(EffectiveWeights(weight, attribute, possible, originalWeight), n)
      == TotalWeight(weight, possible[..n]) + Absorbed(weight, attribute, possible, originalWeight, n)
  {
    if n > 0 {
      var ws := EffectiveWeights(weight, attribute, possible, originalWeight);
      var pre, t := possible[..n - 1], possible[n - 1];
      PrefixSumEffective(weight, attribute, possible, originalWeight, n - 1);
      assert possible[..n][..n - 1] == pre;
      assert TotalWeight(weight, possible[..n]) == TotalWeight(weight, pre) + weight(t);
      AbsorbedNext(weight, attribute, possible, originalWeight, n);
      assert PrefixSum(ws, n) == PrefixSum(ws, n - 1) + EffectiveWeight(weight, attribute, possible, originalWeight, t);
    }
  }

  lemma SharesNext(k: nat, d: real)
    ensures Shares(k + 1, d) == Shares(k, d) + d
  {
  }

  /** With `None` occurring once among the candidates, renormalising restores the original total weight. */
  lemma RenormalisedTotal(weight: Weighting, attribute: string, possible: seq<string>, originalWeight: real)
    requires Renormalises(weight, attribute, possible)
    requires Count(possible, NoneTrait(attribute)) == 1
    ensures PrefixSum(EffectiveWeights(weight, attribute, possible, originalWeight), |possible|) == originalWeight
  {
    PrefixSumEffective(weight, attribute, possible, originalWeight, |possible|);
    assert possible[..|possible|] == possible;
    var d := originalWeight - TotalWeight(weight, possible);
    SharesNext(0, d);
    assert Absorbed(weight, attribute, possible, originalWeight, |possible|) == Shares(1, d);
  }

  /** Without renormalisation the walk covers exactly the candidates' weight. */
  lemma PlainTotal(weight: Weighting, attribute: string, possible: seq<string>, originalWeight: real)
    requires !Renormalises(weight, attribute, possible)
    ensures PrefixSum(EffectiveWeights(weight, attribute, possible, originalWeight), |possible|)
      == TotalWeight(weight, possible)
  {
    PrefixSumEffective(weight, attribute, possible, originalWeight, |possible|);
    assert possible[..|possible|] == possible;
  }

  /**
   * With non-negative weights and an original weight at least the
   * candidates' weight (filtering only removes traits), a non-empty list of
   * candidates always yields one of them; an empty list falls back to
   * `None` for an optional attribute and fails otherwise.
   */
  lemma PickSucceedsIffCandidates(weight: Weighting, optional: set<string>, attribute: string,
                                  possible: seq<string>, originalWeight: real, u: Draw)
    requires NonNegativeWeighting(weight)
    requires originalWeight >= TotalWeight(weight, possible)
    requires "" !in possible
    ensures var r := PickSpec(weight, optional, attribute, possible, originalWeight, u);
      if possible != [] then r.Ok? && r.value in possible
      else r == if attribute in optional then Ok(NoneTrait(attribute)) else Err("Unable to pick trait for attribute")
  {
    if possible != [] {
      var ws := EffectiveWeights(weight, attribute, possible, originalWeight);
      var total := WalkTotal(weight, attribute, possible, originalWeight);
      PrefixSumEffective(weight, attribute, possible, originalWeight, |possible|);
      assert possible[..|possible|] == possible;
      if Renormalises(weight, attribute, possible) {
        SharesAtLeastOne(Count(possible, NoneTrait(attribute)), originalWeight - TotalWeight(weight, possible));
      }
      assert PrefixSum(ws, |ws|) >= total;
      ThresholdBounds(u, total);
      WalkFirstReach(ws, Threshold(u, total));
    }
  }

  /** A draw of exactly 0 picks the first candidate, whatever its weight, even 0. */
  lemma ZeroDrawPicksFirst(weight: Weighting, optional: set<string>, attribute: string,
                           possible: seq<string>, originalWeight: real)
    requires possible != [] && possible[0] != ""
    requires EffectiveWeight(weight, attribute, possible, originalWeight, possible[0]) >= 0.0
    ensures PickSpec(weight, optional, attribute, possible, originalWeight, 0.0) == Ok(possible[0])
  {
  }

  /**
   * With a positive draw and a positive total, the walk only stops at a
   * candidate of positive weight: a trait no probability key matches is
   * never picked.
   */
  lemma PositiveDrawSkipsWeightless(weight: Weighting, optional: set<string>, attribute: string,
                                    possible: seq<string>, originalWeight: real, u: Draw)
    requires u > 0.0 && WalkTotal(weight, attribute, possible, originalWeight) > 0.0
    requires PickSpec(weight, optional, attribute, possible, originalWeight, u).Ok?
    requires PickSpec(weight, optional, attribute, possible, originalWeight, u).value != NoneTrait(attribute)
    ensures weight(PickSpec(weight, optional, attribute, possible, originalWeight, u).value) > 0.0
  {
    var ws := EffectiveWeights(weight, attribute, possible, originalWeight);
    var total := WalkTotal(weight, attribute, possible, originalWeight);
    ThresholdBounds(u, total);
    WalkSkipsWeightless(ws, Threshold(u, total));
  }

  /** The `forEach` filling `fullTraitProbabilityMap`: every candidate with its weight (the `find` over the keys, or 0). */
  method WeighCandidates(weight: Weighting, possibleTraits: seq<string>)
    returns (weightMap: map<string, real>)
    ensures forall t :: t in weightMap <==> t in possibleTraits
    ensures forall t :: t in weightMap ==> weightMap[t] == weight(t)
  {
    weightMap := map[];
    for i := 0 to |possibleTraits|
      invariant forall t :: t in weightMap <==> t in possibleTraits[..i]
      invariant forall t :: t in weightMap ==> weightMap[t] == weight(t)
    {
      var t := possibleTraits[i];
      weightMap := weightMap[t := weight(t)];
      assert possibleTraits[..i + 1] == possibleTraits[..i] + [t];
    }
    assert possibleTraits[..|possibleTraits|] == possibleTraits;
  }

  /** The reduce computing `nonAdjustedWeight` from the map. */
  method SumWeights(weight: Weighting, possibleTraits: seq<string>, weightMap: map<string, real>)
    returns (nonAdjustedWeight: real)
    requires forall t :: t in possibleTraits ==> t in weightMap && weightMap[t] == weight(t)
    ensures nonAdjustedWeight == TotalWeight(weight, possibleTraits)
  {
    nonAdjustedWeight := 0.0;
    for i := 0 to |possibleTraits|
      invariant nonAdjustedWeight == TotalWeight(weight, possibleTraits[..i])
    {
      nonAdjustedWeight := nonAdjustedWeight + weightMap[possibleTraits[i]];
      assert possibleTraits[..i + 1][..i] == possibleTraits[..i];
    }
    assert possibleTraits[..|possibleTraits|] == possibleTraits;
  }

  /** The cumulative walk: the first candidate at which the running sum reaches `random`, or `""`. */
  method WalkCandidates(possibleTraits: seq<string>, weightMap: map<string, real>, random: real, ghost ws: seq<real>)
    returns (pickedTrait: string)
    requires |ws| == |possibleTraits|
    requires forall i :: 0 <= i < |ws| ==> possibleTraits[i] in weightMap && weightMap[possibleTraits[i]] == ws[i]
    ensures pickedTrait == match Walk(ws, random) case Some(i) => possibleTraits[i] case None => ""
  {
    var sum := 0.0;
    pickedTrait := "";
    var i := 0;
    while i < |possibleTraits|
      invariant 0 <= i <= |possibleTraits|
      invariant sum == PrefixSum(ws, i)
      invariant Walk(ws, random) == WalkFrom(ws, random, i, sum)
    {
      sum := sum + weightMap[possibleTraits[i]];
      if random <= sum {
        pickedTrait := possibleTraits[i];
        return;
      }
      i := i + 1;
    }
  }

  /** The `None` adjustment: a positive `None` weight absorbs what filtering removed. */
  method RenormaliseNone(weight: Weighting, attribute: string, possibleTraits: seq<string>,
                         originalWeight: real, nonAdjustedWeight: real, weightMap: map<string, real>)
    returns (adjusted: map<string, real>, totalWeight: real)
    requires forall t :: t in weightMap <==> t in possibleTraits
    requires forall t :: t in weightMap ==> weightMap[t] == weight(t)
    requires nonAdjustedWeight == TotalWeight(weight, possibleTraits)
    ensures totalWeight == WalkTotal(weight, attribute, possibleTraits, originalWeight)
    ensures forall i :: 0 <= i < |possibleTraits| ==>
      possibleTraits[i] in adjusted
      && adjusted[possibleTraits[i]] == EffectiveWeight(weight, attribute, possibleTraits, originalWeight, possibleTraits[i])
  {
    var noneTrait := attribute + "/None";
    adjusted := weightMap;
    if noneTrait in weightMap && weightMap[noneTrait] > 0.0 {
      assert Renormalises(weight, attribute, possibleTraits);
      adjusted := weightMap[noneTrait := weightMap[noneTrait] + (originalWeight - nonAdjustedWeight)];
      totalWeight := originalWeight;
    } else {
      assert !Renormalises(weight, attribute, possibleTraits);
      totalWeight := nonAdjustedWeight;
    }
  }

  /** `pickTraitWithProbability`, drawing from `rng`. */
  method PickTraitWithProbability(weight: Weighting, optional: set<string>, attribute: string,
                                  possibleTraits: seq<string>, originalWeight: real, rng: Rng)
    returns (r: Result<string, string>)
    modifies rng
    ensures rng.pos == old(rng.pos) + 1
    ensures r == PickSpec(weight, optional, attribute, possibleTraits, originalWeight, old(rng.stream(rng.pos)))
  {
    var weightMap := WeighCandidates(weight, possibleTraits);
    var nonAdjustedWeight := SumWeights(weight, possibleTraits, weightMap);
    var adjusted, totalWeight := RenormaliseNone(weight, attribute, possibleTraits, originalWeight,
                                                 nonAdjustedWeight, weightMap);
    ghost var ws := EffectiveWeights(weight, attribute, possibleTraits, originalWeight);

    var draw := rng.Next();
    var random := Threshold(draw, totalWeight);
    var pickedTrait := WalkCandidates(possibleTraits, adjusted, random, ws);
    assert pickedTrait == Walked(weight, attribute, possibleTraits, originalWeight, draw);

    if pickedTrait == "" {
      if attribute in optional {
        return Ok(attribute + "/None");
      }
      return Err("Unable to pick trait for attribute");
    }
    r := Ok(pickedTrait);
  }
}

=== FILE: pool.dfy ===
/**
 * `loadAttributes` (src/attributes/io.ts): the trait pool. Every asset file
 * is turned into a canonical trait name; names no probability key knows
 * are skipped; an optional attribute gets its `Attribute/None` trait just
 * before its first known trait. The file listing itself is a parameter.
 */
module TraitPool {
  import opened Seqs
  import opened Glob
  import opened Canonical
  import opened Weights
  import opened Pick

  /** `traitPatterns`: every probability key compiled, in key order. */
  function TraitPatterns(probs: seq<Probability>): (patterns: seq<Regex>)
    ensures |patterns| == |probs|
    ensures forall i :: 0 <= i < |probs| ==> patterns[i] == GlobToRegex(probs[i].pattern)
  {
    seq(|probs|, i requires 0 <= i < |probs| => GlobToRegex(probs[i].pattern))
  }

  /** `traitPatterns.some(pattern => pattern.test(name))`. */
  predicate Known(patterns: seq<Regex>, name: string)
  {
    exists p :: p in patterns && Test(p, name)
  }

  /** `Known` as a filter. */
  function KnownTo(patterns: seq<Regex>): string -> bool
  {
    name => Known(patterns, name)
  }

  /** The canonical name of every file, in file order. */
  function CanonicalNames(files: seq<string>): (names: seq<string>)
    ensures |names| == |files|
    ensures forall i :: 0 <= i < |files| ==> names[i] == CanonicalAttributeNameFromFile(files[i])
  {
    seq(|files|, i requires 0 <= i < |files| => CanonicalAttributeNameFromFile(files[i]))
  }

  /** The canonical names the loop keeps, file by file, `known` telling which to keep. */
  function Accepted(known: string -> bool, files: seq<string>): (names: seq<string>)
    ensures |names| <= |files|
  {
    if files == [] then []
    else
      var front := Accepted(known, files[..|files| - 1]);
      var name := CanonicalAttributeNameFromFile(files[|files| - 1]);
      if known(name) then front + [name] else front
  }

  /** The kept names are exactly the known canonical names, in file order. */
  lemma {:induction false} AcceptedIsFilter(known: string -> bool, files: seq<string>)
    ensures Accepted(known, files) == Filter(CanonicalNames(files), known)
    decreases |files|
  {
    if files != [] {
      var front := files[..|files| - 1];
      var name := CanonicalAttributeNameFromFile(files[|files| - 1]);
      AcceptedIsFilter(known, front);
      CanonicalNamesNext(files);
      FilterAppend(CanonicalNames(front), [name], known);
      FilterOne(name, known);
    }
  }

  lemma CanonicalNamesNext(files: seq<string>)
    requires files != []
    ensures CanonicalNames(files)
      == CanonicalNames(files[..|files| - 1]) + [CanonicalAttributeNameFromFile(files[|files| - 1])]
  {
  }

  /** The attributes of a list of canonical names. */
  function AttributesOf(names: seq<string>): (attrs: set<string>)
    ensures forall a :: a in attrs <==> exists i :: 0 <= i < |names| && ExtractAttributeName(names[i]) == a
  {
    set i | 0 <= i < |names| :: ExtractAttributeName(names[i])
  }

  lemma AttributesOfNext(names: seq<string>, name: string)
    ensures AttributesOf(names + [name]) == AttributesOf(names) + {ExtractAttributeName(name)}
  {
    var s := names + [name];
    assert s[|names|] == name;
    forall a | a in AttributesOf(names)
      ensures a in AttributesOf(s)
    {
      var i :| 0 <= i < |names| && ExtractAttributeName(names[i]) == a;
      assert s[i] == names[i];
    }
  }

  lemma AttributesOfInit(names: seq<string>)
    requires names != []
    ensures AttributesOf(names)
      == AttributesOf(names[..|names| - 1]) + {ExtractAttributeName(names[|names| - 1])}
  {
    InitLast(names);
    AttributesOfNext(names[..|names| - 1], names[|names| - 1]);
  }

  /** The pool for a list of kept names: each optional attribute's `None` goes before its first name. */
  function BuildPool(names: seq<string>, optional: set<string>): seq<string>
  {
    if names == [] then []
    else
      var front := names[..|names| - 1];
      var name := names[|names| - 1];
      var attribute := ExtractAttributeName(name);
      BuildPool(front, optional)
        + (if attribute in optional && attribute !in AttributesOf(front) then [NoneTrait(attribute), name] else [name])
  }

  /** What `loadAttributes` returns for a file listing. */
  function LoadSpec(files: seq<string>, probs: seq<Probability>, optional: set<string>): seq<string>
  {
    BuildPool(Accepted(KnownTo(TraitPatterns(probs)), files), optional)
  }

  /** `loadAttributes`, the file listing given. */
  method LoadAttributes(files: seq<string>, probs: seq<Probability>, optionalAttributes: set<string>)
    returns (attrSet: seq<string>)
    ensures attrSet == LoadSpec(files, probs, optionalAttributes)
  {
    attrSet := [];
    var attributes: set<string> := {};
    var known := KnownTo(TraitPatterns(probs));
    for k := 0 to |files|
      invariant attributes == AttributesOf(Accepted(known, files[..k]))
      invariant attrSet == BuildPool(Accepted(known, files[..k]), optionalAttributes)
    {
      var names := Accepted(known, files[..k]);
      var canonicalName := CanonicalAttributeNameFromFile(files[k]);
      AcceptedNext(known, files, k);
      if !known(canonicalName) {
        continue;
      }
      var attribute := ExtractAttributeName(canonicalName);
      BuildPoolNext(names, canonicalName, optionalAttributes);
      if attribute in optionalAttributes && attribute !in attributes {
        PushTwo(attrSet, NoneTrait(attribute), canonicalName);
        attrSet := attrSet + [NoneTrait(attribute)];
      }
      AttributesOfNext(names, canonicalName);
      attributes := attributes + {attribute};
      attrSet := attrSet + [canonicalName];
    }
    assert files[..|files|] == files;
  }

  lemma AcceptedNext(known: string -> bool, files: seq<string>, k: nat)
    requires k < |files|
    ensures var name := CanonicalAttributeNameFromFile(files[k]);
      Accepted(known, files[..k + 1])
        == if known(name) then Accepted(known, files[..k]) + [name] else Accepted(known, files[..k])
  {
    TakeNext(files, k);
    assert files[..k + 1][..k] == files[..k];
  }

  lemma BuildPoolNext(names: seq<string>, name: string, optional: set<string>)
    ensures var attribute := ExtractAttributeName(name);
      BuildPool(names + [name], optional) == BuildPool(names, optional)
        + (if attribute in optional && attribute !in AttributesOf(names) then [NoneTrait(attribute), name] else [name])
  {
    assert (names + [name])[..|names|] == names;
  }

  /** The pool keeps every kept name, in order. */
  lemma {:induction false} PoolKeepsNames(names: seq<string>, optional: set<string>)
    ensures IsSubseq(names, BuildPool(names, optional))
    decreases |names|
  {
    if names != [] {
      var front := names[..|names| - 1];
      var name := names[|names| - 1];
      PoolKeepsNames(front, optional);
      var extra := BuildPool(names, optional)[|BuildPool(front, optional)|..];
      SubseqRefl([name]);
      assert IsSubseq([name], extra) by {
        if |extra| == 2 {
          SubseqPrepend([name], [name], extra[..1]);
          assert extra == extra[..1] + [name];
        }
      }
      SubseqAppend(front, BuildPool(front, optional), [name], extra);
      assert front + [name] == names;
      assert BuildPool(front, optional) + extra == BuildPool(names, optional);
    }
  }

  /** The pool holds the kept names and the `None` trait of every optional attribute present, nothing else. */
  lemma {:induction false} PoolEntries(names: seq<string>, optional: set<string>)
    ensures forall t :: t in BuildPool(names, optional) <==>
      t in names || exists a :: a in optional && a in AttributesOf(names) && t == NoneTrait(a)
    decreases |names|
  {
    if names != [] {
      var front := names[..|names| - 1];
      var name := names[|names| - 1];
      PoolEntries(front, optional);
      AttributesOfNext(front, name);
      assert names == front + [name];
      forall t | t in BuildPool(names, optional)
        ensures t in names || exists a :: a in optional && a in AttributesOf(names) && t == NoneTrait(a)
      {
        if t in BuildPool(front, optional) {
          if exists a :: a in optional && a in AttributesOf(front) && t == NoneTrait(a) {
            var a :| a in optional && a in AttributesOf(front) && t == NoneTrait(a);
            assert a in AttributesOf(names);
          }
        } else if t != name {
          assert t == NoneTrait(ExtractAttributeName(name));
        }
      }
      forall t | t in names
        ensures t in BuildPool(names, optional)
      {
        if t != name {
          assert t in front by {
            var i :| 0 <= i < |names| && names[i] == t;
            assert i < |front| && front[i] == t;
          }
        }
      }
      forall a | a in optional && a in AttributesOf(names)
        ensures NoneTrait(a) in BuildPool(names, optional)
      {
        if a !in AttributesOf(front) {
          assert a == ExtractAttributeName(name);
        }
      }
    }
  }

  /** Distinct attributes have distinct `None` traits. */
  lemma NoneTraitInjective(a: string, b: string)
    requires NoneTrait(a) == NoneTrait(b)
    ensures a == b
  {
    assert |a| == |b|;
    assert a == NoneTrait(a)[..|a|] && b == NoneTrait(b)[..|b|];
  }

  /**
   * `None` traits beyond those among the files: one for each optional
   * attribute present, none for any other attribute.
   */
  lemma {:induction false} PoolNoneCount(names: seq<string>, optional: set<string>, a: string)
    ensures Count(BuildPool(names, optional), NoneTrait(a))
      == Count(names, NoneTrait(a)) + (if a in optional && a in AttributesOf(names) then 1 else 0)
    decreases |names|
  {
    if names != [] {
      var front := names[..|names| - 1];
      var name := names[|names| - 1];
      var attribute := ExtractAttributeName(name);
      var pool := BuildPool(front, optional);
      PoolNoneCount(front, optional, a);
      AttributesOfInit(names);
      CountInit(names, NoneTrait(a));
      if attribute in optional && attribute !in AttributesOf(front) {
        CountPair(pool, NoneTrait(attribute), name, NoneTrait(a));
        if NoneTrait(attribute) == NoneTrait(a) {
          NoneTraitInjective(attribute, a);
        }
      } else {
        CountSnoc(pool, name, NoneTrait(a));
      }
    }
  }

  /** Some name in `s` has attribute `a`. */
  predicate HasAttribute(s: seq<string>, a: string)
  {
    exists k :: 0 <= k < |s| && ExtractAttributeName(s[k]) == a
  }

  /** The index of the first name in `s` with attribute `a`. */
  function FirstOf(s: seq<string>, a: string): (i: nat)
    requires HasAttribute(s, a)
    ensures i < |s| && ExtractAttributeName(s[i]) == a
    ensures forall k :: 0 <= k < i ==> ExtractAttributeName(s[k]) != a
  {
    if ExtractAttributeName(s[0]) == a then 0
    else
      assert HasAttribute(s[1..], a) by {
        var k :| 0 <= k < |s| && ExtractAttributeName(s[k]) == a;
        assert s[1..][k - 1] == s[k];
      }
      1 + FirstOf(s[1..], a)
  }

  /** `FirstOf` is the only index with its two properties. */
  lemma FirstOfUnique(s: seq<string>, a: string, i: nat)
    requires i < |s| && ExtractAttributeName(s[i]) == a
    requires forall k :: 0 <= k < i ==> ExtractAttributeName(s[k]) != a
    ensures HasAttribute(s, a) && FirstOf(s, a) == i
  {
  }

  /** The attribute of a `None` trait is the attribute it was made for. */
  lemma NoneTraitAttribute(a: string)
    requires '/' !in a
    ensures ExtractAttributeName(NoneTrait(a)) == a
  {
    CanonicalRoundTrip(a, "None");
    assert CreateCanonicalName(a, "None") == NoneTrait(a);
  }

  /**
   * For an optional attribute, the first pool entry of that attribute is its
   * `None` trait, and the next entry is its first kept name.
   */
  lemma {:induction false} PoolNoneFirst(names: seq<string>, optional: set<string>, a: string)
    requires a in optional && HasAttribute(names, a)
    ensures var pool := BuildPool(names, optional);
      HasAttribute(pool, a) && FirstOf(pool, a) + 1 < |pool|
      && pool[FirstOf(pool, a)] == NoneTrait(a)
      && pool[FirstOf(pool, a) + 1] == names[FirstOf(names, a)]
    decreases |names|
  {
    var front := names[..|names| - 1];
    if HasAttribute(front, a) {
      PoolNoneFirst(front, optional, a);
      NoneFirstKept(names, optional, a);
    } else {
      NoneFirstNew(names, optional, a);
    }
  }

  /** A later name leaves the first entries of an attribute already in the pool where they were. */
  lemma NoneFirstKept(names: seq<string>, optional: set<string>, a: string)
    requires names != []
    requires var front := names[..|names| - 1];
      HasAttribute(front, a)
      && var pool := BuildPool(front, optional);
      HasAttribute(pool, a) && FirstOf(pool, a) + 1 < |pool|
      && pool[FirstOf(pool, a)] == NoneTrait(a)
      && pool[FirstOf(pool, a) + 1] == front[FirstOf(front, a)]
    ensures var pool := BuildPool(names, optional);
      HasAttribute(pool, a) && FirstOf(pool, a) + 1 < |pool|
      && pool[FirstOf(pool, a)] == NoneTrait(a)
      && pool[FirstOf(pool, a) + 1] == names[FirstOf(names, a)]
  {
    var front := names[..|names| - 1];
    var pool := BuildPool(front, optional);
    var whole := BuildPool(names, optional);
    assert pool <= whole;
    var j := FirstOf(pool, a);
    forall k | 0 <= k <= j + 1
      ensures whole[k] == pool[k]
    {
    }
    FirstOfUnique(whole, a, j);
    var i := FirstOf(front, a);
    forall k | 0 <= k <= i
      ensures names[k] == front[k]
    {
    }
    FirstOfUnique(names, a, i);
  }

  /** The last name is the first of its optional attribute: its `None` goes right before it. */
  lemma NoneFirstNew(names: seq<string>, optional: set<string>, a: string)
    requires a in optional && HasAttribute(names, a)
    requires !HasAttribute(names[..|names| - 1], a)
    ensures var pool := BuildPool(names, optional);
      HasAttribute(pool, a) && FirstOf(pool, a) + 1 < |pool|
      && pool[FirstOf(pool, a)] == NoneTrait(a)
      && pool[FirstOf(pool, a) + 1] == names[FirstOf(names, a)]
  {
    var front := names[..|names| - 1];
    var name := names[|names| - 1];
    var pool := BuildPool(front, optional);
    var k :| 0 <= k < |names| && ExtractAttributeName(names[k]) == a;
    assert forall j :: 0 <= j < |front| ==> front[j] == names[j];
    assert k == |front|;
    assert a !in AttributesOf(front);
    PoolEntries(front, optional);
    forall k | 0 <= k < |pool|
      ensures ExtractAttributeName(pool[k]) != a
    {
      var t := pool[k];
      assert t in pool;
      if t !in front {
        var b :| b in optional && b in AttributesOf(front) && t == NoneTrait(b);
        NoneTraitAttribute(b);
      }
    }
    NoneTraitAttribute(a);
    var whole := BuildPool(names, optional);
    assert whole == pool + [NoneTrait(a), name];
    FirstOfUnique(whole, a, |pool|);
    forall k | 0 <= k < |front|
      ensures ExtractAttributeName(names[k]) != a
    {
      assert names[k] == front[k];
    }
    FirstOfUnique(names, a, |front|);
  }

  /**
   * The pool of a file listing: the known canonical names in file order,
   * with only the `None` traits of optional attributes present between them.
   */
  lemma LoadSpecShape(files: seq<string>, probs: seq<Probability>, optional: set<string>)
    ensures var names := Filter(CanonicalNames(files), KnownTo(TraitPatterns(probs)));
      var pool := LoadSpec(files, probs, optional);
      IsSubseq(names, pool)
      && forall t :: t in pool <==>
        t in names || exists a :: a in optional && a in AttributesOf(names) && t == NoneTrait(a)
  {
    var names := Accepted(KnownTo(TraitPatterns(probs)), files);
    AcceptedIsFilter(KnownTo(TraitPatterns(probs)), files);
    PoolKeepsNames(names, optional);
    PoolEntries(names, optional);
  }
}

=== FILE: random.dfy ===
/**
 * The seeded pseudo-random generator handed to the generator. Its internals
 * are not modelled: a generator is the fixed stream of draws its seed
 * determines, and a position in that stream.
 */
module Random {
  /** One draw: a number in [0, 1). */
  type Draw = x: real | 0.0 <= x < 1.0

  class Rng {
    /** The draws the seed determines, in order. */
    const stream: nat -> Draw
    /** How many draws have been taken. */
    var pos: nat

    constructor (draws: nat -> Draw, start: nat)
      ensures stream == draws && pos == start
    {
      stream := draws;
      pos := start;
    }

    /** Calling the generator: the next draw of the stream. */
    method Next() returns (x: Draw)
      modifies this
      ensures x == old(stream(pos))
      ensures pos == old(pos) + 1
    {
      x := stream(pos);
      pos := pos + 1;
    }
  }
}

=== FILE: rule_filter.dfy ===
/**
 * `filterTraitsByRules`' inner `filterByRuleSet` (src/attributes/generate.ts):
 * nested loops collect the rule groups that apply, then a reduce filters the
 * candidates by every collected group in turn.
 */
module RuleFilter {
  import opened Seqs
  import opened Glob
  import opened AttributeRules

  /**
   * `rule.test(trait)`. It is a parameter so that the filtering is stated
   * apart from the pattern language; the generator passes `Glob.Test`.
   */
  type RuleTest = (Regex, string) -> bool

  /** `traits.some((trait) => rule.test(trait))`. */
  predicate AnyMatches(test: RuleTest, rule: Regex, traits: seq<string>)
  {
    exists i :: 0 <= i < |traits| && test(rule, traits[i])
  }

  /** `ruleList.some((rule) => rule.test(t))`. */
  predicate ListMatches(test: RuleTest, ruleList: seq<Regex>, t: string)
  {
    exists k :: 0 <= k < |ruleList| && test(ruleList[k], t)
  }

  /** How many rules of the list match at least one of `traits`. */
  function MatchingRules(test: RuleTest, ruleList: seq<Regex>, traits: seq<string>): (n: nat)
    ensures n <= |ruleList|
    ensures n > 0 <==> exists k :: 0 <= k < |ruleList| && AnyMatches(test, ruleList[k], traits)
    decreases |ruleList|
  {
    if ruleList == [] then 0
    else
      var front := ruleList[..|ruleList| - 1];
      assert forall k :: 0 <= k < |front| ==> front[k] == ruleList[k];
      MatchingRules(test, front, traits) + (if AnyMatches(test, ruleList[|ruleList| - 1], traits) then 1 else 0)
  }

  function Repeat<T>(x: T, n: nat): (r: seq<T>)
    ensures |r| == n
    ensures forall i :: 0 <= i < n ==> r[i] == x
  {
    seq(n, _ => x)
  }

  /**
   * What the loops push for group `g` while its rules `rules` are visited:
   * for each rule matching a picked trait, `g` once per rule of `g` that
   * matches a candidate.
   */
  function GroupPushes(test: RuleTest, g: seq<Regex>, rules: seq<Regex>, picked: seq<string>, current: seq<string>): RuleSet
    decreases |rules|
  {
    if rules == [] then []
    else
      GroupPushes(test, g, rules[..|rules| - 1], picked, current)
        + (if AnyMatches(test, rules[|rules| - 1], picked) then Repeat(g, MatchingRules(test, g, current)) else [])
  }

  /** The groups the nested loops push, in order. */
  function Pushes(test: RuleTest, ruleSet: RuleSet, picked: seq<string>, current: seq<string>): RuleSet
    decreases |ruleSet|
  {
    if ruleSet == [] then []
    else
      var g := ruleSet[|ruleSet| - 1];
      Pushes(test, ruleSet[..|ruleSet| - 1], picked, current) + GroupPushes(test, g, g, picked, current)
  }

  /** A group applies when one of its rules matches a picked trait and one matches a candidate. */
  predicate Active(test: RuleTest, g: seq<Regex>, picked: seq<string>, current: seq<string>)
  {
    MatchingRules(test, g, picked) > 0 && MatchingRules(test, g, current) > 0
  }

  lemma {:induction false} GroupPushesMembers(test: RuleTest, g: seq<Regex>, rules: seq<Regex>, picked: seq<string>, current: seq<string>)
    ensures forall h :: h in GroupPushes(test, g, rules, picked, current) <==>
      h == g && MatchingRules(test, rules, picked) > 0 && MatchingRules(test, g, current) > 0
    decreases |rules|
  {
    if rules != [] {
      GroupPushesMembers(test, g, rules[..|rules| - 1], picked, current);
      var c := MatchingRules(test, g, current);
      assert forall h :: h in Repeat(g, c) <==> h == g && c > 0 by {
        if c > 0 { assert Repeat(g, c)[0] == g; }
      }
    }
  }

  /** The pushed groups are exactly the applicable groups of the rule set (some more than once). */
  lemma {:induction false} PushesMembers(test: RuleTest, ruleSet: RuleSet, picked: seq<string>, current: seq<string>)
    ensures forall g :: g in Pushes(test, ruleSet, picked, current) <==> g in ruleSet && Active(test, g, picked, current)
    decreases |ruleSet|
  {
    if ruleSet != [] {
      var front := ruleSet[..|ruleSet| - 1];
      var g := ruleSet[|ruleSet| - 1];
      PushesMembers(test, front, picked, current);
      GroupPushesMembers(test, g, g, picked, current);
      assert ruleSet == front + [g];
    }
  }

  /** The must-pair matcher: some rule of the group matches the trait. */
  predicate MustPairMatcher(test: RuleTest, t: string, ruleList: seq<Regex>)
  {
    ListMatches(test, ruleList, t)
  }

  /** The must-not-pair matcher: no rule of the group matches the trait. */
  predicate MustNotPairMatcher(test: RuleTest, t: string, ruleList: seq<Regex>)
  {
    !ListMatches(test, ruleList, t)
  }

  /** The reduce: each pushed group in turn filters what the earlier ones kept. */
  function ApplyGroups(groups: RuleSet, traits: seq<string>, matcher: (string, seq<Regex>) -> bool): seq<string>
    decreases |groups|
  {
    if groups == [] then traits
    else ApplyGroups(groups[1..], Filter(traits, t => matcher(t, groups[0])), matcher)
  }

  predicate KeptByAll(groups: RuleSet, t: string, matcher: (string, seq<Regex>) -> bool)
  {
    forall g :: g in groups ==> matcher(t, g)
  }

  lemma KeptByAllCons(groups: RuleSet, t: string, matcher: (string, seq<Regex>) -> bool)
    requires groups != []
    ensures KeptByAll(groups, t, matcher) == (matcher(t, groups[0]) && KeptByAll(groups[1..], t, matcher))
  {
    assert groups == [groups[0]] + groups[1..];
  }

  /** Successive filters are one filter by all the groups together. */
  lemma {:induction false} ApplyGroupsIsFilter(groups: RuleSet, traits: seq<string>, matcher: (string, seq<Regex>) -> bool)
    ensures ApplyGroups(groups, traits, matcher) == Filter(traits, t => KeptByAll(groups, t, matcher))
    decreases |groups|
  {
    var all := t => KeptByAll(groups, t, matcher);
    if groups == [] {
      FilterAll(traits, all);
    } else {
      var p := t => matcher(t, groups[0]);
      var q := t => KeptByAll(groups[1..], t, matcher);
      var kept := Filter(traits, p);
      calc {
        ApplyGroups(groups, traits, matcher);
        ApplyGroups(groups[1..], kept, matcher);
        { ApplyGroupsIsFilter(groups[1..], kept, matcher); }
        Filter(kept, t => KeptByAll(groups[1..], t, matcher));
        { FilterExt(kept, t => KeptByAll(groups[1..], t, matcher), q); }
        Filter(kept, q);
        { forall i | 0 <= i < |traits| { KeptByAllCons(groups, traits[i], matcher); }
          FilterFilter(traits, p, q, all); }
        Filter(traits, all);
      }
    }
  }

  /** `filterByRuleSet` as a function of its inputs. */
  function RuleSetFilter(test: RuleTest, ruleSet: RuleSet, picked: seq<string>, current: seq<string>,
                         matcher: (string, seq<Regex>) -> bool): seq<string>
  {
    ApplyGroups(Pushes(test, ruleSet, picked, current), current, matcher)
  }

  /** A candidate passes when the matcher accepts it for every applicable group. */
  predicate Admitted(test: RuleTest, ruleSet: RuleSet, picked: seq<string>, current: seq<string>, t: string,
                     matcher: (string, seq<Regex>) -> bool)
  {
    forall g :: g in ruleSet && Active(test, g, picked, current) ==> matcher(t, g)
  }

  /** The meaning of the loops: keep, in order, the candidates every applicable group accepts. */
  lemma RuleSetFilterMeaning(test: RuleTest, ruleSet: RuleSet, picked: seq<string>, current: seq<string>,
                             matcher: (string, seq<Regex>) -> bool)
    ensures RuleSetFilter(test, ruleSet, picked, current, matcher)
      == Filter(current, t => Admitted(test, ruleSet, picked, current, t, matcher))
  {
    var pushed := Pushes(test, ruleSet, picked, current);
    ApplyGroupsIsFilter(pushed, current, matcher);
    PushesMembers(test, ruleSet, picked, current);
    FilterExt(current, t => KeptByAll(pushed, t, matcher), t => Admitted(test, ruleSet, picked, current, t, matcher));
  }

  /** `filterByRuleSet`: the nested loops, then the reduce. */
  method FilterByRuleSet(test: RuleTest, current: seq<string>, ruleSet: RuleSet, matcher: (string, seq<Regex>) -> bool,
                         picked: seq<string>)
    returns (r: seq<string>)
    ensures r == RuleSetFilter(test, ruleSet, picked, current, matcher)
    ensures r == Filter(current, t => Admitted(test, ruleSet, picked, current, t, matcher))
  {
    var matched: RuleSet := [];
    for i := 0 to |ruleSet|
      invariant matched == Pushes(test, ruleSet[..i], picked, current)
    {
      assert ruleSet[..i + 1][..i] == ruleSet[..i];
      matched := PushGroup(test, ruleSet[i], picked, current, matched);
    }
    assert ruleSet[..|ruleSet|] == ruleSet;
    r := ApplyGroups(matched, current, matcher);
    RuleSetFilterMeaning(test, ruleSet, picked, current, matcher);
  }

  /** The middle loop: for each rule of the group that matches a picked trait, the inner loop. */
  method PushGroup(test: RuleTest, ruleList: seq<Regex>, picked: seq<string>, current: seq<string>, matched: RuleSet)
    returns (m: RuleSet)
    ensures m == matched + GroupPushes(test, ruleList, ruleList, picked, current)
  {
    m := matched;
    for j := 0 to |ruleList|
      invariant m == matched + GroupPushes(test, ruleList, ruleList[..j], picked, current)
    {
      assert ruleList[..j + 1][..j] == ruleList[..j];
      if AnyMatches(test, ruleList[j], picked) {
        m := PushMatching(test, ruleList, current, m);
      }
    }
    assert ruleList[..|ruleList|] == ruleList;
  }

  /** The inner loop: the group once for each of its rules that matches a candidate. */
  method PushMatching(test: RuleTest, ruleList: seq<Regex>, current: seq<string>, matched: RuleSet)
    returns (m: RuleSet)
    ensures m == matched + Repeat(ruleList, MatchingRules(test, ruleList, current))
  {
    m := matched;
    for k := 0 to |ruleList|
      invariant m == matched + Repeat(ruleList, MatchingRules(test, ruleList[..k], current))
    {
      assert ruleList[..k + 1][..k] == ruleList[..k];
      if AnyMatches(test, ruleList[k], current) {
        RepeatNext(ruleList, MatchingRules(test, ruleList[..k], current));
        m := m + [ruleList];
      }
    }
    assert ruleList[..|ruleList|] == ruleList;
  }

  lemma RepeatNext<T>(x: T, n: nat)
    ensures Repeat(x, n + 1) == Repeat(x, n) + [x]
  {
  }
}

=== FILE: seqs.dfy ===
/** Sequence helpers standing for `Array.prototype.filter` and friends. */
module Seqs {

  /** `s.filter(p)`: the elements satisfying `p`, in their original order. */
  function Filter<T(!new)>(s: seq<T>, p: T -> bool): (r: seq<T>)
    ensures |r| <= |s|
    ensures forall x :: x in r <==> x in s && p(x)
    ensures forall i :: 0 <= i < |r| ==> p(r[i])
  {
    if s == [] then [] else
    var rest := Filter(s[1..], p);
    assert forall x :: x in s <==> x == s[0] || x in s[1..];
    if p(s[0]) then [s[0]] + rest else rest
  }

  /** `a` is obtained from `b` by deleting elements (order kept). */
  predicate IsSubseq<T(==)>(a: seq<T>, b: seq<T>)
    decreases |b|
  {
    if a == [] then true
    else if b == [] then false
    else if a[0] == b[0] then IsSubseq(a[1..], b[1..])
    else IsSubseq(a, b[1..])
  }

  lemma {:induction false} FilterAppend<T(!new)>(a: seq<T>, b: seq<T>, p: T -> bool)
    ensures Filter(a + b, p) == Filter(a, p) + Filter(b, p)
  {
    if a != [] {
      assert (a + b)[1..] == a[1..] + b;
      FilterAppend(a[1..], b, p);
    } else {
      assert a + b == b;
    }
  }

  lemma {:induction false} FilterIsSubseq<T(!new)>(s: seq<T>, p: T -> bool)
    ensures IsSubseq(Filter(s, p), s)
  {
    if s != [] {
      FilterIsSubseq(s[1..], p);
      var r := Filter(s, p);
      if !p(s[0]) && r != [] {
        assert p(r[0]);
      }
    }
  }

  /** Filtering by a predicate that holds everywhere changes nothing. */
  lemma {:induction false} FilterAll<T(!new)>(s: seq<T>, p: T -> bool)
    requires forall i :: 0 <= i < |s| ==> p(s[i])
    ensures Filter(s, p) == s
  {
    if s != [] {
      FilterAll(s[1..], p);
    }
  }

  /** Filters by extensionally equal predicates agree. */
  lemma {:induction false} FilterExt<T(!new)>(s: seq<T>, p: T -> bool, q: T -> bool)
    requires forall i :: 0 <= i < |s| ==> p(s[i]) == q(s[i])
    ensures Filter(s, p) == Filter(s, q)
  {
    if s != [] {
      FilterExt(s[1..], p, q);
    }
  }

  /** Two successive filters are one filter by the conjunction `both`. */
  lemma {:induction false} FilterFilter<T(!new)>(s: seq<T>, p: T -> bool, q: T -> bool, both: T -> bool)
    requires forall i :: 0 <= i < |s| ==> both(s[i]) == (p(s[i]) && q(s[i]))
    ensures Filter(Filter(s, p), q) == Filter(s, both)
  {
    if s != [] {
      FilterFilter(s[1..], p, q, both);
    }
  }

  lemma {:induction false} FilterIdempotent<T(!new)>(s: seq<T>, p: T -> bool)
    ensures Filter(Filter(s, p), p) == Filter(s, p)
  {
    var r := Filter(s, p);
    FilterAll(r, p);
  }

  /** Number of occurrences of `x` in `s`. */
  function Count<T(==)>(s: seq<T>, x: T): (n: nat)
    ensures n <= |s|
    ensures n == 0 <==> x !in s
  {
    if s == [] then 0 else (if s[0] == x then 1 else 0) + Count(s[1..], x)
  }

  /** Appending one element counts it once more when it is `x`. */
  lemma CountSnoc<T>(s: seq<T>, t: T, x: T)
    ensures Count(s + [t], x) == Count(s, x) + (if t == x then 1 else 0)
  {
    CountAppend(s, [t], x);
    assert Count([t], x) == (if t == x then 1 else 0) + Count([t][1..], x);
    assert [t][1..] == [];
  }

  /** Appending two elements counts each of them that is `x`. */
  lemma CountPair<T>(s: seq<T>, a: T, b: T, x: T)
    ensures Count(s + [a, b], x) == Count(s, x) + (if a == x then 1 else 0) + (if b == x then 1 else 0)
  {
    assert s + [a, b] == (s + [a]) + [b];
    CountSnoc(s, a, x);
    CountSnoc(s + [a], b, x);
  }

  /** The count of a non-empty sequence is that of its front plus its last element's. */
  lemma CountInit<T>(s: seq<T>, x: T)
    requires s != []
    ensures Count(s, x) == Count(s[..|s| - 1], x) + (if s[|s| - 1] == x then 1 else 0)
  {
    InitLast(s);
    CountSnoc(s[..|s| - 1], s[|s| - 1], x);
  }

  lemma {:induction false} CountAppend<T>(a: seq<T>, b: seq<T>, x: T)
    ensures Count(a + b, x) == Count(a, x) + Count(b, x)
  {
    if a != [] {
      assert (a + b)[1..] == a[1..] + b;
      CountAppend(a[1..], b, x);
    } else {
      assert a + b == b;
    }
  }

  /** No element occurs twice. */
  predicate Distinct<T(==)>(s: seq<T>)
  {
    forall i, j :: 0 <= i < j < |s| ==> s[i] != s[j]
  }

  /** A non-empty sequence is its front and its last element. */
  lemma InitLast<T>(s: seq<T>)
    requires s != []
    ensures s == s[..|s| - 1] + [s[|s| - 1]]
  {
  }

  /** Taking one more element of `s`. */
  lemma TakeNext<T>(s: seq<T>, n: nat)
    requires n < |s|
    ensures s[..n + 1] == s[..n] + [s[n]]
  {
  }

  /** One element put in front of `b` keeps `a` a subsequence. */
  lemma {:induction false} SubseqCons<T>(a: seq<T>, b: seq<T>, e: T)
    requires IsSubseq(a, b)
    ensures IsSubseq(a, [e] + b)
    decreases |b|, 1
  {
    if a != [] {
      assert ([e] + b)[1..] == b;
      if a[0] == e {
        SubseqTail(a, b);
      }
    }
  }

  /** Dropping the first element of a subsequence keeps it a subsequence. */
  lemma {:induction false} SubseqTail<T>(a: seq<T>, b: seq<T>)
    requires a != [] && IsSubseq(a, b)
    ensures IsSubseq(a[1..], b)
    decreases |b|, 0
  {
    if a[0] == b[0] {
      SubseqCons(a[1..], b[1..], b[0]);
    } else {
      SubseqTail(a, b[1..]);
      SubseqCons(a[1..], b[1..], b[0]);
    }
    assert [b[0]] + b[1..] == b;
  }

  /** Elements put in front of `b` keep `a` a subsequence. */
  lemma {:induction false} SubseqPrepend<T>(a: seq<T>, b: seq<T>, extra: seq<T>)
    requires IsSubseq(a, b)
    ensures IsSubseq(a, extra + b)
    decreases |extra|
  {
    if extra != [] {
      SubseqPrepend(a, b, extra[1..]);
      SubseqCons(a, extra[1..] + b, extra[0]);
      assert [extra[0]] + (extra[1..] + b) == extra + b;
    } else {
      assert extra + b == b;
    }
  }

  /** Subsequences concatenate. */
  lemma {:induction false} SubseqAppend<T>(a: seq<T>, b: seq<T>, c: seq<T>, d: seq<T>)
    requires IsSubseq(a, b) && IsSubseq(c, d)
    ensures IsSubseq(a + c, b + d)
    decreases |b|
  {
    if a == [] {
      assert a + c == c;
      SubseqPrepend(c, d, b);
    } else {
      assert (a + c)[0] == a[0] && (b + d)[1..] == b[1..] + d;
      if a[0] == b[0] {
        SubseqAppend(a[1..], b[1..], c, d);
        assert (a + c)[1..] == a[1..] + c;
      } else {
        SubseqAppend(a, b[1..], c, d);
      }
    }
  }

  /** Every sequence is a subsequence of itself. */
  lemma {:induction false} SubseqRefl<T>(a: seq<T>)
    ensures IsSubseq(a, a)
  {
    if a != [] {
      SubseqRefl(a[1..]);
    }
  }

  lemma FilterOne<T(!new)>(x: T, p: T -> bool)
    ensures Filter([x], p) == if p(x) then [x] else []
  {
    assert [x][1..] == [];
  }

  /** Two pushes in a row. */
  lemma PushTwo<T>(s: seq<T>, x: T, y: T)
    ensures s + [x] + [y] == s + [x, y]
  {
  }
}

=== FILE: token_index.dfy ===
/**
 * The aggregation in `writeAttributeTokenIndexToDisk`
 * (src/attributes/io.ts): for every attribute and trait value, the ids of
 * the tokens carrying it, in token order, with an empty list for every
 * pool trait no token carries. The `localeCompare` sort of the keys and
 * the file write are not modelled.
 */
module TokenIndex {
  import opened Wrappers
  import opened Seqs
  import opened Canonical
  import opened AttributeSets
  import opened AttributeCounts

  /** `Record<string, Record<string, number[]>>`. */
  type Index = map<string, map<string, seq<nat>>>

  /** `m[a][v]`, a missing list reading as empty. */
  function ListIn(m: Index, a: string, v: string): seq<nat>
  {
    if a in m && v in m[a] then m[a][v] else []
  }

  /** `m[a] ||= {}; m[a][v] ||= []; m[a][v].push(id)`. */
  function Push(m: Index, a: string, v: string, id: nat): Index
  {
    var inner := if a in m then m[a] else map[];
    m[a := inner[v := (if v in inner then inner[v] else []) + [id]]]
  }

  /** One push per (attribute, value, token id), in turn. */
  function PushAll(m: Index, pushes: seq<(string, string, nat)>): Index
  {
    if pushes == [] then m
    else
      var last := pushes[|pushes| - 1];
      Push(PushAll(m, pushes[..|pushes| - 1]), last.0, last.1, last.2)
  }

  lemma PushAllNext(m: Index, pushes: seq<(string, string, nat)>, a: string, v: string, id: nat)
    ensures PushAll(m, pushes + [(a, v, id)]) == Push(PushAll(m, pushes), a, v, id)
  {
    assert (pushes + [(a, v, id)])[..|pushes|] == pushes;
  }

  lemma {:induction false} PushAllAppend(m: Index, p: seq<(string, string, nat)>, q: seq<(string, string, nat)>)
    ensures PushAll(m, p + q) == PushAll(PushAll(m, p), q)
    decreases |q|
  {
    if q == [] {
      assert p + q == p;
    } else {
      var front := q[..|q| - 1];
      var last := q[|q| - 1];
      PushAllAppend(m, p, front);
      assert p + q == (p + front) + [last];
      assert q == front + [last];
      PushAllNext(m, p + front, last.0, last.1, last.2);
      PushAllNext(PushAll(m, p), front, last.0, last.1, last.2);
    }
  }

  /** The ids pushed onto the list of `a` and `v`, in push order. */
  function IdsOf(pushes: seq<(string, string, nat)>, a: string, v: string): seq<nat>
  {
    if pushes == [] then []
    else
      var last := pushes[|pushes| - 1];
      IdsOf(pushes[..|pushes| - 1], a, v) + (if last.0 == a && last.1 == v then [last.2] else [])
  }

  lemma {:induction false} IdsOfAppend(p: seq<(string, string, nat)>, q: seq<(string, string, nat)>, a: string, v: string)
    ensures IdsOf(p + q, a, v) == IdsOf(p, a, v) + IdsOf(q, a, v)
    decreases |q|
  {
    if q == [] {
      assert p + q == p;
    } else {
      var front := q[..|q| - 1];
      IdsOfAppend(p, front, a, v);
      assert (p + q)[..|p + q| - 1] == p + front;
    }
  }

  /** The attributes some push names. */
  function PushKeys(pushes: seq<(string, string, nat)>): set<string>
  {
    set p | p in pushes :: p.0
  }

  /** One push appends to its own list and to no other. */
  lemma PushMeaning(m: Index, a0: string, v0: string, id: nat, a: string, v: string)
    ensures ListIn(Push(m, a0, v0, id), a, v) == ListIn(m, a, v) + (if a == a0 && v == v0 then [id] else [])
    ensures (a in Push(m, a0, v0, id) && v in Push(m, a0, v0, id)[a]) <==> (a in m && v in m[a]) || (a == a0 && v == v0)
    ensures a in Push(m, a0, v0, id) <==> a in m || a == a0
  {
  }

  /** A list ends up as its start plus the ids pushed onto it; the rows and cells present follow. */
  lemma {:induction false} PushAllLists(m: Index, pushes: seq<(string, string, nat)>, a: string, v: string)
    ensures ListIn(PushAll(m, pushes), a, v) == ListIn(m, a, v) + IdsOf(pushes, a, v)
    ensures (a in PushAll(m, pushes) && v in PushAll(m, pushes)[a]) <==> (a in m && v in m[a]) || IdsOf(pushes, a, v) != []
    ensures a in PushAll(m, pushes) <==> a in m || a in PushKeys(pushes)
    decreases |pushes|
  {
    if pushes != [] {
      var front := pushes[..|pushes| - 1];
      var last := pushes[|pushes| - 1];
      PushAllLists(m, front, a, v);
      PushMeaning(PushAll(m, front), last.0, last.1, last.2, a, v);
      PushKeysNext(pushes);
    }
  }

  lemma PushKeysNext(pushes: seq<(string, string, nat)>)
    requires pushes != []
    ensures PushKeys(pushes) == PushKeys(pushes[..|pushes| - 1]) + {pushes[|pushes| - 1].0}
  {
    var front := pushes[..|pushes| - 1];
    assert pushes == front + [pushes[|pushes| - 1]];
    forall k | k in PushKeys(front)
      ensures k in PushKeys(pushes)
    {
      var p :| p in front && p.0 == k;
      assert p in pushes;
    }
  }

  /** The pushes one result makes as token `id`, in entry order. */
  function EntryPushes(result: AttributeSet, id: nat): (pushes: seq<(string, string, nat)>)
    ensures |pushes| == |result|
    ensures forall k :: 0 <= k < |result| ==> pushes[k] == (result[k].attribute, result[k].value, id)
  {
    if result == [] then [] else [(result[0].attribute, result[0].value, id)] + EntryPushes(result[1..], id)
  }

  /** The pushes for a list of results, token by token. */
  function IndexPushes(results: seq<AttributeSet>): seq<(string, string, nat)>
  {
    if results == [] then []
    else IndexPushes(results[..|results| - 1]) + EntryPushes(results[|results| - 1], |results| - 1)
  }

  lemma IndexPushesNext(results: seq<AttributeSet>, i: nat)
    requires i < |results|
    ensures IndexPushes(results[..i + 1]) == IndexPushes(results[..i]) + EntryPushes(results[i], i)
  {
    TakeNext(results, i);
    assert results[..i + 1][..i] == results[..i];
  }

  /** The ids, in ascending order, of the tokens whose value for `a` is `v`. */
  function TokensWith(results: seq<AttributeSet>, a: string, v: string): (ids: seq<nat>)
    ensures forall id: nat :: id in ids <==> id < |results| && Get(results[id], a) == Some(v)
    ensures forall i, j :: 0 <= i < j < |ids| ==> ids[i] < ids[j]
  {
    if results == [] then []
    else
      var n := |results| - 1;
      var front := TokensWith(results[..n], a, v);
      var ids := front + (if Get(results[n], a) == Some(v) then [n] else []);
      assert forall id :: 0 <= id < n ==> results[..n][id] == results[id];
      assert forall i :: 0 <= i < |front| ==> front[i] < n by {
        forall i | 0 <= i < |front|
          ensures front[i] < n
        {
          assert front[i] in front;
        }
      }
      assert forall id: nat :: id in ids <==> id in front || (id == n && Get(results[n], a) == Some(v));
      ids
  }

  /** A well-formed result, as token `id`, pushes `id` onto the list of its own value only. */
  lemma {:induction false} EntryPushesIds(result: AttributeSet, id: nat, a: string, v: string)
    requires WellFormed(result)
    ensures IdsOf(EntryPushes(result, id), a, v) == if Get(result, a) == Some(v) then [id] else []
    decreases |result|
  {
    if result != [] {
      var rest := result[1..];
      WellFormedTail(result);
      EntryPushesIds(rest, id, a, v);
      var head := [(result[0].attribute, result[0].value, id)];
      assert EntryPushes(result, id) == head + EntryPushes(rest, id);
      IdsOfAppend(head, EntryPushes(rest, id), a, v);
      assert head[..0] == [];
      assert IdsOf(head, a, v) == if result[0].attribute == a && result[0].value == v then [id] else [];
      if result[0].attribute == a {
        assert Get(rest, a) == None;
      } else {
        assert Get(result, a) == Get(rest, a);
      }
    }
  }

  /** The ids on the list of `a` and `v` are the tokens holding `v` for `a`, in ascending order. */
  lemma {:induction false} IndexPushesIds(results: seq<AttributeSet>, a: string, v: string)
    requires AllWellFormed(results)
    ensures IdsOf(IndexPushes(results), a, v) == TokensWith(results, a, v)
    decreases |results|
  {
    if results != [] {
      var n := |results| - 1;
      IndexPushesIds(results[..n], a, v);
      IdsOfAppend(IndexPushes(results[..n]), EntryPushes(results[n], n), a, v);
      EntryPushesIds(results[n], n, a, v);
    }
  }

  /** Every entry pushes, so the rows of the index are the attributes present. */
  lemma {:induction false} IndexRowKeys(results: seq<AttributeSet>)
    ensures PushKeys(IndexPushes(results)) == AttributesIn(results)
    decreases |results|
  {
    if results != [] {
      var n := |results| - 1;
      var front := results[..n];
      IndexRowKeys(front);
      var p := IndexPushes(front);
      var q := EntryPushes(results[n], n);
      EntryPushKeys(p, results[n], n);
      AttributesInNext(results);
    }
  }

  lemma EntryPushKeys(p: seq<(string, string, nat)>, result: AttributeSet, id: nat)
    ensures PushKeys(p + EntryPushes(result, id)) == PushKeys(p) + (set e | e in result :: e.attribute)
  {
    var q := EntryPushes(result, id);
    forall k | k in PushKeys(p + q)
      ensures k in PushKeys(p) + (set e | e in result :: e.attribute)
    {
      var x: (string, string, nat) :| x in p + q && x.0 == k;
      if x !in p {
        var j :| 0 <= j < |q| && q[j] == x;
        assert result[j] in result;
      }
    }
    forall k | k in PushKeys(p) + (set e | e in result :: e.attribute)
      ensures k in PushKeys(p + q)
    {
      if k in PushKeys(p) {
        var x :| x in p && x.0 == k;
        assert x in p + q;
      } else {
        var e :| e in result && e.attribute == k;
        var j :| 0 <= j < |result| && result[j] == e;
        assert q[j] in p + q;
      }
    }
  }

  /** The index before the pool is filled in. */
  function Collected(results: seq<AttributeSet>): Index
  {
    PushAll(map[], IndexPushes(results))
  }

  lemma IndexRows(results: seq<AttributeSet>, a: string)
    ensures a in Collected(results) <==> a in AttributesIn(results)
  {
    PushAllLists(map[], IndexPushes(results), a, "");
    IndexRowKeys(results);
  }

  /** `if (!m[a][t]) m[a][t] = []`: an existing list, even an empty one, is truthy and stays. */
  function FillEmpty(m: Index, a: string, t: string): (r: Index)
    ensures r.Keys == m.Keys
  {
    if a in m && t !in m[a] then m[a := m[a][t := []]] else m
  }

  /** An empty list for every pool trait without one. */
  function FillEmptyLists(m: Index, pool: seq<string>): (r: Index)
    ensures r.Keys == m.Keys
  {
    if pool == [] then m
    else
      var last := pool[|pool| - 1];
      FillEmpty(FillEmptyLists(m, pool[..|pool| - 1]), ExtractAttributeName(last), PoolTraitKey(last))
  }

  lemma FillEmptyListsNext(m: Index, pool: seq<string>, k: nat)
    requires k < |pool|
    ensures FillEmptyLists(m, pool[..k + 1])
      == FillEmpty(FillEmptyLists(m, pool[..k]), ExtractAttributeName(pool[k]), PoolTraitKey(pool[k]))
  {
    assert pool[..k + 1][..k] == pool[..k];
  }

  /** Filling in empty lists changes no list and adds exactly the cells the pool names. */
  lemma {:induction false} FillEmptyListsMeaning(m: Index, pool: seq<string>, a: string, v: string)
    ensures ListIn(FillEmptyLists(m, pool), a, v) == ListIn(m, a, v)
    ensures a in m ==> (v in FillEmptyLists(m, pool)[a] <==> v in m[a] || PoolTrait(pool, a, v))
    decreases |pool|
  {
    if pool != [] {
      var front := pool[..|pool| - 1];
      FillEmptyListsMeaning(m, front, a, v);
      PoolTraitNext(pool, a, v);
    }
  }

  lemma PoolRowsFromIndex(pool: seq<string>, results: seq<AttributeSet>)
    requires PoolAttributesPresent(pool, results)
    ensures PoolRowsPresent(pool, Collected(results))
  {
    forall k | 0 <= k < |pool|
      ensures ExtractAttributeName(pool[k]) in Collected(results)
    {
      IndexRows(results, ExtractAttributeName(pool[k]));
    }
  }

  /** `unsortedIndex` once the pool is filled in. */
  function IndexSpec(pool: seq<string>, results: seq<AttributeSet>): Index
    requires PoolAttributesPresent(pool, results)
  {
    FillEmptyLists(Collected(results), pool)
  }

  /**
   * The index has a row per attribute present and a list for every value
   * some token holds or the pool names; each list holds exactly the ids of
   * the tokens with that value, ascending.
   */
  lemma IndexMeaning(pool: seq<string>, results: seq<AttributeSet>, a: string, v: string)
    requires AllWellFormed(results) && PoolAttributesPresent(pool, results)
    ensures var index := IndexSpec(pool, results);
      (a in index <==> a in AttributesIn(results))
      && ListIn(index, a, v) == TokensWith(results, a, v)
      && (a in index ==> (v in index[a] <==> TokensWith(results, a, v) != [] || PoolTrait(pool, a, v)))
  {
    PoolRowsFromIndex(pool, results);
    IndexRows(results, a);
    PushAllLists(map[], IndexPushes(results), a, v);
    IndexPushesIds(results, a, v);
    FillEmptyListsMeaning(Collected(results), pool, a, v);
  }

  /** One `acc[attribute][trait_value].push(tokenId)` with the source's two guards. */
  method PushId(m: Index, a: string, v: string, id: nat) returns (r: Index)
    ensures r == Push(m, a, v, id)
    ensures ListIn(r, a, v) == ListIn(m, a, v) + [id]
  {
    ghost var inner := if a in m then m[a] else map[];
    ghost var list := if v in inner then inner[v] else [];
    r := m;
    if a !in r {
      r := r[a := map[]];
    }
    assert r[a] == inner;
    if v !in r[a] {
      r := r[a := r[a][v := []]];
    }
    assert r[a][v] == list && r[a] == inner[v := list];
    r := r[a := r[a][v := r[a][v] + [id]]];
    assert r[a] == inner[v := list + [id]];
    assert r == m[a := inner[v := list + [id]]];
  }

  /** The `Object.entries(result).forEach` callback for token `tokenId`. */
  method IndexEntries(index0: Index, result: AttributeSet, tokenId: nat) returns (index: Index)
    ensures index == PushAll(index0, EntryPushes(result, tokenId))
  {
    index := index0;
    for j := 0 to |result|
      invariant index == PushAll(index0, EntryPushes(result[..j], tokenId))
    {
      assert EntryPushes(result[..j + 1], tokenId) == EntryPushes(result[..j], tokenId)
        + [(result[j].attribute, result[j].value, tokenId)];
      PushAllNext(index0, EntryPushes(result[..j], tokenId), result[j].attribute, result[j].value, tokenId);
      index := PushId(index, result[j].attribute, result[j].value, tokenId);
    }
    assert result[..|result|] == result;
  }

  /** The indexing part of `writeAttributeTokenIndexToDisk`, before the sort. */
  method IndexTokens(allAttributes: seq<string>, results: seq<AttributeSet>) returns (index: Index)
    requires PoolAttributesPresent(allAttributes, results)
    ensures index == IndexSpec(allAttributes, results)
  {
    index := map[];
    for tokenId := 0 to |results|
      invariant index == PushAll(map[], IndexPushes(results[..tokenId]))
    {
      IndexPushesNext(results, tokenId);
      PushAllAppend(map[], IndexPushes(results[..tokenId]), EntryPushes(results[tokenId], tokenId));
      index := IndexEntries(index, results[tokenId], tokenId);
    }
    assert results[..|results|] == results;
    PoolRowsFromIndex(allAttributes, results);
    index := FillIndexPool(index, allAttributes);
  }

  /** The `for (const attribute of allAttributes)` loop: an empty list for every pool trait without one. */
  method FillIndexPool(collected: Index, allAttributes: seq<string>) returns (index: Index)
    requires PoolRowsPresent(allAttributes, collected)
    ensures index == FillEmptyLists(collected, allAttributes)
  {
    index := collected;
    for k := 0 to |allAttributes|
      invariant index == FillEmptyLists(collected, allAttributes[..k])
    {
      FillEmptyListsNext(collected, allAttributes, k);
      var attrName := ExtractAttributeName(allAttributes[k]);
      var traitName := PoolTraitKey(allAttributes[k]);
      if traitName !in index[attrName] {
        index := index[attrName := index[attrName][traitName := []]];
      }
    }
    assert allAttributes[..|allAttributes|] == allAttributes;
  }
}

=== FILE: trait_counts.dfy ===
/**
 * The trait-count summary of `writeTraitCountsToDisk` (src/attributes/io.ts):
 * each token is bucketed by how many of the summary attributes it holds a
 * trait other than `None` for; `summary` counts the tokens per bucket and
 * `tokens` lists their ids. The summary attributes are a plain list, so an
 * attribute listed twice is counted twice.
 */
module TraitCounts {
  import opened Wrappers
  import opened Seqs
  import opened AttributeSets

  /**
   * How many of `attrs` the result does not hold `None` for. A missing key
   * reads as `undefined`, which is not `"None"`, so it counts.
   */
  function TraitCount(result: AttributeSet, attrs: seq<string>): (c: nat)
    ensures c <= |attrs|
  {
    if attrs == [] then 0
    else TraitCount(result, attrs[..|attrs| - 1]) + (if IsNone(result, attrs[|attrs| - 1]) then 0 else 1)
  }

  /** The result holds the trait `None` for attribute `a`. */
  predicate IsNone(result: AttributeSet, a: string)
  {
    Get(result, a) == Some("None")
  }

  /** Every summary attribute holds a trait other than `None`. */
  predicate AllHeld(result: AttributeSet, attrs: seq<string>)
  {
    forall i :: 0 <= i < |attrs| ==> !IsNone(result, attrs[i])
  }

  /** Every summary attribute is `None`. */
  predicate AllNone(result: AttributeSet, attrs: seq<string>)
  {
    forall i :: 0 <= i < |attrs| ==> IsNone(result, attrs[i])
  }

  lemma AllHeldNext(result: AttributeSet, attrs: seq<string>)
    requires attrs != []
    ensures AllHeld(result, attrs)
      <==> AllHeld(result, attrs[..|attrs| - 1]) && !IsNone(result, attrs[|attrs| - 1])
  {
    var front := attrs[..|attrs| - 1];
    if AllHeld(result, front) && !IsNone(result, attrs[|attrs| - 1]) {
      forall i | 0 <= i < |attrs|
        ensures !IsNone(result, attrs[i])
      {
        if i < |front| {
          assert attrs[i] == front[i];
          assert !IsNone(result, front[i]);
        } else {
          assert i == |attrs| - 1;
        }
      }
    }
  }

  lemma AllNoneNext(result: AttributeSet, attrs: seq<string>)
    requires attrs != []
    ensures AllNone(result, attrs)
      <==> AllNone(result, attrs[..|attrs| - 1]) && IsNone(result, attrs[|attrs| - 1])
  {
    var front := attrs[..|attrs| - 1];
    if AllNone(result, front) && IsNone(result, attrs[|attrs| - 1]) {
      forall i | 0 <= i < |attrs|
        ensures IsNone(result, attrs[i])
      {
        if i < |front| {
          assert attrs[i] == front[i];
          assert IsNone(result, front[i]);
        } else {
          assert i == |attrs| - 1;
        }
      }
    }
  }

  /** The count is full exactly when no summary attribute is `None`. */
  lemma {:induction false} TraitCountFull(result: AttributeSet, attrs: seq<string>)
    ensures TraitCount(result, attrs) == |attrs| <==> AllHeld(result, attrs)
    decreases |attrs|
  {
    if attrs != [] {
      TraitCountFull(result, attrs[..|attrs| - 1]);
      AllHeldNext(result, attrs);
    }
  }

  /** The count is zero exactly when every summary attribute is `None`. */
  lemma {:induction false} TraitCountZero(result: AttributeSet, attrs: seq<string>)
    ensures TraitCount(result, attrs) == 0 <==> AllNone(result, attrs)
    decreases |attrs|
  {
    if attrs != [] {
      TraitCountZero(result, attrs[..|attrs| - 1]);
      AllNoneNext(result, attrs);
    }
  }

  lemma TraitCountNext(result: AttributeSet, attrs: seq<string>, k: nat)
    requires k < |attrs|
    ensures TraitCount(result, attrs[..k + 1])
      == TraitCount(result, attrs[..k]) + (if IsNone(result, attrs[k]) then 0 else 1)
  {
    TakeNext(attrs, k);
    assert attrs[..k + 1][..k] == attrs[..k];
  }

  /** The bucket counts after the first `|results|` tokens. */
  function SummaryOf(results: seq<AttributeSet>, attrs: seq<string>): map<nat, nat>
  {
    if results == [] then map[]
    else
      Tally(SummaryOf(results[..|results| - 1], attrs), TraitCount(results[|results| - 1], attrs))
  }

  /** The bucket lists after the first `|results|` tokens. */
  function TokensOf(results: seq<AttributeSet>, attrs: seq<string>): map<nat, seq<nat>>
  {
    if results == [] then map[]
    else
      var n := |results| - 1;
      Push(TokensOf(results[..n], attrs), TraitCount(results[n], attrs), n)
  }

  /** Every bucket is a possible trait count and holds at least one token. */
  lemma {:induction false} SummaryBounds(results: seq<AttributeSet>, attrs: seq<string>, c: nat)
    requires c in SummaryOf(results, attrs)
    ensures c <= |attrs| && SummaryOf(results, attrs)[c] > 0
    decreases |results|
  {
    var n := |results| - 1;
    if c in SummaryOf(results[..n], attrs) {
      SummaryBounds(results[..n], attrs, c);
    }
  }

  /** Every bucket list is keyed by a possible trait count. */
  lemma {:induction false} TokensBounds(results: seq<AttributeSet>, attrs: seq<string>, c: nat)
    requires c in TokensOf(results, attrs)
    ensures c <= |attrs|
    decreases |results|
  {
    var n := |results| - 1;
    if c in TokensOf(results[..n], attrs) {
      TokensBounds(results[..n], attrs, c);
    }
  }

  /** `summary[c] = (summary[c] || 0) + 1`. */
  function Tally(s: map<nat, nat>, c: nat): map<nat, nat>
  {
    s[c := CountOr(s, c) + 1]
  }

  /** `tokens[c] ||= []; tokens[c].push(id)`. */
  function Push(t: map<nat, seq<nat>>, c: nat, id: nat): map<nat, seq<nat>>
  {
    t[c := ListOr(t, c) + [id]]
  }

  /** `summary[c] || 0`. */
  function CountOr(s: map<nat, nat>, c: nat): nat
  {
    if c in s then s[c] else 0
  }

  /** `tokens[c] ||= []`, read. */
  function ListOr(t: map<nat, seq<nat>>, c: nat): seq<nat>
  {
    if c in t then t[c] else []
  }

  lemma SummaryOfNext(results: seq<AttributeSet>, attrs: seq<string>, i: nat)
    requires i < |results|
    ensures SummaryOf(results[..i + 1], attrs) == Tally(SummaryOf(results[..i], attrs), TraitCount(results[i], attrs))
  {
    var r := results[..i + 1];
    assert |r| - 1 == i;
    assert r[..i] == results[..i];
    assert r[i] == results[i];
  }

  lemma TokensOfNext(results: seq<AttributeSet>, attrs: seq<string>, i: nat)
    requires i < |results|
    ensures TokensOf(results[..i + 1], attrs) == Push(TokensOf(results[..i], attrs), TraitCount(results[i], attrs), i)
  {
    var r := results[..i + 1];
    assert |r| - 1 == i;
    assert r[..i] == results[..i];
    assert r[i] == results[i];
  }

  /** The loop body's inner loop: the trait count of one token. */
  method CountOne(result: AttributeSet, attrs: seq<string>) returns (traitCount: nat)
    ensures traitCount == TraitCount(result, attrs)
  {
    traitCount := 0;
    for k := 0 to |attrs|
      invariant traitCount == TraitCount(result, attrs[..k])
    {
      TraitCountNext(result, attrs, k);
      var value := Get(result, attrs[k]);
      if value != Some("None") {
        traitCount := traitCount + 1;
      }
    }
    assert attrs[..|attrs|] == attrs;
  }

  /** `writeTraitCountsToDisk` without the file write: both tables, token by token. */
  method CountTraits(results: seq<AttributeSet>, attrs: seq<string>)
    returns (summary: map<nat, nat>, tokens: map<nat, seq<nat>>)
    ensures summary == SummaryOf(results, attrs)
    ensures tokens == TokensOf(results, attrs)
  {
    summary := map[];
    tokens := map[];
    for tokenId: nat := 0 to |results|
      invariant summary == SummaryOf(results[..tokenId], attrs)
      invariant tokens == TokensOf(results[..tokenId], attrs)
    {
      summary, tokens := CountToken(results, attrs, tokenId, summary, tokens);
    }
    assert results[..|results|] == results;
  }

  /** One pass of the outer loop: count token `tokenId` into both tables. */
  method CountToken(results: seq<AttributeSet>, attrs: seq<string>, tokenId: nat,
                    summary: map<nat, nat>, tokens: map<nat, seq<nat>>)
    returns (summary': map<nat, nat>, tokens': map<nat, seq<nat>>)
    requires tokenId < |results|
    requires summary == SummaryOf(results[..tokenId], attrs)
    requires tokens == TokensOf(results[..tokenId], attrs)
    ensures summary' == SummaryOf(results[..tokenId + 1], attrs)
    ensures tokens' == TokensOf(results[..tokenId + 1], attrs)
  {
    SummaryOfNext(results, attrs, tokenId);
    TokensOfNext(results, attrs, tokenId);
    var traitCount := CountOne(results[tokenId], attrs);
    summary' := Tally(summary, traitCount);
    tokens' := PushToken(tokens, traitCount, tokenId);
  }

  /** `tokens[traitCount] ||= []; tokens[traitCount].push(tokenId)`. */
  method PushToken(tokens: map<nat, seq<nat>>, c: nat, tokenId: nat) returns (t: map<nat, seq<nat>>)
    ensures t == Push(tokens, c, tokenId)
  {
    t := tokens;
    if c !in t {
      t := t[c := []];
    }
    t := t[c := t[c] + [tokenId]];
  }

  /** Reference definition: the ids, ascending, of the tokens with trait count `c`. */
  function Bucket(results: seq<AttributeSet>, attrs: seq<string>, c: nat): (ids: seq<nat>)
    ensures forall id: nat :: id in ids <==> id < |results| && TraitCount(results[id], attrs) == c
    ensures forall i, j :: 0 <= i < j < |ids| ==> ids[i] < ids[j]
  {
    if results == [] then []
    else
      var n := |results| - 1;
      var front := Bucket(results[..n], attrs, c);
      var ids := front + (if TraitCount(results[n], attrs) == c then [n] else []);
      assert forall id :: 0 <= id < n ==> results[..n][id] == results[id];
      assert forall i :: 0 <= i < |front| ==> front[i] < n by {
        forall i | 0 <= i < |front|
          ensures front[i] < n
        {
          assert front[i] in front;
        }
      }
      assert forall id: nat :: id in ids <==> id in front || (id == n && TraitCount(results[n], attrs) == c);
      ids
  }

  /** Each bucket list is exactly the reference bucket; a bucket exists iff it is non-empty. */
  lemma {:induction false} TokensMeaning(results: seq<AttributeSet>, attrs: seq<string>, c: nat)
    ensures ListOr(TokensOf(results, attrs), c) == Bucket(results, attrs, c)
    ensures c in TokensOf(results, attrs) <==> Bucket(results, attrs, c) != []
    decreases |results|
  {
    if results != [] {
      TokensMeaning(results[..|results| - 1], attrs, c);
    }
  }

  /** Every token lands in exactly one bucket: the one keyed by its own trait count. */
  lemma OneBucket(results: seq<AttributeSet>, attrs: seq<string>, id: nat, c: nat)
    requires id < |results|
    ensures var tokens := TokensOf(results, attrs);
      (c in tokens && id in tokens[c]) <==> c == TraitCount(results[id], attrs)
  {
    TokensMeaning(results, attrs, c);
  }

  /** Bucket lists are in ascending id order. */
  lemma BucketsAscending(results: seq<AttributeSet>, attrs: seq<string>, c: nat)
    requires c in TokensOf(results, attrs)
    ensures var ids := TokensOf(results, attrs)[c];
      forall i, j :: 0 <= i < j < |ids| ==> ids[i] < ids[j]
  {
    TokensMeaning(results, attrs, c);
  }

  /** `summary` and `tokens` have the same buckets, and each count is its list's length. */
  lemma {:induction false} SummaryCountsTokens(results: seq<AttributeSet>, attrs: seq<string>)
    ensures SummaryOf(results, attrs).Keys == TokensOf(results, attrs).Keys
    ensures forall c :: c in SummaryOf(results, attrs) ==> SummaryOf(results, attrs)[c] == |TokensOf(results, attrs)[c]|
    decreases |results|
  {
    if results != [] {
      SummaryCountsTokens(results[..|results| - 1], attrs);
    }
  }

  /** The counts of buckets `0 .. hi - 1`. */
  function SumTo(s: map<nat, nat>, hi: nat): nat
  {
    if hi == 0 then 0 else SumTo(s, hi - 1) + CountOr(s, hi - 1)
  }

  lemma {:induction false} SumToEmpty(hi: nat)
    ensures SumTo(map[], hi) == 0
  {
    if hi > 0 {
      SumToEmpty(hi - 1);
    }
  }

  lemma {:induction false} SumToBump(s: map<nat, nat>, c: nat, hi: nat)
    ensures SumTo(Tally(s, c), hi) == SumTo(s, hi) + (if c < hi then 1 else 0)
  {
    if hi > 0 {
      SumToBump(s, c, hi - 1);
    }
  }

  /** The bucket counts, over every possible trait count `0 .. |attrs|`, add up to the number of tokens. */
  lemma {:induction false} BucketsSum(results: seq<AttributeSet>, attrs: seq<string>)
    ensures SumTo(SummaryOf(results, attrs), |attrs| + 1) == |results|
    decreases |results|
  {
    if results == [] {
      SumToEmpty(|attrs| + 1);
    } else {
      var n := |results| - 1;
      var s := SummaryOf(results[..n], attrs);
      var c := TraitCount(results[n], attrs);
      BucketsSum(results[..n], attrs);
      SumToBump(s, c, |attrs| + 1);
      assert |results[..n]| == n;
    }
  }
}

=== FILE: transform.dfy ===
/**
 * The configurable post-processing of config/attributes/transform.ts: the
 * internal attribute set passes through unchanged, and the public one
 * loses its `None` traits.
 */
module Transform {
  import opened Wrappers
  import opened Seqs
  import opened AttributeSets

  /** `transformInternalAttributes`: the identity. */
  function TransformInternalAttributes(attrSet: AttributeSet): (r: AttributeSet)
    ensures r == attrSet
  {
    attrSet
  }

  predicate IsShown(e: Entry)
  {
    e.value != "None"
  }

  /** `removeNoneTraits`: keeps, in order, the entries whose trait is not `"None"`. */
  function RemoveNoneTraits(output: AttributeSet): (r: AttributeSet)
    ensures forall e :: e in r <==> e in output && e.value != "None"
    ensures IsSubseq(r, output)
  {
    FilterIsSubseq(output, IsShown);
    Filter(output, IsShown)
  }

  /**
   * `processFinalAttributeSet`: the spread copy makes the input untouched
   * (attribute sets are values here), and no `"None"` trait is left.
   */
  function ProcessFinalAttributeSet(attrSet: AttributeSet): (r: AttributeSet)
    ensures forall i :: 0 <= i < |r| ==> r[i].value != "None"
    ensures forall i :: 0 <= i < |attrSet| && attrSet[i].value != "None" ==> attrSet[i] in r
    ensures IsSubseq(r, attrSet)
  {
    RemoveNoneTraits(attrSet)
  }

  /** Processing twice is processing once. */
  lemma ProcessFinalIdempotent(attrSet: AttributeSet)
    ensures ProcessFinalAttributeSet(ProcessFinalAttributeSet(attrSet)) == ProcessFinalAttributeSet(attrSet)
  {
    FilterIdempotent(attrSet, IsShown);
  }

  /** The order of the kept entries is the input's: processing distributes over concatenation. */
  lemma ProcessFinalConcat(a: AttributeSet, b: AttributeSet)
    ensures ProcessFinalAttributeSet(a + b) == ProcessFinalAttributeSet(a) + ProcessFinalAttributeSet(b)
  {
    FilterAppend(a, b, IsShown);
  }

  /** Reading an attribute after processing: a `"None"` trait is gone, any other is unchanged. */
  lemma {:induction false} ProcessFinalGet(attrSet: AttributeSet, key: string)
    requires WellFormed(attrSet)
    ensures Get(ProcessFinalAttributeSet(attrSet), key)
      == if Get(attrSet, key) == Some("None") then None else Get(attrSet, key)
  {
    if attrSet != [] {
      ProcessFinalGet(attrSet[1..], key);
      if attrSet[0].attribute == key {
        assert key !in Keys(attrSet[1..]);
        assert key !in Keys(ProcessFinalAttributeSet(attrSet[1..]));
      }
    }
  }
}

=== FILE: variant.dfy ===
/**
 * `traitWithoutVariant` (src/attributes/io.ts): a trait value written
 * `Base (Variant)` rolls up under `Base`. The pattern `(^.+)\(.+\)$` is
 * written out by hand: `.` matches anything but a line terminator, the
 * first group is greedy, so the base ends at the last `(` that leaves at
 * least one character before the closing `)`.
 */
module Variants {
  import opened Wrappers
  import opened JsStrings
  import opened Glob

  /** The largest `k` with `1 <= k < hi` and `s[k] == '('`, or -1. */
  function LastOpen(s: string, hi: nat): (i: int)
    requires hi <= |s|
    ensures -1 <= i < hi
    ensures i >= 0 ==> 1 <= i && s[i] == '('
    ensures forall k :: 1 <= k < hi && i < k ==> s[k] != '('
  {
    if hi <= 1 then -1
    else if s[hi - 1] == '(' then hi - 1
    else LastOpen(s, hi - 1)
  }

  /** The trimmed first group when the pattern matches, `None` for `undefined`. */
  function TraitWithoutVariant(s: string): (r: Option<string>)
    ensures r.Some? <==> (NoLineTerminators(s) && |s| >= 4 && s[|s| - 1] == ')'
                          && exists i :: 1 <= i <= |s| - 3 && s[i] == '(')
    ensures r.Some? ==> (exists i :: 1 <= i <= |s| - 3 && s[i] == '(' && r.value == Trim(s[..i])
                                     && forall k :: i < k <= |s| - 3 ==> s[k] != '(')
  {
    if NoLineTerminators(s) && |s| >= 4 && s[|s| - 1] == ')' then
      var i := LastOpen(s, |s| - 2);
      if i >= 1 then Some(Trim(s[..i])) else None
    else None
  }

  /** The last `(` before `hi` is the one with no `(` after it. */
  lemma LastOpenIs(s: string, hi: nat, i: nat)
    requires 1 <= i < hi <= |s| && s[i] == '('
    requires forall k :: i < k < hi ==> s[k] != '('
    ensures LastOpen(s, hi) == i
  {
  }

  lemma SuffixedFree(x: string, v: string)
    requires NoLineTerminators(x) && NoLineTerminators(v)
    ensures NoLineTerminators(x + " (" + v + ")")
  {
    var s := x + " (" + v + ")";
    var i := |x| + 1;
    forall k | 0 <= k < |s|
      ensures !IsLineTerminator(s[k])
    {
      if k < |x| {
        assert s[k] == x[k];
      } else if i < k < |s| - 1 {
        assert s[k] == v[k - i - 1];
      }
    }
  }

  /** In `"X (V)"` the last `(` before the closing `)` is the one after `X`. */
  lemma LastOpenSuffixed(x: string, v: string)
    requires v != [] && '(' !in v
    ensures var s := x + " (" + v + ")";
      LastOpen(s, |s| - 2) == |x| + 1
  {
    var s := x + " (" + v + ")";
    var i := |x| + 1;
    assert s[i] == '(';
    forall k | i < k < |s| - 2
      ensures s[k] != '('
    {
      assert s[k] == v[k - i - 1];
    }
    LastOpenIs(s, |s| - 2, i);
  }

  /** `"X (V)"` rolls up to `X` with the separating blank trimmed, whatever `X` holds. */
  lemma VariantOfSuffixed(x: string, v: string)
    requires v != [] && '(' !in v
    requires NoLineTerminators(x) && NoLineTerminators(v)
    ensures TraitWithoutVariant(x + " (" + v + ")") == Some(Trim(x + " "))
  {
    var s := x + " (" + v + ")";
    LastOpenSuffixed(x, v);
    SuffixedFree(x, v);
    assert s[|s| - 1] == ')';
    assert s[..|x| + 1] == x + " ";
  }
}

=== FILE: weights.dfy ===
/**
 * Trait weights (src/attributes/generate.ts): every probability key is a
 * glob compiled once; a trait weighs what the first matching key says,
 * and nothing when no key matches.
 */
module Weights {
  import opened Wrappers
  import opened Seqs
  import opened Glob

  /** One entry of the probability table: a glob key and its weight. */
  datatype Probability = Probability(pattern: string, weight: real)

  /** `traitProbabilityKeys`: each key's compiled pattern with its weight, in key order. */
  function ProbabilityKeys(probs: seq<Probability>): (table: seq<(Regex, real)>)
    ensures |table| == |probs|
    ensures forall i :: 0 <= i < |table| ==>
      table[i].1 == probs[i].weight && table[i].0 == GlobToRegex(probs[i].pattern)
  {
    seq(|probs|, i requires 0 <= i < |probs| => (GlobToRegex(probs[i].pattern), probs[i].weight))
  }

  predicate NonNegative(probs: seq<Probability>)
  {
    forall i :: 0 <= i < |probs| ==> probs[i].weight >= 0.0
  }

  /** The weight of a trait: that of the first key whose pattern matches it, else 0. */
  function WeightOf(probs: seq<Probability>, traitName: string): (w: real)
    ensures NonNegative(probs) ==> w >= 0.0
  {
    match FirstMatch(ProbabilityKeys(probs), traitName)
    case None => 0.0
    case Some(w) => w
  }

  /** A weight is that of the first key matching the trait, and 0 when no key matches. */
  lemma WeightOfFirstMatch(probs: seq<Probability>, traitName: string)
    ensures (forall i :: 0 <= i < |probs| ==> !Test(GlobToRegex(probs[i].pattern), traitName))
      ==> WeightOf(probs, traitName) == 0.0
    ensures forall i ::
              0 <= i < |probs| && Test(GlobToRegex(probs[i].pattern), traitName)
              && (forall j :: 0 <= j < i ==> !Test(GlobToRegex(probs[j].pattern), traitName))
              ==> WeightOf(probs, traitName) == probs[i].weight
  {
    var table := ProbabilityKeys(probs);
    var k := FirstMatchIndex(table, traitName);
    forall i | 0 <= i < |probs| && Test(GlobToRegex(probs[i].pattern), traitName)
      && (forall j :: 0 <= j < i ==> !Test(GlobToRegex(probs[j].pattern), traitName))
      ensures WeightOf(probs, traitName) == probs[i].weight
    {
      assert Test(table[i].0, traitName);
      assert k == i;
    }
  }

  /** A trait listed under its own plain name, with no earlier key matching it, has that key's weight. */
  lemma ListedTraitWeight(probs: seq<Probability>, i: nat, traitName: string)
    requires i < |probs| && probs[i].pattern == traitName
    requires MetaFree(traitName) && '*' !in traitName && NoLineTerminators(traitName)
    requires forall j :: 0 <= j < i ==> !Test(GlobToRegex(probs[j].pattern), traitName)
    ensures WeightOf(probs, traitName) == probs[i].weight
  {
    CompiledGlobMatches(traitName, traitName);
    StarlessGlobMatchesItself(traitName, traitName);
    var table := ProbabilityKeys(probs);
    var k := FirstMatchIndex(table, traitName);
    assert Test(table[i].0, traitName);
    assert k == i;
  }

  /** A weighting: what each trait weighs. */
  type Weighting = string -> real

  /** The weighting the probability table defines. */
  function WeightFn(probs: seq<Probability>): Weighting
  {
    t => WeightOf(probs, t)
  }

  ghost predicate NonNegativeWeighting(weight: Weighting)
  {
    forall t :: weight(t) >= 0.0
  }

  lemma NonNegativeTable(probs: seq<Probability>)
    requires NonNegative(probs)
    ensures NonNegativeWeighting(WeightFn(probs))
  {
    forall t ensures WeightFn(probs)(t) >= 0.0 {
      assert WeightFn(probs)(t) == WeightOf(probs, t);
    }
  }

  /** `calculateTotalWeightForTraits`: the sum of the traits' weights, left to right. */
  function TotalWeight(weight: Weighting, traits: seq<string>): (w: real)
    ensures NonNegativeWeighting(weight) ==> w >= 0.0
    decreases |traits|
  {
    if traits == [] then 0.0
    else TotalWeight(weight, traits[..|traits| - 1]) + weight(traits[|traits| - 1])
  }

  lemma {:induction false} TotalWeightAppend(weight: Weighting, a: seq<string>, b: seq<string>)
    ensures TotalWeight(weight, a + b) == TotalWeight(weight, a) + TotalWeight(weight, b)
    decreases |b|
  {
    if b == [] {
      assert a + b == a;
    } else {
      var b' := b[..|b| - 1];
      assert (a + b)[..|a + b| - 1] == a + b';
      TotalWeightAppend(weight, a, b');
    }
  }

  /** Splitting a list by any predicate splits its weight: what is kept and what is dropped add up. */
  lemma {:induction false} TotalWeightPartition(weight: Weighting, s: seq<string>, p: string -> bool)
    ensures TotalWeight(weight, Filter(s, p)) + TotalWeight(weight, Filter(s, t => !p(t))) == TotalWeight(weight, s)
  {
    if s != [] {
      TotalWeightPartition(weight, s[1..], p);
      var h := [s[0]];
      assert s == h + s[1..];
      TotalWeightAppend(weight, h, s[1..]);
      assert TotalWeight(weight, h) == weight(s[0]) by {
        assert h[..0] == [];
      }
      if p(s[0]) {
        assert Filter(s, p) == h + Filter(s[1..], p);
        TotalWeightAppend(weight, h, Filter(s[1..], p));
      } else {
        assert Filter(s, t => !p(t)) == h + Filter(s[1..], t => !p(t));
        TotalWeightAppend(weight, h, Filter(s[1..], t => !p(t)));
      }
    }
  }

  /** With non-negative weights, filtering never increases the total weight. */
  lemma FilteredWeightAtMost(weight: Weighting, s: seq<string>, p: string -> bool)
    requires NonNegativeWeighting(weight)
    ensures TotalWeight(weight, Filter(s, p)) <= TotalWeight(weight, s)
  {
    TotalWeightPartition(weight, s, p);
  }
}

=== FILE: wrappers.dfy ===
/** Option and Result, for JavaScript's `undefined` results and thrown errors. */
module Wrappers {

  datatype Option<+T> = None | Some(value: T)

  datatype Result<+T, +E> = Ok(value: T) | Err(error: E)
}
